=== FILE: README.md ===
# spienx-hub core, modelled in Dafny

spienx-hub is a Django platform that hosts Git repositories and renders
documentation built from them with Sphinx. This project models its core as
pure Dafny functions over immutable state and proves properties of them.

- **Records.** The table rows of the accounts, repositories, git and
  documents applications are datatypes. Each table is a map from a row id, or
  from the row's natural key, to the row. An INSERT is a function that refuses
  a row whose unique key is already taken (`Tables.Insert`).
- **Repository jobs.** The background jobs that initialise, clone and sync
  repositories (`GitTasks`) map the tables and the set of existing paths to a
  new state and the job's reply. The same holds for the creation services
  (`RepositoryServices`, `GitServices`) and the handlers that browse a
  repository (`RepoHandlers`). The dispatcher's retry policy is a reply
  carrying a countdown.
- **Request handling.** The RPC session authentication and the null-Origin
  filter are functions of the request's headers and the session and user
  tables.
- **Documentation build.** The renderer callbacks (`JsxBuilder`) transform the
  documentation store (`DocumentModels.Store`). The build task
  (`DocumentTasks`) sequences the checkout, version stamp, save and render
  steps, and always removes its temporary directory.

Steps the program delegates to Git, the file system or Sphinx are
parameters (a `StepOutcome`, a `GitOutcome` that also names what a failed run
left on disk, or a value) rather than computed. Database writes are functions
on the tables: a unique-key INSERT can be refused, and the build record's save
is a parameter; every other write is taken to succeed, as "## Left out" lists.
The clock is a `now: Time` parameter.

Shared vocabulary lives in `Common` (option and result types, string
splitting and stripping), `Paths` (POSIX `join`, `dirname`, `rmtree` over a
set of paths), `Ordering` (string order and a sort by a total preorder) and `Tables`
(unique-key inserts).

## Model

| member | source | states |
|---|---|---|
| AccountsModels.ParsePermission | src/accounts/models.py:6-11 | a stored permission is accepted exactly when it is one of none, read, write, admin |
| AccountsModels.PermissionCodeRoundTrip | src/accounts/models.py:6-11 | each permission level reads back from its stored spelling, and only that spelling reads back as it |
| AccountsModels.AddOrganisation | src/accounts/models.py:17-18 | an organisation is stored exactly when its id, name and slug are all unused; uniqueness of name and slug is kept |
| AccountsModels.NewMembership | src/accounts/models.py:58-61 | a new membership has role read and is active |
| AccountsModels.AddMembership | src/accounts/models.py:67 | at most one membership per (user, organisation): the insert succeeds exactly when the pair is free, and uniqueness is kept |
| AccountsModels.AddTeam | src/accounts/models.py:94 | team slugs stay unique within an organisation |
| AccountsModels.NewTeamMembership | src/accounts/models.py:122-123 | a new team membership has role member and is active |
| AccountsModels.AddTeamMembership | src/accounts/models.py:129 | at most one team membership per (team, user) |
| AccountsModels.NewProfile | src/accounts/models.py:152-155 | a new profile has no organisation, role read, an empty bio, no avatar and is active |
| AccountsModels.ProfileLabel | src/accounts/models.py:166-168 | the label is the username followed by the organisation name in parentheses, or "No Organisation" when there is none |
| AccountsModels.NewInvite | src/accounts/models.py:186-187 | a new invite is pending with role read |
| AccountsModels.AddInvite | src/accounts/models.py:199 | at most one invite per (organisation, email) |
| AccountsModels.DuplicateInviteRefused | src/accounts/models.py:199 | inviting the same address to the same organisation a second time is refused, whoever sends it |
| AccountsServices.UpdateCurrentUser | src/accounts/services.py:34-51 | each non-empty requested field overwrites, each empty one keeps the stored value; no other field changes; a non-empty field is never cleared |
| AccountsServices.UpdateCurrentUserComposes | src/accounts/services.py:38-44 | two updates in a row equal one update whose fields come from the later request when non-empty, else from the earlier |
| AccountsServices.UpdateCurrentUserIdempotent | src/accounts/services.py:38-44 | repeating an update changes nothing more |
| AccountsServices.GetOrCreateProfile | src/accounts/services.py:80 | afterwards the user has a profile; an existing profile is returned untouched, a missing one is created with the defaults |
| AccountsServices.GetCurrentUserProfile | src/accounts/services.py:75-83 | the returned profile is the stored one; no other profile is changed and none but the user's is created |
| AccountsServices.GetCurrentUserProfileStable | src/accounts/services.py:75-83 | reading the profile a second time neither creates nor changes anything |
| AccountsServices.UpdateCurrentUserProfile | src/accounts/services.py:92-110 | get-or-create, then bio and avatar URL merge field by field; other users' profiles are untouched |
| AccountsServices.ProfileBioNeverCleared | src/accounts/services.py:99-103 | a stored bio is never emptied by a profile update |
| RepositoryModels.NewRepository | src/repositories/models.py:6-29 | a new repository is bare and public with no owner and no mirror columns |
| RepositoryModels.AddRepository | src/repositories/models.py:18-22 | a repository is stored exactly when its id, its (organisation, name) and its local path are all unused; both uniqueness constraints are kept |
| RepositoryModels.SharedPathRefused | src/repositories/models.py:18-22 | a second repository at an occupied local path is refused whatever its name |
| RepositoryModels.RepositoryLabel | src/repositories/models.py:48-49 | the label is "<organisation>/<name>" |
| RepositoryModels.GitUrl | src/repositories/models.py:51-55 | the clone URL is exactly "https://<domain>/git/", then "<organisation>/<name>" as the repository label gives it, then ".git" |
| RepositoryModels.NewMirror | src/repositories/models.py:58-113 | a new mirror is pending, sourced from GitHub, syncs hourly and automatically, with no failures, message or sync time |
| RepositoryModels.MirrorLabel | src/repositories/models.py:122-123 | the mirror label is the repository label followed by " (mirror)" |
| RepositoryModels.NewSyncTask | src/repositories/models.py:126-146 | a new sync task is pending with no commits, no message and timestamps consistent with its status |
| RepositoryModels.AddSyncTask | src/repositories/models.py:146 | the dispatcher task id stays unique |
| GitTasks.RetryAfter | src/repositories/tasks/git_tasks.py:57 | below three retries a retry is scheduled after 60 * 2^retries seconds; at the limit the error propagates |
| GitTasks.RetryCountdownDoubles | src/repositories/tasks/git_tasks.py:116 | each retry waits twice as long as the one before |
| GitTasks.Dispatch | src/repositories/tasks/git_tasks.py:192 | the dispatcher's replies: every reply before the last schedules a retry |
| GitTasks.DispatchBacksOff | src/repositories/tasks/git_tasks.py:192 | a job that fails alike on every run from retry r gets countdowns 60 * 2^(r+i) for the retries left, and then its error propagates |
| GitTasks.FailingSyncBacksOff | src/repositories/tasks/git_tasks.py:137-192 | a sync whose fetch keeps failing (or whose directory is missing) backs off with the same error on every run until the limit |
| GitTasks.FailingSyncFromFirstRun | src/repositories/tasks/git_tasks.py:175-192 | from the first run a failing sync is retried after 60, 120 and 240 seconds, then its error propagates |
| GitTasks.BacksOffFromFirstRun | src/repositories/tasks/git_tasks.py:192 | backing off from the first run is exactly the three waits 60, 120 and 240 and then the error |
| GitTasks.DeleteRepository | src/repositories/tasks/git_tasks.py:54 | the repository row goes with its sync tasks; nothing else changes |
| GitTasks.InitializeRepository | src/repositories/tasks/git_tasks.py:25-57 | a missing row replies not found; success creates the parent and the repository directory and leaves the row unchanged; a failed step deletes the row and its sync tasks and nothing else, keeps the parent directory when it was made and whatever a failed `git init` left behind, and asks for a retry |
| GitTasks.InitializeRetryFindsNothing | src/repositories/tasks/git_tasks.py:50-57 | the retry that follows a failed initialisation finds no row and replies not found, whatever its own steps would do |
| GitTasks.FailedInitializeEndsNotFound | src/repositories/tasks/git_tasks.py:25-57 | a failed initialisation below the limit is retried once after 60 * 2^retries seconds and the job then ends with not found |
| GitTasks.RecordFailure | src/repositories/tasks/git_tasks.py:106-108 | the mirror becomes failed with the message and one more consecutive failure; nothing else changes |
| GitTasks.RecordSuccess | src/repositories/tasks/git_tasks.py:86-89 | the mirror becomes active, synced now, with no failures and no message; nothing else changes |
| GitTasks.CloneMirror | src/repositories/tasks/git_tasks.py:64-116 | non-mirrors are not found; a clone records success; a failure records the failure and asks for a retry, and removes everything at the mirror's path when the cleanup succeeds or leaves the paths as the failed step left them when it fails; only this row changes |
| GitTasks.CloneRetryRecovers | src/repositories/tasks/git_tasks.py:64-116 | a failed clone followed by a successful retry leaves the mirror active, synced at the retry, with no failures counted and its directory present |
| GitTasks.SyncMirror | src/repositories/tasks/git_tasks.py:119-192 | a missing directory or failed fetch records a failure and asks for a retry, otherwise success; a named sync task ends completed or failed with both timestamps; a named task that does not exist fails the mirror and touches no task; paths never change |
| GitTasks.ConsecutiveFailuresCount | src/repositories/tasks/git_tasks.py:151 | after a run of syncs the failure count is the number of failures since the last success, or the old count plus the run's length when none succeeded |
| RepoHandlers.CreateWorkdir | src/repositories/repo_handlers.py:83-106 | the target directory exists afterwards; a bare repository issues exactly one worktree add and yields the worktree; a non-bare one issues nothing and yields itself |
| RepoHandlers.RemoveWorktreeArgs | src/repositories/repo_handlers.py:108-129 | the command is worktree remove of the path, with --force exactly when forced |
| RepoHandlers.DeleteWorkdir | src/repositories/repo_handlers.py:108-129 | as intended, with `git worktree remove` run by git: the command is issued with `--force` exactly when forced; a successful removal deletes the worktree's tree of paths; a failure leaves the paths alone |
| RepoHandlers.DeleteWorkdirAsWritten | src/repositories/repo_handlers.py:121-129 | as written, the handler always raises and removes nothing: `ValueError` exactly when the repository cannot be opened, otherwise `GitCommandNotFound` for the program `worktree` |
| RepoHandlers.DeleteAsWrittenKeepsWorktree | src/repositories/repo_handlers.py:83-129 | as written, a bare repository's worktree created at a fresh path survives its deletion for every path and `force`, where the intended removal gives the paths back |
| RepoHandlers.WorkdirRoundTrip | src/repositories/repo_handlers.py:83-129 | creating a worktree of a bare repository at a fresh path and removing it restores the paths exactly when the removal succeeds |
| RepoHandlers.GetFileContent | src/repositories/repo_handlers.py:201-222 | a missing path, a blob, and anything else (a tree or a submodule) are told apart: not found, the blob's text, or not a file |
| RepoHandlers.ListDirectory | src/repositories/repo_handlers.py:224-263 | a missing path is not found and a blob or submodule is not a directory; a listing holds one entry per child of the tree at the path, trees before blobs and by name within each group, each with its child path, and only blob entries carry a size |
| RepoHandlers.ListedPathsResolve | src/repositories/repo_handlers.py:250-258 | every listed path looks up to an item with the entry's object id; the entry is a tree exactly for a tree, has a size exactly for a blob, and is a blob without size exactly for a submodule |
| RepoHandlers.GetFilePath | src/repositories/repo_handlers.py:265-282 | the content is returned exactly when the path names a blob, and every failure becomes None |
| RepoHandlers.GetTree | src/repositories/repo_handlers.py:284-304 | the empty path gives the root; otherwise whatever item the path names, or an error when none |
| RepoHandlers.GetBlob | src/repositories/repo_handlers.py:306-327 | the item is returned exactly when the path names a blob; a tree is "not a blob", a missing path "not found" |
| RepoHandlers.GetFileSize | src/repositories/repo_handlers.py:329-344 | a size exists exactly when the blob does, and is the blob's size |
| RepoHandlers.ListBranches | src/repositories/repo_handlers.py:374-394 | one entry per head, a permutation of the heads' entries, sorted by name |
| RepoHandlers.ListTags | src/repositories/repo_handlers.py:396-418 | one entry per tag, a permutation of the tags' entries, sorted by name |
| RepoHandlers.GetBranchInfo | src/repositories/repo_handlers.py:420-441 | an error exactly when no head has the name; otherwise the entry of such a head |
| RepoHandlers.GetTagInfo | src/repositories/repo_handlers.py:443-466 | an error exactly when no tag has the name; otherwise the entry of such a tag |
| RepoHandlers.GetCommits | src/repositories/repo_handlers.py:468-500 | the walk returns exactly the history entries with indices in [skip, skip + limit), in history order |
| RepoHandlers.PagesConcatenate | src/repositories/repo_handlers.py:468-500 | two consecutive pages of one size make up the page of twice that size |
| RepoHandlers.CommitToInfo | src/repositories/repo_handlers.py:521-537 | every commit field is copied, a missing message reads as "", and the summary is the message's first line |
| RepoHandlers.SummaryUnique | src/repositories/repo_handlers.py:523-524 | the summary is the only newline-free prefix that stops at the first newline or at the end |
| Naming.SafeName | src/repositories/services.py:36 | the directory name keeps only alphanumerics, "-" and "_", and never contains "/" |
| Naming.SafeNameIdempotent | src/repositories/services.py:36 | sanitising twice is sanitising once |
| Naming.SafeNameFixpoint | src/repositories/services.py:36 | a name is unchanged exactly when every character is safe |
| Naming.SafeNameCounts | src/repositories/services.py:36 | each safe character is kept as often as it occurs; every other character is gone |
| Naming.StoragePathsCollide | src/repositories/services.py:38 | within an organisation, two names share a directory exactly when they sanitise alike |
| Naming.StoragePathsSeparateOrganisations | src/repositories/services.py:38 | repositories of different organisations never share a directory |
| Naming.FlatPathsCollide | src/repositories/services.py:72 | without the organisation directory, names collide exactly when they sanitise alike, across organisations |
| RepositoryServices.PrepareCreate | src/repositories/services.py:24-40 | only the local path is filled in, from the organisation and the sanitised name |
| RepositoryServices.Create | src/repositories/services.py:24-40 | the insert succeeds exactly when the prepared row is admissible, and keeps the table's uniqueness |
| RepositoryServices.SanitisedNameClash | src/repositories/services.py:24-40 | two names of one organisation that sanitise alike cannot both be created |
| RepositoryServices.InitAsWritten | src/repositories/services.py:62-84 | as written, Init never saves a record: an existing organisation with a successful git init ends in an unexpected-keyword error; a failed git init keeps exactly what it left on disk |
| RepositoryServices.InitAsWrittenOrphansRepository | src/repositories/services.py:74-84 | as written, every successful git init leaves a bare repository on disk with no record |
| RepositoryServices.Init | src/repositories/services.py:62-89 | a missing organisation changes nothing; a failed git init saves nothing and keeps exactly what it left on disk (the directory `Repo.init` made); otherwise the directory exists and the record is saved exactly when the insert is admissible |
| RepositoryServices.InitSavesRecord | src/repositories/services.py:76-84 | a successful Init stores a bare record under the requested name at a path that exists |
| RepositoryServices.InitCollidesAcrossOrganisations | src/repositories/services.py:72 | a name that sanitises like an existing one is refused even in another organisation |
| GitServices.PrepareCreate | src/git/services.py:22-38 | only the local path is filled in, from the organisation and the sanitised name |
| GitServices.Create | src/git/services.py:22-38 | the insert succeeds exactly when the prepared row is admissible |
| GitServices.SanitisedNamesShareStorage | src/git/services.py:34-36 | within an organisation, paths coincide exactly when names sanitise alike, and then the second create is refused |
| GitModels.ParseStatus | src/git/models.py:8-15 | a stored status is accepted exactly when it is one of the six declared choices |
| GitModels.StatusCodeRoundTrip | src/git/models.py:8-15 | each status reads back from its stored spelling, and only that spelling reads back as it |
| GitModels.NewRepository | src/git/models.py:5-61 | a new repository is a pending, bare, public GitHub mirror on branch main with no commits, sync, owner, hash or message |
| GitModels.AddRepository | src/git/models.py:39-43 | the insert succeeds exactly when id, (organisation, name) and path are unused, and keeps both uniqueness constraints |
| GitModels.RepositoryLabel | src/git/models.py:83-84 | the label is "<organisation>/<name>" |
| GitModels.NewBranch | src/git/models.py:87-97 | a new branch is not the default branch |
| GitModels.AddBranch | src/git/models.py:102 | at most one branch per (repository, name) |
| GitModels.BranchLabel | src/git/models.py:107-108 | the label is "<repository>/<branch>" |
| GitModels.OrderBranches | src/git/models.py:101 | branches are listed as a permutation sorted by name |
| GitModels.AddCommit | src/git/models.py:128 | at most one commit per (repository, hash) |
| GitModels.OrderCommits | src/git/models.py:127 | commits are listed as a permutation, newest first |
| GitModels.NewestListedFirst | src/git/models.py:127 | the first commit listed is at least as new as any commit |
| GitModels.CommitLabel | src/git/models.py:134-135 | the label is "<repository>/" followed by the first eight characters of the hash |
| Authentication.CookiePair | src/core/authentication.py:27-28 | an item yields a cookie exactly when it contains "="; the name never contains "=", and name, "=" and value put back together are the stripped item |
| Authentication.CookiePairSplitsAtFirstEquals | src/core/authentication.py:28 | an item that strips to "name=value" with no "=" in the name yields exactly that name and value, even when the value contains "=" |
| Authentication.SpacedItemNamesCookie | src/core/authentication.py:26-28 | a clean "name=value" item after a space, as splitting "a=1; sessionid=x" leaves it, names that cookie with that value |
| Authentication.AddCookie | src/core/authentication.py:27-29 | one item adds or overwrites the cookie it names and leaves the others alone |
| Authentication.CookiePresent | src/core/authentication.py:25-29 | a cookie is present exactly when some item names it |
| Authentication.CookieLastWins | src/core/authentication.py:25-29 | a cookie's value comes from the last item that names it |
| Authentication.ParseCookieHeader | src/core/authentication.py:25-29 | no parsed cookie name contains "=" |
| Authentication.Authenticate | src/core/authentication.py:10-48 | an active authenticated request user is accepted; an empty header or missing sessionid gives no user; an unknown session raises; a session naming an active user authenticates that user, anything else gives no user; an authenticated user is always active |
| Authentication.AuthenticateRaisesOnlyForUnknownSession | src/core/authentication.py:35-46 | authentication raises only when the sessionid cookie names no stored session |
| Authentication.AttachedUser | src/core/authentication.py:41-44 | a user authenticated through the session is attached to the request; otherwise the request keeps its user |
| Authentication.AttachedUserSettlesLaterChecks | src/core/authentication.py:12-14 | once attached, a later authentication of the request returns the attached user whatever the cookie and sessions say |
| Middleware.RewriteOrigin | src/core/middleware.py:27-31 | a null Origin becomes "<scheme>://<host>" exactly when the request is also same-origin; such a request fails with DisallowedHost exactly when the host lookup does; every other header, and every other request, is untouched |
| Middleware.RewriteOriginIdempotent | src/core/middleware.py:27-31 | running the filter again on headers it let through changes nothing |
| Middleware.AllowNullOrigin | src/core/middleware.py:26-33 | the downstream handler sees the rewritten headers and its response is returned; a DisallowedHost escapes before the handler runs |
| DocumentModels.NewDocument | src/documents/models.py:5-18 | a new document is stamped with the current time and has an empty global context |
| DocumentModels.NaturalKeysUnique | src/documents/models.py:36 | in a valid store no two pages share (document, name), no two sections share (page, hash), and no two assets share (document, path) |
| DocumentModels.PageLabel | src/documents/models.py:39-40 | the label is "<document title> - <page name>" |
| DocumentModels.SectionLabel | src/documents/models.py:62-63 | the label is "<page name> - <section title>" |
| DocumentModels.AssetLabel | src/documents/models.py:76-77 | the label is "<document title> - <asset path>" |
| DocumentModels.OrderPages | src/documents/models.py:37 | pages are listed as a permutation sorted by name |
| DocumentModels.OrderDocuments | src/documents/models.py:21 | documents are listed as a permutation, most recently built first |
| JsxBuilder.SectionRow | src/documents/builder/jsx_builder.py:95-106 | a section row belongs to its page and hash, refers to the block of its own hash, and stores missing line numbers as 0 |
| JsxBuilder.AddSections | src/documents/builder/jsx_builder.py:79-106 | the loop adds a block for each usable hash and never changes an existing block; it adds or overwrites sections of this page only, one per usable hash |
| JsxBuilder.AddSectionsKeepsValid | src/documents/builder/jsx_builder.py:79-106 | once the page exists, the section loop keeps every reference resolving |
| JsxBuilder.SectionLastWins | src/documents/builder/jsx_builder.py:95-106 | a section's fields come from the last usable entry with its hash |
| JsxBuilder.BlockKeepsFirstBody | src/documents/builder/jsx_builder.py:88-93 | a new block keeps the body of the first usable entry with its hash |
| JsxBuilder.AddSectionsIdempotent | src/documents/builder/jsx_builder.py:79-106 | running the section loop a second time changes nothing |
| JsxBuilder.PageName | src/documents/builder/jsx_builder.py:57 | the page name is current_page_name when non-empty, else pagename; it is empty exactly when both are |
| JsxBuilder.CreatePage | src/documents/builder/jsx_builder.py:51-106 | without a docId nothing happens; a missing document raises; an empty page name changes nothing; otherwise the page is upserted with defaults "" and {}; the blocks gain exactly the usable section hashes; the page's section keys become its old ones plus the usable hashes, each new one pointing at its own block, and its other sections are kept; documents, assets, existing blocks and other pages' sections are kept; validity is kept |
| JsxBuilder.CreatePageIdempotent | src/documents/builder/jsx_builder.py:51-106 | the same page callback twice leaves the store as one call does |
| JsxBuilder.SharedBlockAcrossPages | src/documents/builder/jsx_builder.py:88-106 | two pages with a section of the same hash get two rows pointing at one block, which holds the first body |
| JsxBuilder.CreateAsset | src/documents/builder/jsx_builder.py:35-49 | without a docId nothing happens; a missing document raises; otherwise the asset under (document, path) is created or has its hash overwritten, and validity is kept |
| JsxBuilder.CreateAssetIdempotent | src/documents/builder/jsx_builder.py:35-49 | the same asset callback twice leaves the store as one call does |
| JsxBuilder.Finalize | src/documents/builder/jsx_builder.py:23-33 | the document gets the given global context (default {}) and the save time; nothing else changes |
| JsxBuilder.FinalizeIgnoresGivenTimestamp | src/documents/builder/jsx_builder.py:31 | the timestamp handed to finalize never reaches the store |
| DocumentTasks.WorkdirReference | src/documents/tasks.py:46 | the checkout uses the build's reference, or HEAD when it has none |
| DocumentTasks.StampVersion | src/documents/tasks.py:50-60 | the commit is the checked-out one when known; the version is the derived one, else the first seven hash characters, else unchanged |
| DocumentTasks.VersionFallsBackToShortHash | src/documents/tasks.py:57-60 | a failed version derivation falls back to the abbreviated checked-out commit |
| DocumentTasks.Confdir | src/documents/tasks.py:71-73 | the configuration directory is the joined path, minus its last component when it ends in conf.py |
| DocumentTasks.ConfdirDropsAnyConfPySuffix | src/documents/tasks.py:72-73 | any file name ending in conf.py, such as myconf.py, is dropped |
| DocumentTasks.ConfdirOfNestedConfPy | src/documents/tasks.py:71-73 | a conf_path "<dir>/conf.py" resolves to the working directory joined with <dir> |
| DocumentTasks.Extensions | src/documents/tasks.py:83-88 | the configured extensions are kept in order and the store builder is appended last |
| DocumentTasks.Finish | src/documents/tasks.py:108-114 | a successful cleanup leaves nothing under the temporary directory; paths outside it always survive |
| DocumentTasks.RunSphinxBuild | src/documents/tasks.py:31-114 | no source means no work; nothing outside the temporary directory is lost; a saved build is the stamped one; a propagated error means nothing was rendered, and when the build was saved it is the output directory's failure; the renderer's source and configuration directory is the resolved configuration directory of the checkout, its output and doctree directories lie in the temporary directory, and it gets the build's id |
| DocumentTasks.BuildSucceedsExactly | src/documents/tasks.py:36-106 | the build job reports success exactly when there is a source, the checkout, the save and the output directory succeed, the configuration directory exists and rendering completes |
| DocumentTasks.BuildSphinxDocs | src/documents/tasks.py:15-28 | an unknown build gives no reply; otherwise the reply is the build run |
| Paths.Join | src/repositories/services.py:38 | an absolute name replaces the directory; otherwise the result starts with the directory, ends with the name and adds at most one separator |
| Paths.JoinInjective | src/repositories/services.py:38 | with the directory fixed, joining distinct relative names gives distinct paths |
| Paths.DirnameOfJoin | src/documents/tasks.py:71-73 | dirname undoes joining a plain file name onto a directory |
| Paths.RemoveTree | src/documents/tasks.py:110-112 | rmtree removes the root and everything below it, and nothing else |

## Left out

- I/O and external calls: Git (GitPython), the file system, the database
  session and Sphinx do not appear as code. The outcome of each Git and
  file-system step is a parameter; a failed `git init` or `git clone` also
  names the paths it left behind. The clock is a `now` parameter.
- Celery machinery, async wrappers and the gRPC servicers: only what each job
  or handler computes is modelled. The retry countdown is the reply.
- `HeaderDebugMiddleware`: it only prints headers.
- Resolving a reference to its commit in the repository handlers: the
  handlers take the resolved root tree and the heads, tags and history as
  given. UTF-8 decoding of blob text is left out; blob text is a string.
- `checkout_branch`, `checkout_commit`, `get_commit_details`,
  `get_branch_commits` and `get_tag_commits`: each delegates to GitPython or
  to `get_commits` without logic of its own.
- `os.makedirs` of ancestors: the git jobs add the parent and the target
  path, `create_workdir` adds its target, and the build job adds `_build`
  and `_build/djangojsx` below the temporary directory. Missing ancestors
  further up are not added to the set of paths.
- Middleware.RewriteOrigin: the check of the Host header against
  `ALLOWED_HOSTS` inside `get_host()` is a parameter: the host it returns,
  or none when it raises `DisallowedHost`.
- Database writes other than the unique-key INSERTs and the build's
  `build.save()` are taken to succeed: the sync job's saves of the sync task
  and the mirror (src/repositories/tasks/git_tasks.py:132-190), the
  initialise job's `repo.delete()`, the builder's `doc.save()`,
  `get_or_create` and `update_or_create`, and the account services'
  `user.save()`, `profile.save()` and `aget_or_create`. A database error
  raised by any of them is not modelled.
- GitTasks.CloneMirror: the saves of the mirror record always succeed, so
  the case where the failure record's save raises, and the cleanup is
  skipped, is not modelled. A failing cleanup `rmtree` is taken to remove
  nothing, though it may have removed part of the tree.
- GitTasks.Dispatch: every run of a job sees the same step outcomes, and no
  other job changes the state between runs; the countdown is the reply, and
  the waiting itself is not modelled.
- Ordering.SortBy: the relative order of elements that tie under the order
  is not stated.
- The services' fallback that picks the last user when the request has none:
  the current user is a parameter.
- Authentication.Authenticate: a session whose user id is not numeric makes
  the real lookup raise `ValueError`; the model treats user ids as keys, so
  that case reads as "unknown user".
- Naming.SafeName: `str.isalnum` is read as ASCII letters and digits. Other
  Unicode letters and digits are dropped rather than kept.
- Common.Strip: `str.strip` is read as removing ASCII whitespace only (space, tab, line feed, vertical tab, form feed, carriage return and U+001C to U+001F); the non-ASCII characters Python also strips, such as U+0085, U+00A0 and the Unicode space separators, are kept.
- JSON columns hold no floating-point numbers in the model. A JSON `null`
  given as a page context is kept as a value rather than read as absent.
- DocumentTasks.StampVersion: an empty repository, whose head has no commit,
  raises in the real code. The model treats it as having no head.
- DocumentTasks.RunSphinxBuild: reading the configuration, constructing the
  renderer and building are merged into one render outcome. The callbacks the
  renderer then invokes are modelled by `JsxBuilder` but not chained to the
  task.
- Orderings without an operation that uses them (organisations, memberships,
  invites and profiles by creation time) are not modelled.
- The `git` application's SyncTask has the same columns as the one in the
  repositories application and is modelled by `RepositoryModels.SyncTask`.

Where the code and its documented behaviour differ, the model follows the
code:

- `initialize_repository` does not set any status on success; only mirrors
  have a status.
- `sync_mirror_repository` writes the status `mirroring`, which is not among
  the mirror's declared choices (src/repositories/tasks/git_tasks.py:134).
  It is stored like any other value.
- `finalize` assigns the renderer's `last_build_at`, but the column is
  stamped automatically on save, so the document records the save time.
- A session key with no stored session does not give "no user". The
  `except` clause names `User`, which is bound only further down, so
  `UnboundLocalError` escapes (src/core/authentication.py:45).
- The builder writes content blocks and `Section.content_block`, which
  src/documents/models.py does not declare (it has `Section.body`). The store
  follows the builder; its uniqueness keys follow the model file. The
  build job's `Build` model is not part of src/documents/models.py. The job hands
  `build.pk` to the renderer, and the callbacks look it up as a document id.
- The creation service's `Init` places the repository directly below the
  storage root, with no organisation directory. Equal names therefore
  collide across organisations.

## Findings

| source | as written | input that shows it | evidently intended | confidence | as-written member | corrected member |
|---|---|---|---|---|---|---|
| src/repositories/services.py:76-83 | `Init` builds the repository record with `status='active'`, but the repositories application's `GitRepository` has no `status` field, so the constructor raises `TypeError` after `git init` (line 74) has already created the bare repository | any request naming an existing organisation, with `git init` succeeding | the record is saved (without a status) and its id and path are returned | not executed | RepositoryServices.InitAsWrittenOrphansRepository | RepositoryServices.InitSavesRecord |
| src/repositories/repo_handlers.py:121-129 | `delete_workdir` passes `['worktree', 'remove', path]` (plus `--force`) to `Git.execute`, which runs the first element as the program; there is no program `worktree`, so the call raises `GitCommandNotFound`, which is not a `GitCommandError` and escapes the `except` clause | any worktree path, with or without `force`, on a repository that opens | `git worktree remove <path> [--force]` removes the worktree, and a git failure is raised as `ValueError("Failed to delete worktree: …")` | not executed | RepoHandlers.DeleteAsWrittenKeepsWorktree | RepoHandlers.WorkdirRoundTrip |

=== FILE: accounts_models.dfy ===
/**
 * Organisations, memberships, teams, profiles and invites: their field
 * defaults, the permission vocabulary they share, their uniqueness
 * constraints, and the profile's display string.
 */
module AccountsModels {
  import opened Common
  import Tables

  type UserId = nat
  type OrgId = nat
  type TeamId = nat

  /** The permission levels shared by membership roles, profile roles and invite roles. */
  datatype Permission = NoPermission | Read | Write | Admin

  /** The value stored in the database for a permission level. */
  function PermissionCode(p: Permission): string {
    match p
    case NoPermission => "none"
    case Read => "read"
    case Write => "write"
    case Admin => "admin"
  }

  /** Reading a stored value back; anything outside the four choices is rejected. */
  function ParsePermission(code: string): (p: Option<Permission>)
    ensures p.Some? <==> code in {"none", "read", "write", "admin"}
  {
    if code == "none" then Some(NoPermission)
    else if code == "read" then Some(Read)
    else if code == "write" then Some(Write)
    else if code == "admin" then Some(Admin)
    else None
  }

  /** Exactly the four levels round-trip through their stored spelling. */
  lemma PermissionCodeRoundTrip(p: Permission, code: string)
    ensures ParsePermission(PermissionCode(p)) == Some(p)
    ensures ParsePermission(code) == Some(p) ==> PermissionCode(p) == code
  {
  }

  datatype Organisation = Organisation(
    name: string,
    slug: string,
    description: string,
    isActive: bool,
    createdBy: Option<UserId>)

  datatype Membership = Membership(
    user: UserId,
    organisation: OrgId,
    role: Permission,
    title: string,
    notes: string,
    isActive: bool)

  datatype Team = Team(
    organisation: OrgId,
    name: string,
    slug: string,
    description: string,
    isActive: bool)

  datatype TeamRole = Member | Maintainer

  datatype TeamMembership = TeamMembership(
    team: TeamId,
    user: UserId,
    role: TeamRole,
    isActive: bool)

  datatype UserProfile = UserProfile(
    user: UserId,
    organisation: Option<OrgId>,
    role: Permission,
    bio: string,
    avatarUrl: Option<string>,
    isActive: bool)

  datatype InviteStatus = InvitePending | InviteAccepted | InviteDeclined

  datatype Invite = Invite(
    organisation: OrgId,
    email: string,
    role: Permission,
    status: InviteStatus,
    invitedBy: Option<UserId>)

  /** A membership created with only its user and organisation given. */
  function NewMembership(user: UserId, org: OrgId): (m: Membership)
    ensures m.user == user && m.organisation == org
    ensures m.role == Read && m.isActive
  {
    Membership(user, org, Read, "", "", true)
  }

  /** A team membership created with only its team and user given. */
  function NewTeamMembership(team: TeamId, user: UserId): (m: TeamMembership)
    ensures m.team == team && m.user == user
    ensures m.role == Member && m.isActive
  {
    TeamMembership(team, user, Member, true)
  }

  /** A profile created for a user with nothing else given (as `get_or_create` does). */
  function NewProfile(user: UserId): (p: UserProfile)
    ensures p.user == user && p.organisation.None?
    ensures p.role == Read && p.bio == "" && p.avatarUrl.None? && p.isActive
  {
    UserProfile(user, None, Read, "", None, true)
  }

  /** An invite created with only its organisation, address and sender given. */
  function NewInvite(org: OrgId, email: string, invitedBy: Option<UserId>): (i: Invite)
    ensures i.organisation == org && i.email == email && i.invitedBy == invitedBy
    ensures i.status == InvitePending && i.role == Read
  {
    Invite(org, email, Read, InvitePending, invitedBy)
  }

  function OrgName(o: Organisation): string { o.name }
  function OrgSlug(o: Organisation): string { o.slug }
  function MembershipKey(m: Membership): (UserId, OrgId) { (m.user, m.organisation) }
  function TeamKey(t: Team): (OrgId, string) { (t.organisation, t.slug) }
  function TeamMembershipKey(m: TeamMembership): (TeamId, UserId) { (m.team, m.user) }
  function InviteKey(i: Invite): (OrgId, string) { (i.organisation, i.email) }

  /** Both organisation name and slug are unique system-wide. */
  function AddOrganisation(orgs: map<OrgId, Organisation>, id: OrgId, o: Organisation): (r: Result<map<OrgId, Organisation>, Tables.IntegrityError>)
    ensures r.Ok? <==> id !in orgs && Tables.KeyFree(orgs, OrgName, o) && Tables.KeyFree(orgs, OrgSlug, o)
    ensures r.Ok? ==> r.value == orgs[id := o]
    ensures r.Ok? && Tables.UniqueOn(orgs, OrgName) ==> Tables.UniqueOn(r.value, OrgName)
    ensures r.Ok? && Tables.UniqueOn(orgs, OrgSlug) ==> Tables.UniqueOn(r.value, OrgSlug)
  {
    match Tables.Insert(orgs, id, o, OrgName)
    case Err(e) => Err(e)
    case Ok(_) => Tables.Insert(orgs, id, o, OrgSlug)
  }

  /** One membership per (user, organisation). */
  function AddMembership(ms: map<nat, Membership>, id: nat, m: Membership): (r: Result<map<nat, Membership>, Tables.IntegrityError>)
    ensures r.Ok? <==> id !in ms && Tables.KeyFree(ms, MembershipKey, m)
    ensures r.Ok? ==> r.value == ms[id := m]
    ensures r.Ok? && Tables.UniqueOn(ms, MembershipKey) ==> Tables.UniqueOn(r.value, MembershipKey)
  {
    Tables.Insert(ms, id, m, MembershipKey)
  }

  /** Team slugs are unique within an organisation. */
  function AddTeam(ts: map<TeamId, Team>, id: TeamId, t: Team): (r: Result<map<TeamId, Team>, Tables.IntegrityError>)
    ensures r.Ok? <==> id !in ts && Tables.KeyFree(ts, TeamKey, t)
    ensures r.Ok? ==> r.value == ts[id := t]
    ensures r.Ok? && Tables.UniqueOn(ts, TeamKey) ==> Tables.UniqueOn(r.value, TeamKey)
  {
    Tables.Insert(ts, id, t, TeamKey)
  }

  /** One team membership per (team, user). */
  function AddTeamMembership(ms: map<nat, TeamMembership>, id: nat, m: TeamMembership): (r: Result<map<nat, TeamMembership>, Tables.IntegrityError>)
    ensures r.Ok? <==> id !in ms && Tables.KeyFree(ms, TeamMembershipKey, m)
    ensures r.Ok? ==> r.value == ms[id := m]
    ensures r.Ok? && Tables.UniqueOn(ms, TeamMembershipKey) ==> Tables.UniqueOn(r.value, TeamMembershipKey)
  {
    Tables.Insert(ms, id, m, TeamMembershipKey)
  }

  /** One invite per (organisation, email). */
  function AddInvite(invites: map<nat, Invite>, id: nat, i: Invite): (r: Result<map<nat, Invite>, Tables.IntegrityError>)
    ensures r.Ok? <==> id !in invites && Tables.KeyFree(invites, InviteKey, i)
    ensures r.Ok? ==> r.value == invites[id := i]
    ensures r.Ok? && Tables.UniqueOn(invites, InviteKey) ==> Tables.UniqueOn(r.value, InviteKey)
  {
    Tables.Insert(invites, id, i, InviteKey)
  }

  /** Inviting the same address to the same organisation twice is refused. */
  lemma {:induction false} DuplicateInviteRefused(invites: map<nat, Invite>, id: nat, id2: nat, org: OrgId, email: string, by1: Option<UserId>, by2: Option<UserId>)
    requires AddInvite(invites, id, NewInvite(org, email, by1)).Ok?
    ensures AddInvite(AddInvite(invites, id, NewInvite(org, email, by1)).value, id2, NewInvite(org, email, by2)).Err?
  {
    Tables.SecondInsertRefused(invites, id, NewInvite(org, email, by1), id2, NewInvite(org, email, by2), InviteKey);
  }

  /**
   * `UserProfile.__str__`: the username followed by the organisation's name in
   * parentheses, or by "No Organisation" when the profile has none.
   */
  function ProfileLabel(username: string, orgName: Option<string>): (r: string)
    ensures StartsWith(r, username + " (") && EndsWith(r, ")")
    ensures |r| == |username| + |orgName.GetOr("No Organisation")| + 3
    ensures r[|username| + 2..|r| - 1] == orgName.GetOr("No Organisation")
  {
    username + " (" + orgName.GetOr("No Organisation") + ")"
  }
}

=== FILE: accounts_services.dfy ===
/**
 * The current-user services: updating the user's own name and address, and
 * reading or updating the user's profile. Every update merges field by field:
 * a non-empty request value overwrites, an empty one leaves the stored value.
 * The profile is fetched with get-or-create, so it exists afterwards.
 *
 * How the current user is found is left out: the user arrives as a parameter.
 */
module AccountsServices {
  import opened Common
  import opened AccountsModels

  datatype User = User(
    id: UserId,
    username: string,
    email: string,
    firstName: string,
    lastName: string,
    isActive: bool,
    isStaff: bool,
    isSuperuser: bool)

  /** The three optional string fields of an update request; absent reads as "". */
  datatype UserUpdate = UserUpdate(email: string, firstName: string, lastName: string)

  datatype ProfileUpdate = ProfileUpdate(bio: string, avatarUrl: string)

  /** `if request.x: obj.x = request.x`. */
  function Overwrite(stored: string, requested: string): string {
    if requested != "" then requested else stored
  }

  /** `UpdateCurrentUser`: the saved and reloaded user. */
  function UpdateCurrentUser(u: User, req: UserUpdate): (r: User)
    ensures req.email != "" ==> r.email == req.email
    ensures req.email == "" ==> r.email == u.email
    ensures req.firstName != "" ==> r.firstName == req.firstName
    ensures req.firstName == "" ==> r.firstName == u.firstName
    ensures req.lastName != "" ==> r.lastName == req.lastName
    ensures req.lastName == "" ==> r.lastName == u.lastName
    ensures r.(email := u.email, firstName := u.firstName, lastName := u.lastName) == u
    ensures u.email != "" ==> r.email != ""
    ensures u.firstName != "" ==> r.firstName != ""
    ensures u.lastName != "" ==> r.lastName != ""
  {
    u.(email := Overwrite(u.email, req.email),
       firstName := Overwrite(u.firstName, req.firstName),
       lastName := Overwrite(u.lastName, req.lastName))
  }

  /** Two updates in a row act as one update whose non-empty fields come from the later request first. */
  lemma UpdateCurrentUserComposes(u: User, first: UserUpdate, second: UserUpdate)
    ensures UpdateCurrentUser(UpdateCurrentUser(u, first), second)
         == UpdateCurrentUser(u, UserUpdate(Overwrite(first.email, second.email),
                                            Overwrite(first.firstName, second.firstName),
                                            Overwrite(first.lastName, second.lastName)))
  {
  }

  /** Repeating an update changes nothing more. */
  lemma UpdateCurrentUserIdempotent(u: User, req: UserUpdate)
    ensures UpdateCurrentUser(UpdateCurrentUser(u, req), req) == UpdateCurrentUser(u, req)
  {
  }

  /** Profiles are one-to-one with users, so the table is keyed by the user. */
  type Profiles = map<UserId, UserProfile>

  /** `UserProfile.objects.get_or_create(user=user)`. */
  function GetOrCreateProfile(profiles: Profiles, user: UserId): (r: (Profiles, UserProfile))
    ensures user in r.0 && r.0[user] == r.1
    ensures user in profiles ==> r.0 == profiles && r.1 == profiles[user]
    ensures user !in profiles ==> r.0 == profiles[user := NewProfile(user)]
    ensures r.0.Keys == profiles.Keys + {user}
  {
    if user in profiles then (profiles, profiles[user])
    else (profiles[user := NewProfile(user)], NewProfile(user))
  }

  /** `GetCurrentUserProfile`: the profile is created on first access. */
  function GetCurrentUserProfile(profiles: Profiles, user: User): (r: (Profiles, UserProfile))
    ensures user.id in r.0 && r.0[user.id] == r.1
    ensures forall v :: v in profiles ==> v in r.0 && r.0[v] == profiles[v]
    ensures forall v :: v in r.0 && v != user.id ==> v in profiles
  {
    GetOrCreateProfile(profiles, user.id)
  }

  /** Asking for the profile a second time neither creates nor changes anything. */
  lemma GetCurrentUserProfileStable(profiles: Profiles, user: User)
    ensures GetCurrentUserProfile(GetCurrentUserProfile(profiles, user).0, user) == GetCurrentUserProfile(profiles, user)
  {
  }

  /** `UpdateCurrentUserProfile`: get-or-create, then merge bio and avatar URL. */
  function UpdateCurrentUserProfile(profiles: Profiles, user: User, req: ProfileUpdate): (r: (Profiles, UserProfile))
    ensures user.id in r.0 && r.0[user.id] == r.1
    ensures r.0.Keys == profiles.Keys + {user.id}
    ensures forall v :: v in profiles && v != user.id ==> r.0[v] == profiles[v]
    ensures var before := if user.id in profiles then profiles[user.id] else NewProfile(user.id);
      && r.1.(bio := before.bio, avatarUrl := before.avatarUrl) == before
      && r.1.bio == (if req.bio != "" then req.bio else before.bio)
      && r.1.avatarUrl == (if req.avatarUrl != "" then Some(req.avatarUrl) else before.avatarUrl)
  {
    var (ps, p) := GetOrCreateProfile(profiles, user.id);
    var p' := p.(bio := Overwrite(p.bio, req.bio),
                 avatarUrl := if req.avatarUrl != "" then Some(req.avatarUrl) else p.avatarUrl);
    (ps[user.id := p'], p')
  }

  /** A stored bio is never cleared by a profile update. */
  lemma ProfileBioNeverCleared(profiles: Profiles, user: User, req: ProfileUpdate)
    requires user.id in profiles && profiles[user.id].bio != ""
    ensures UpdateCurrentUserProfile(profiles, user, req).1.bio != ""
  {
  }
}

=== FILE: authentication.dfy ===
/**
 * Session authentication for the RPC transport: a user already attached to
 * the request is accepted as is; otherwise the `sessionid` cookie is read
 * from the raw Cookie header and looked up in the session store.
 */
module Authentication {
  import opened Common

  datatype AccountUser = AccountUser(id: nat, username: string, isActive: bool, isAuthenticated: bool)

  // ------------------------------------------------------------------------
  // Cookie header parsing

  /** A `name=value` item, stripped and split at its first `=`; items without `=` carry no cookie. */
  function CookiePair(item: string): (r: Option<(string, string)>)
    ensures r.Some? <==> '=' in item
    ensures r.Some? ==> '=' !in r.value.0
    ensures r.Some? ==> r.value.0 + "=" + r.value.1 == Strip(item)
  {
    if '=' !in item then None
    else
      var s := Strip(item);
      StripKeeps(item, '=');
      var i := IndexOf(s, '=');
      SliceAround(s, i);
      Some((s[..i], s[i + 1..]))
  }

  /**
   * An item splits, after stripping, into the text before its first `=` and
   * everything after it: `" sessionid=x"`, as `split(';')` leaves it after
   * `"a=1;"`, names `sessionid`.
   */
  lemma CookiePairSplitsAtFirstEquals(item: string, name: string, value: string)
    requires Strip(item) == name + "=" + value && '=' !in name
    ensures CookiePair(item) == Some((name, value))
  {
    var s := name + "=" + value;
    assert s[|name|] == '=';
    assert '=' in item by {
      StripInside(item);
    }
    assert s[..|name|] == name;
    IndexOfUnique(s, '=', |name|);
    assert s[|name| + 1..] == value;
  }

  /**
   * A clean `name=value` item after a space, as `split(';')` leaves every
   * item but the first of `"a=1; sessionid=x"`.
   */
  lemma SpacedItemNamesCookie(name: string, value: string)
    requires name != "" && !IsSpace(name[0]) && '=' !in name
    requires value == "" || !IsSpace(value[|value| - 1])
    ensures CookiePair(" " + name + "=" + value) == Some((name, value))
  {
    var t := name + "=" + value;
    assert t[0] == name[0];
    assert t[|t| - 1] == if value == "" then '=' else value[|value| - 1];
    var item := " " + name + "=" + value;
    assert item == [' '] + t;
    StripLeftSpace(' ', t);
    StripClean(t);
    CookiePairSplitsAtFirstEquals(item, name, value);
  }

  /** One pass of the loop: a later item with the same name overwrites the earlier value. */
  function AddCookie(cookies: map<string, string>, item: string): (r: map<string, string>)
    ensures forall name :: name in r <==> name in cookies || Names(item, name)
    ensures forall name | name in cookies && !Names(item, name) :: r[name] == cookies[name]
    ensures forall name | Names(item, name) :: r[name] == CookiePair(item).value.1
  {
    match CookiePair(item)
    case None => cookies
    case Some((name, value)) => cookies[name := value]
  }

  /** The `cookies` dict after the loop has seen `items`, in order. */
  function Cookies(items: seq<string>): map<string, string>
  {
    if items == [] then map[]
    else AddCookie(Cookies(items[..|items| - 1]), items[|items| - 1])
  }

  predicate Names(item: string, name: string) {
    CookiePair(item).Some? && CookiePair(item).value.0 == name
  }

  /** A cookie is present exactly when some item names it. */
  lemma {:induction false} CookiePresent(items: seq<string>, name: string)
    ensures name in Cookies(items) <==> exists k :: 0 <= k < |items| && Names(items[k], name)
  {
    if items != [] {
      var n := |items| - 1;
      CookiePresent(items[..n], name);
      assert items == items[..n] + [items[n]];
      ExistsSnoc(items[..n], items[n], (item: string) => Names(item, name));
    }
  }

  /** The value of a cookie is the one from the last item that names it. */
  lemma {:induction false} CookieLastWins(items: seq<string>, name: string, k: nat)
    requires k < |items| && Names(items[k], name)
    requires forall j :: k < j < |items| ==> !Names(items[j], name)
    ensures name in Cookies(items) && Cookies(items)[name] == CookiePair(items[k]).value.1
  {
    var n := |items| - 1;
    if k < n {
      var init := items[..n];
      assert init[k] == items[k];
      forall j | k < j < |init| ensures !Names(init[j], name) {
        assert init[j] == items[j];
      }
      CookieLastWins(init, name, k);
    }
  }

  /** The cookies of a header: its `;`-separated items, in order. */
  function ParseCookieHeader(header: string): (cookies: map<string, string>)
    ensures forall name | name in cookies :: '=' !in name
  {
    var items := Split(header, ';');
    CookieNamesClean(items);
    Cookies(items)
  }

  lemma {:induction false} CookieNamesClean(items: seq<string>)
    ensures forall name | name in Cookies(items) :: '=' !in name
  {
    if items != [] {
      CookieNamesClean(items[..|items| - 1]);
    }
  }

  // ------------------------------------------------------------------------
  // Authentication

  /** The session store: session key to the stored `_auth_user_id`, if any. */
  type Sessions = map<string, Option<string>>

  /** Users by the text form of their primary key. */
  type Users = map<string, AccountUser>

  datatype AuthResult =
    | Authenticated(user: AccountUser)
    | NotAuthenticated
    | Raised(exception: string)

  /**
   * `GrpcSessionAuthentication.authenticate`. A missing session row makes the
   * `except` clause name a local that is bound only further down, so the
   * lookup failure surfaces as `UnboundLocalError` instead of `None`.
   */
  function Authenticate(requestUser: Option<AccountUser>, cookieHeader: Option<string>, sessions: Sessions, users: Users): (r: AuthResult)
    ensures requestUser.Some? && requestUser.value.isActive && requestUser.value.isAuthenticated ==>
      r == Authenticated(requestUser.value)
    ensures !(requestUser.Some? && requestUser.value.isActive && requestUser.value.isAuthenticated) ==>
      var cookies := ParseCookieHeader(cookieHeader.GetOr(""));
      var key := if "sessionid" in cookies then cookies["sessionid"] else "";
      && (cookieHeader.GetOr("") == "" ==> r == NotAuthenticated)
      && (cookieHeader.GetOr("") != "" && key == "" ==> r == NotAuthenticated)
      && (cookieHeader.GetOr("") != "" && key != "" && key !in sessions ==> r == Raised("UnboundLocalError"))
      && (cookieHeader.GetOr("") != "" && key != "" && key in sessions ==>
            var uid := sessions[key].GetOr("");
            r == if uid != "" && uid in users && users[uid].isActive then Authenticated(users[uid]) else NotAuthenticated)
    ensures r.Authenticated? ==> r.user.isActive
  {
    if requestUser.Some? && requestUser.value.isActive && requestUser.value.isAuthenticated then
      Authenticated(requestUser.value)
    else
      var header := cookieHeader.GetOr("");
      if header == "" then NotAuthenticated
      else
        var cookies := ParseCookieHeader(header);
        var key := if "sessionid" in cookies then cookies["sessionid"] else "";
        if key == "" then NotAuthenticated
        else if key !in sessions then Raised("UnboundLocalError")
        else
          var uid := sessions[key].GetOr("");
          if uid == "" then NotAuthenticated
          else if uid !in users then NotAuthenticated
          else if !users[uid].isActive then NotAuthenticated
          else Authenticated(users[uid])
  }

  /** Only an unknown session key can make authentication raise. */
  lemma AuthenticateRaisesOnlyForUnknownSession(requestUser: Option<AccountUser>, header: string, sessions: Sessions, users: Users)
    requires Authenticate(requestUser, Some(header), sessions, users).Raised?
    ensures var cookies := ParseCookieHeader(header);
      "sessionid" in cookies && cookies["sessionid"] != "" && cookies["sessionid"] !in sessions
  {
  }

  /**
   * The request's user after `authenticate`: a user found through the
   * session is attached to the request; otherwise the request keeps the
   * user it came with.
   */
  function AttachedUser(requestUser: Option<AccountUser>, cookieHeader: Option<string>, sessions: Sessions, users: Users): (u: Option<AccountUser>)
    ensures Authenticate(requestUser, cookieHeader, sessions, users).Authenticated? ==>
      u == Some(Authenticate(requestUser, cookieHeader, sessions, users).user)
    ensures !Authenticate(requestUser, cookieHeader, sessions, users).Authenticated? ==> u == requestUser
  {
    match Authenticate(requestUser, cookieHeader, sessions, users)
    case Authenticated(user) => Some(user)
    case _ => requestUser
  }

  /**
   * Once a user is attached, the next authentication of the same request is
   * settled by the attached user alone, whatever the cookie and the session
   * store say by then.
   */
  lemma AttachedUserSettlesLaterChecks(requestUser: Option<AccountUser>, cookieHeader: Option<string>, sessions: Sessions, users: Users,
                                       laterHeader: Option<string>, laterSessions: Sessions, laterUsers: Users)
    requires Authenticate(requestUser, cookieHeader, sessions, users).Authenticated?
    requires Authenticate(requestUser, cookieHeader, sessions, users).user.isAuthenticated
    ensures Authenticate(AttachedUser(requestUser, cookieHeader, sessions, users), laterHeader, laterSessions, laterUsers)
      == Authenticate(requestUser, cookieHeader, sessions, users)
  {
  }
}

=== FILE: common.dfy ===
/**
 * Shared vocabulary for the whole model: an Option and a Result type standing
 * in for Python's `None` and raised exceptions, and the handful of Python `str`
 * operations the platform's code relies on, written out over `seq<char>`.
 */
module Common {

  /** A value that may be absent (`None` in Python, or a missing dict key). */
  datatype Option<T> = None | Some(value: T) {
    /** `d.get(key, default)`: the value, or the default when absent. */
    function GetOr(default: T): T {
      match this
      case Some(v) => v
      case None => default
    }
  }

  /** A call that either returns a value or raises an error. */
  datatype Result<T, E> = Ok(value: T) | Err(error: E)

  /** An opaque reading of the clock (`timezone.now()`); only equality and order matter. */
  type Time = int

  /** What a call into code outside the model did: completed, or raised with a message. */
  datatype StepOutcome = StepOk | StepFailed(message: string)

  /**
   * How a `git init` or `git clone` went. A failed run may leave paths
   * behind: `Repo.init` creates the target directory before git runs, and a
   * clone may stop halfway.
   */
  datatype GitOutcome = GitDone | GitFailed(message: string, leftBehind: set<string>)

  /** A list comprehension `[f(x) for x in s]`. */
  function MapSeq<A, B>(f: A -> B, s: seq<A>): (r: seq<B>)
    ensures |r| == |s|
    ensures forall k :: 0 <= k < |s| ==> r[k] == f(s[k])
  {
    if s == [] then [] else [f(s[0])] + MapSeq(f, s[1..])
  }

  /** A comprehension over a concatenation is the concatenation of the comprehensions. */
  lemma {:induction false} MapSeqAppend<A, B>(f: A -> B, s: seq<A>, t: seq<A>)
    ensures MapSeq(f, s + t) == MapSeq(f, s) + MapSeq(f, t)
  {
    if s == [] {
      assert s + t == t;
    } else {
      assert (s + t)[0] == s[0];
      assert (s + t)[1..] == s[1..] + t;
      MapSeqAppend(f, s[1..], t);
    }
  }

  /** Some element of `init + [x]` satisfies `p` exactly when some element of `init`, or `x`, does. */
  lemma ExistsSnoc<T>(init: seq<T>, x: T, p: T -> bool)
    ensures (exists k :: 0 <= k < |init + [x]| && p((init + [x])[k])) <==>
      (exists k :: 0 <= k < |init| && p(init[k])) || p(x)
  {
    var s := init + [x];
    if k :| 0 <= k < |s| && p(s[k]) {
      if k < |init| {
        assert init[k] == s[k];
      }
    }
    if k :| 0 <= k < |init| && p(init[k]) {
      assert s[k] == init[k];
    }
    assert s[|init|] == x;
  }

  /** ASCII reading of Python's `str.isalnum`. */
  predicate IsAsciiAlnum(c: char) {
    ('a' <= c <= 'z') || ('A' <= c <= 'Z') || ('0' <= c <= '9')
  }

  /**
   * Python's `str.isspace` on ASCII: space, `\t`, `\n`, `\v`, `\f`, `\r`
   * and the separators U+001C to U+001F.
   */
  predicate IsSpace(c: char) {
    || c == ' ' || c == '\t' || c == '\n' || c == '\r' || c == '\U{000B}' || c == '\U{000C}'
    || ('\U{001C}' <= c <= '\U{001F}')
  }

  predicate StartsWith(s: string, prefix: string) {
    |prefix| <= |s| && s[..|prefix|] == prefix
  }

  /** Python's `s.endswith(suffix)`: a literal suffix test. */
  predicate EndsWith(s: string, suffix: string) {
    |suffix| <= |s| && s[|s| - |suffix|..] == suffix
  }

  /** Python's slice `s[:n]` for a non-negative `n`, which never fails on short strings. */
  function Take(s: string, n: nat): (r: string)
    ensures |r| == if n < |s| then n else |s|
    ensures r == s[..|r|]
  {
    if n < |s| then s[..n] else s
  }

  /** Position of the first `c` in `s`. */
  function IndexOf(s: string, c: char): (i: nat)
    requires c in s
    ensures i < |s| && s[i] == c
    ensures c !in s[..i]
  {
    if s[0] == c then 0
    else
      var j := IndexOf(s[1..], c);
      assert s[..1 + j] == [s[0]] + s[1..][..j];
      1 + j
  }

  /** Python's `s.split(sep)` with an explicit one-character separator. */
  function Split(s: string, sep: char): (parts: seq<string>)
    ensures |parts| >= 1
    ensures forall k :: 0 <= k < |parts| ==> sep !in parts[k]
    decreases |s|
  {
    if sep !in s then [s]
    else
      var i := IndexOf(s, sep);
      [s[..i]] + Split(s[i + 1..], sep)
  }

  /** Python's `sep.join(parts)`, the inverse of `Split`. */
  function Join(parts: seq<string>, sep: char): string
  {
    if |parts| == 0 then ""
    else if |parts| == 1 then parts[0]
    else parts[0] + [sep] + Join(parts[1..], sep)
  }

  /** Splitting and re-joining gives back the original string. */
  lemma {:induction false} JoinSplit(s: string, sep: char)
    ensures Join(Split(s, sep), sep) == s
    decreases |s|
  {
    if sep in s {
      var i := IndexOf(s, sep);
      JoinSplit(s[i + 1..], sep);
      var rest := Split(s[i + 1..], sep);
      assert Split(s, sep) == [s[..i]] + rest;
      assert ([s[..i]] + rest)[1..] == rest;
      assert s == s[..i] + [sep] + s[i + 1..];
    }
  }

  /** Joining separator-free parts and splitting again gives back the parts. */
  lemma {:induction false} SplitJoin(parts: seq<string>, sep: char)
    requires |parts| >= 1
    requires forall k :: 0 <= k < |parts| ==> sep !in parts[k]
    ensures Split(Join(parts, sep), sep) == parts
  {
    if |parts| > 1 {
      SplitJoin(parts[1..], sep);
      SplitCons(parts[0], sep, Join(parts[1..], sep));
      assert parts == [parts[0]] + parts[1..];
    }
  }

  /** A separator-free first part is split off by the first separator. */
  lemma SplitCons(head: string, sep: char, tail: string)
    requires sep !in head
    ensures Split(head + [sep] + tail, sep) == [head] + Split(tail, sep)
  {
    var s := head + [sep] + tail;
    assert s[..|head|] == head;
    IndexOfUnique(s, sep, |head|);
    assert s[|head| + 1..] == tail;
  }

  /** Any first occurrence is the one `IndexOf` finds. */
  lemma IndexOfUnique(s: string, c: char, i: nat)
    requires i < |s| && s[i] == c && c !in s[..i]
    ensures IndexOf(s, c) == i
  {
  }

  /** Appending a separator and a separator-free part adds exactly that part. */
  lemma {:induction false} SplitAppend(s: string, sep: char, part: string)
    requires sep !in part
    ensures Split(s + [sep] + part, sep) == Split(s, sep) + [part]
    decreases |s|
  {
    var t := s + [sep] + part;
    if sep !in s {
      assert t[..|s|] == s;
      IndexOfUnique(t, sep, |s|);
      assert t[|s| + 1..] == part;
    } else {
      var i := IndexOf(s, sep);
      assert t[..i] == s[..i];
      IndexOfUnique(t, sep, i);
      assert t[i + 1..] == s[i + 1..] + [sep] + part;
      SplitAppend(s[i + 1..], sep, part);
    }
  }

  /** Python's `s.lstrip()`: drops the leading whitespace. */
  function StripLeft(s: string): (r: string)
    ensures |r| <= |s| && r == s[|s| - |r|..]
    ensures forall k :: 0 <= k < |s| - |r| ==> IsSpace(s[k])
    ensures r == [] || !IsSpace(r[0])
  {
    if |s| > 0 && IsSpace(s[0]) then StripLeft(s[1..]) else s
  }

  /** Python's `s.rstrip()`: drops the trailing whitespace. */
  function StripRight(s: string): (r: string)
    ensures |r| <= |s| && r == s[..|r|]
    ensures forall k :: |r| <= k < |s| ==> IsSpace(s[k])
    ensures r == [] || !IsSpace(r[|r| - 1])
  {
    if |s| > 0 && IsSpace(s[|s| - 1]) then StripRight(s[..|s| - 1]) else s
  }

  /** Python's `s.strip()`. */
  function Strip(s: string): string {
    StripRight(StripLeft(s))
  }

  /** Stripping removes whitespace only: every other character survives. */
  lemma StripKeeps(s: string, c: char)
    requires c in s && !IsSpace(c)
    ensures c in Strip(s)
  {
    StripLeftKeeps(s, c);
    StripRightKeeps(StripLeft(s), c);
  }

  lemma {:induction false} StripLeftKeeps(s: string, c: char)
    requires c in s && !IsSpace(c)
    ensures c in StripLeft(s)
  {
    if IsSpace(s[0]) {
      assert s == [s[0]] + s[1..];
      StripLeftKeeps(s[1..], c);
    }
  }

  lemma {:induction false} StripRightKeeps(s: string, c: char)
    requires c in s && !IsSpace(c)
    ensures c in StripRight(s)
  {
    var n := |s| - 1;
    if IsSpace(s[n]) {
      assert s == s[..n] + [s[n]];
      StripRightKeeps(s[..n], c);
    }
  }

  /** A leading whitespace character is the first thing `lstrip` drops. */
  lemma StripLeftSpace(c: char, t: string)
    requires IsSpace(c)
    ensures StripLeft([c] + t) == StripLeft(t)
  {
    assert ([c] + t)[1..] == t;
  }

  /** A string with no whitespace at either end is its own `strip`. */
  lemma StripClean(t: string)
    requires t != [] && !IsSpace(t[0]) && !IsSpace(t[|t| - 1])
    ensures StripLeft(t) == t && Strip(t) == t
  {
  }

  /** A string is the text before index `i`, the character there, and the rest. */
  lemma SliceAround(s: string, i: nat)
    requires i < |s|
    ensures s[..i] + [s[i]] + s[i + 1..] == s
  {
  }

  /** Stripping adds nothing: every character of the result comes from the input. */
  lemma StripInside(s: string)
    ensures forall c | c in Strip(s) :: c in s
  {
    var l := StripLeft(s);
    var r := StripRight(l);
    forall c | c in r ensures c in s {
      var k :| 0 <= k < |r| && r[k] == c;
      assert l[k] == c;
      assert s[k + (|s| - |l|)] == c;
    }
  }

  function DigitChar(d: nat): (c: char)
    requires d < 10
    ensures '0' <= c <= '9'
    ensures c as int - '0' as int == d
  {
    ('0' as int + d) as char
  }

  /** Python's `str(n)` for a non-negative integer. */
  function NatToString(n: nat): (r: string)
    ensures |r| >= 1
    ensures |r| == 1 <==> n < 10
    ensures forall k :: 0 <= k < |r| ==> '0' <= r[k] <= '9'
  {
    if n < 10 then [DigitChar(n)] else NatToString(n / 10) + [DigitChar(n % 10)]
  }

  /** Distinct numbers print differently. */
  lemma {:induction false} NatToStringInjective(a: nat, b: nat)
    requires NatToString(a) == NatToString(b)
    ensures a == b
  {
    if a >= 10 && b >= 10 {
      var sa := NatToString(a);
      assert sa[..|sa| - 1] == NatToString(a / 10);
      assert NatToString(b)[..|sa| - 1] == NatToString(b / 10);
      NatToStringInjective(a / 10, b / 10);
    }
  }
}

=== FILE: documents_models.dfy ===
/**
 * The documentation store: documents built from a repository, their pages,
 * the sections of each page, the content blocks that section bodies are
 * stored in (shared by hash), and static assets. Tables are maps keyed by the
 * natural keys the schema declares unique, so "at most one row per key" holds
 * by construction and `Valid` ties each row to its key.
 */
module DocumentModels {
  import opened Common
  import opened Ordering

  type DocId = nat

  /** A JSON value as stored in a JSON column (floating point left out). */
  datatype Json =
    | JNull
    | JBool(b: bool)
    | JInt(i: int)
    | JStr(s: string)
    | JArray(items: seq<Json>)
    | JObject(fields: map<string, Json>)

  /** The default of a JSON column declared with `default=dict`. */
  const EmptyObject: Json := JObject(map[])

  datatype Document = Document(
    title: string,
    source: Option<nat>,
    reference: string,
    workdir: string,
    confPath: string,
    lastBuildAt: Time,
    globalContext: Json)

  /** A document as first saved: `last_build_at` is stamped and the global context is empty. */
  function NewDocument(title: string, source: Option<nat>, reference: string, workdir: string, confPath: string, now: Time): (d: Document)
    ensures d.title == title && d.source == source && d.reference == reference
    ensures d.workdir == workdir && d.confPath == confPath
    ensures d.lastBuildAt == now && d.globalContext == EmptyObject
  {
    Document(title, source, reference, workdir, confPath, now, EmptyObject)
  }

  /** A page is identified by its document and `current_page_name`. */
  type PageKey = (DocId, string)

  /** A section is identified by its page and its hash. */
  type SectionKey = (PageKey, string)

  /** A static asset is identified by its document and path. */
  type AssetKey = (DocId, string)

  datatype Page = Page(document: DocId, currentPageName: string, title: string, context: Json)

  /** A section row; its body lives in the content block named by `contentBlock`. */
  datatype Section = Section(
    page: PageKey,
    title: string,
    sphinxId: string,
    hash: string,
    sourcePath: string,
    startLine: int,
    endLine: int,
    contentBlock: string)

  datatype StaticAsset = StaticAsset(document: DocId, path: string, hash: string)

  datatype Store = Store(
    documents: map<DocId, Document>,
    pages: map<PageKey, Page>,
    sections: map<SectionKey, Section>,
    blocks: map<string, string>,
    assets: map<AssetKey, StaticAsset>)

  /** Every row sits under its own natural key and every reference resolves. */
  predicate Valid(st: Store) {
    && (forall k | k in st.pages :: st.pages[k].document == k.0 && st.pages[k].currentPageName == k.1 && k.0 in st.documents)
    && (forall k | k in st.sections ::
          st.sections[k].page == k.0 && st.sections[k].hash == k.1 && k.0 in st.pages && st.sections[k].contentBlock in st.blocks)
    && (forall k | k in st.assets :: st.assets[k].document == k.0 && st.assets[k].path == k.1 && k.0 in st.documents)
  }

  /** The declared uniqueness: one page per (document, name), one section per (page, hash), one asset per (document, path). */
  lemma NaturalKeysUnique(st: Store)
    requires Valid(st)
    ensures forall k1, k2 | k1 in st.pages && k2 in st.pages ::
      st.pages[k1].document == st.pages[k2].document && st.pages[k1].currentPageName == st.pages[k2].currentPageName ==> k1 == k2
    ensures forall k1, k2 | k1 in st.sections && k2 in st.sections ::
      st.sections[k1].page == st.sections[k2].page && st.sections[k1].hash == st.sections[k2].hash ==> k1 == k2
    ensures forall k1, k2 | k1 in st.assets && k2 in st.assets ::
      st.assets[k1].document == st.assets[k2].document && st.assets[k1].path == st.assets[k2].path ==> k1 == k2
  {
  }

  /** "<document title> - <page name>". */
  function PageLabel(doc: Document, p: Page): (s: string)
    ensures StartsWith(s, doc.title + " - ") && EndsWith(s, p.currentPageName)
    ensures |s| == |doc.title| + 3 + |p.currentPageName|
  {
    doc.title + " - " + p.currentPageName
  }

  /** "<page name> - <section title>". */
  function SectionLabel(p: Page, s: Section): (l: string)
    ensures StartsWith(l, p.currentPageName + " - ") && EndsWith(l, s.title)
    ensures |l| == |p.currentPageName| + 3 + |s.title|
  {
    p.currentPageName + " - " + s.title
  }

  /** "<document title> - <asset path>". */
  function AssetLabel(doc: Document, a: StaticAsset): (s: string)
    ensures StartsWith(s, doc.title + " - ") && EndsWith(s, a.path)
    ensures |s| == |doc.title| + 3 + |a.path|
  {
    doc.title + " - " + a.path
  }

  /** The default page order `current_page_name`. */
  predicate PageNameLe(a: Page, b: Page) {
    StrLe(a.currentPageName, b.currentPageName)
  }

  lemma PageNameLeTotalPreorder()
    ensures TotalPreorder(PageNameLe)
  {
    forall a, b ensures PageNameLe(a, b) || PageNameLe(b, a) {
      StrLeTotal(a.currentPageName, b.currentPageName);
    }
    forall a, b, c | PageNameLe(a, b) && PageNameLe(b, c) ensures PageNameLe(a, c) {
      StrLeTransitive(a.currentPageName, b.currentPageName, c.currentPageName);
    }
  }

  /** A listing of pages in their default order. */
  function OrderPages(ps: seq<Page>): (r: seq<Page>)
    ensures multiset(r) == multiset(ps)
    ensures forall i, j :: 0 <= i < j < |r| ==> StrLe(r[i].currentPageName, r[j].currentPageName)
  {
    PageNameLeTotalPreorder();
    SortBy(ps, PageNameLe)
  }

  /** The default document order `-last_build_at`: most recently built first. */
  predicate BuiltLater(a: Document, b: Document) {
    a.lastBuildAt >= b.lastBuildAt
  }

  lemma BuiltLaterTotalPreorder()
    ensures TotalPreorder(BuiltLater)
  {
  }

  /** A listing of documents in their default order. */
  function OrderDocuments(ds: seq<Document>): (r: seq<Document>)
    ensures multiset(r) == multiset(ds)
    ensures forall i, j :: 0 <= i < j < |r| ==> r[i].lastBuildAt >= r[j].lastBuildAt
  {
    BuiltLaterTotalPreorder();
    SortBy(ds, BuiltLater)
  }
}

=== FILE: documents_tasks.dfy ===
/**
 * The documentation build task: check out the document's source into a fresh
 * temporary directory, stamp the build with its commit and version, save it,
 * locate the configuration directory and run the renderer with the store
 * builder registered. Every external step is a parameter holding its outcome;
 * the file system is the set of existing paths.
 */
module DocumentTasks {
  import opened Common
  import Paths
  import opened RepoHandlers

  /** The build record the build job works on. */
  datatype Build = Build(
    pk: nat,
    source: Option<nat>,
    reference: string,
    confPath: string,
    commitHash: string,
    version: string)

  /** The outcomes of the steps the build job cannot compute itself. */
  datatype BuildEnv = BuildEnv(
    tempDir: string,                      // the fresh directory `mkdtemp` returns
    handler: RepositoryHandler,           // the source repository's handler
    open: StepOutcome,                    // opening the source repository
    add: StepOutcome,                     // `git worktree add` (bare sources only)
    head: Option<string>,                 // the checked-out commit, when the copy has one
    version: Result<string, string>,      // deriving a version from the checkout
    save: StepOutcome,                    // saving the build record
    makeBuildDir: StepOutcome,            // `os.makedirs` of the output directory
    present: set<string>,                 // paths the checkout contains
    configExtensions: Option<seq<string>>, // the configuration's `extensions`
    render: StepOutcome,                  // reading the configuration and rendering
    rendered: set<string>,                // paths the renderer writes
    cleanup: StepOutcome)                 // `rmtree` of the temporary directory

  /** What the build job returns, or the exception it lets through. */
  datatype BuildOutcome = Returned(success: bool) | Propagated(error: string)

  /** The arguments the renderer is constructed with. */
  datatype RendererCall = RendererCall(
    srcdir: string,
    confdir: string,
    outdir: string,
    doctreedir: string,
    builderName: string,
    extensions: seq<string>,
    docId: nat)

  datatype BuildRun = BuildRun(
    fs: set<string>,
    commands: seq<seq<string>>,
    build: Build,
    saved: bool,
    renderer: Option<RendererCall>,
    outcome: BuildOutcome)

  const BuilderModule := "documents.builder.jsx_builder"
  const BuilderName := "djangojsx"

  /** The checkout reference: the build's own, or `HEAD` when it has none. */
  function WorkdirReference(b: Build): (r: string)
    ensures r != ""
    ensures b.reference != "" ==> r == b.reference
    ensures b.reference == "" ==> r == "HEAD"
  {
    if b.reference != "" then b.reference else "HEAD"
  }

  /**
   * The commit hash is taken from the checkout when it has one; the version is
   * the derived one, or else the first seven characters of the commit hash.
   */
  function StampVersion(b: Build, head: Option<string>, version: Result<string, string>): (r: Build)
    ensures r.(commitHash := b.commitHash, version := b.version) == b
    ensures r.commitHash == head.GetOr(b.commitHash)
    ensures version.Ok? ==> r.version == version.value
    ensures version.Err? && r.commitHash != "" ==> StartsWith(r.commitHash, r.version) && |r.version| == (if |r.commitHash| < 7 then |r.commitHash| else 7)
    ensures version.Err? && r.commitHash == "" ==> r.version == b.version
  {
    var b1 := if head.Some? then b.(commitHash := head.value) else b;
    match version
    case Ok(v) => b1.(version := v)
    case Err(_) => if b1.commitHash != "" then b1.(version := Take(b1.commitHash, 7)) else b1
  }

  /** A failed version derivation falls back to the abbreviated hash of the checked-out commit. */
  lemma VersionFallsBackToShortHash(b: Build, h: string, e: string)
    requires |h| >= 7
    ensures StampVersion(b, Some(h), Err(e)).version == h[..7]
  {
  }

  /**
   * The configuration directory: `conf_path` joined onto the working directory,
   * with the last component dropped when the result ends in `conf.py`.
   */
  function Confdir(workingDir: string, confPath: string): (c: string)
    ensures StartsWith(Paths.Join(workingDir, confPath), c)
    ensures !EndsWith(Paths.Join(workingDir, confPath), "conf.py") ==> c == Paths.Join(workingDir, confPath)
  {
    var joined := Paths.Join(workingDir, confPath);
    if EndsWith(joined, "conf.py") then Paths.Dirname(joined) else joined
  }

  /**
   * The `conf.py` test is on the text, not on the file name: any file name
   * ending in those letters (such as `myconf.py`) is dropped as well.
   */
  lemma ConfdirDropsAnyConfPySuffix(workingDir: string, fileName: string)
    requires workingDir != "" && workingDir[|workingDir| - 1] != '/'
    requires '/' !in fileName && EndsWith(fileName, "conf.py")
    ensures Confdir(workingDir, fileName) == workingDir
  {
    assert !Paths.IsAbsolute(fileName);
    var joined := Paths.Join(workingDir, fileName);
    assert joined == workingDir + "/" + fileName;
    assert joined[|joined| - 7..] == fileName[|fileName| - 7..];
    assert EndsWith(joined, "conf.py");
    Paths.DirnameOfJoin(workingDir, fileName);
  }

  /** The usual `docs/conf.py`: the configuration directory is `<working dir>/docs`. */
  lemma ConfdirOfNestedConfPy(workingDir: string, dir: string, fileName: string)
    requires dir != "" && !Paths.IsAbsolute(dir) && dir[|dir| - 1] != '/'
    requires '/' !in fileName && EndsWith(fileName, "conf.py")
    ensures Confdir(workingDir, dir + "/" + fileName) == Paths.Join(workingDir, dir)
  {
    var parent := Paths.Join(workingDir, dir);
    assert parent[|parent| - 1] == dir[|dir| - 1];
    assert !Paths.IsAbsolute(fileName);
    Paths.JoinNested(workingDir, dir, fileName);
    ConfdirDropsAnyConfPySuffix(parent, fileName);
  }

  /** The configured extensions with the store builder appended. */
  function Extensions(configured: Option<seq<string>>): (r: seq<string>)
    ensures |r| >= 1 && r[|r| - 1] == BuilderModule
    ensures r[..|r| - 1] == configured.GetOr([])
  {
    configured.GetOr([]) + [BuilderModule]
  }

  /**
   * The `finally` clause: remove the temporary tree (it exists by then); a
   * failing removal is only logged and leaves the paths as they are.
   */
  function Finish(fs: set<string>, env: BuildEnv): (r: set<string>)
    requires env.tempDir in fs
    ensures env.cleanup.StepOk? ==> forall p | p in r :: !Paths.Under(p, env.tempDir)
    ensures forall p | p in fs && !Paths.Under(p, env.tempDir) :: p in r
    ensures env.cleanup.StepFailed? ==> r == fs
  {
    if env.cleanup.StepOk? then Paths.RemoveTree(fs, env.tempDir) else fs
  }

  /** `run_sphinx_build`. */
  function RunSphinxBuild(fs: set<string>, b: Build, env: BuildEnv): (r: BuildRun)
    ensures b.source.None? ==> r == BuildRun(fs, [], b, false, None, Returned(false))
    ensures b.source.Some? && env.cleanup.StepOk? ==> forall p | p in r.fs :: !Paths.Under(p, env.tempDir)
    ensures forall p | p in fs && !Paths.Under(p, env.tempDir) :: p in r.fs
    ensures r.saved ==> r.build == StampVersion(b, env.head, env.version) && env.save.StepOk?
    ensures r.outcome.Propagated? ==> b.source.Some? && r.renderer.None?
    ensures r.outcome.Propagated? && r.saved ==> env.makeBuildDir.StepFailed? && r.outcome.error == env.makeBuildDir.message
    ensures r.renderer.Some? ==>
      var wd := CreateWorkdir(env.handler, fs + {env.tempDir}, env.tempDir, WorkdirReference(b), env.open, env.add);
      var call := r.renderer.value;
      && r.saved
      && env.makeBuildDir.StepOk?
      && r.outcome == Returned(env.render.StepOk?)
      && wd.result.Ok?
      && call.confdir == Confdir(wd.result.value, b.confPath)
      && call.srcdir == call.confdir
      && call.doctreedir == Paths.Join(env.tempDir, "_doctrees")
      && call.builderName == BuilderName
      && call.extensions == Extensions(env.configExtensions)
      && call.docId == b.pk
      && call.outdir == Paths.Join(Paths.Join(env.tempDir, "_build"), BuilderName)
    ensures env.handler.isBare && b.source.Some? && env.open.StepOk? ==>
      r.commands == [WorktreeAddArgs(env.tempDir, WorkdirReference(b))]
  {
    if b.source.None? then BuildRun(fs, [], b, false, None, Returned(false))
    else
      var wd := CreateWorkdir(env.handler, fs + {env.tempDir}, env.tempDir, WorkdirReference(b), env.open, env.add);
      if wd.result.Err? then
        BuildRun(Finish(wd.fs, env), wd.commands, b, false, None, Propagated(wd.result.error))
      else
        var b1 := StampVersion(b, env.head, env.version);
        if env.save.StepFailed? then
          BuildRun(Finish(wd.fs, env), wd.commands, b1, false, None, Propagated(env.save.message))
        else if env.makeBuildDir.StepFailed? then
          BuildRun(Finish(wd.fs, env), wd.commands, b1, true, None, Propagated(env.makeBuildDir.message))
        else
          var buildDir := Paths.Join(Paths.Join(env.tempDir, "_build"), BuilderName);
          var fs2 := wd.fs + {Paths.Join(env.tempDir, "_build"), buildDir};
          var confdir := Confdir(wd.result.value, b1.confPath);
          if confdir !in fs2 + env.present then
            BuildRun(Finish(fs2, env), wd.commands, b1, true, None, Returned(false))
          else
            var call := RendererCall(confdir, confdir, buildDir, Paths.Join(env.tempDir, "_doctrees"),
                                     BuilderName, Extensions(env.configExtensions), b1.pk);
            BuildRun(Finish(fs2 + env.rendered, env), wd.commands, b1, true, Some(call), Returned(env.render.StepOk?))
  }

  /**
   * The build job reports success exactly when there is a source, the
   * checkout, the save and the output directory succeed, the configuration
   * directory exists and rendering completes.
   */
  lemma BuildSucceedsExactly(fs: set<string>, b: Build, env: BuildEnv)
    ensures var wd := CreateWorkdir(env.handler, fs + {env.tempDir}, env.tempDir, WorkdirReference(b), env.open, env.add);
      var onDisk := wd.fs + {Paths.Join(env.tempDir, "_build"), Paths.Join(Paths.Join(env.tempDir, "_build"), BuilderName)} + env.present;
      RunSphinxBuild(fs, b, env).outcome == Returned(true) <==>
        && b.source.Some?
        && wd.result.Ok?
        && env.save.StepOk?
        && env.makeBuildDir.StepOk?
        && Confdir(wd.result.value, b.confPath) in onDisk
        && env.render.StepOk?
  {
    if b.source.Some? {
      var wd := CreateWorkdir(env.handler, fs + {env.tempDir}, env.tempDir, WorkdirReference(b), env.open, env.add);
      if wd.result.Ok? && env.save.StepOk? && env.makeBuildDir.StepOk? {
        var b1 := StampVersion(b, env.head, env.version);
        assert b1.confPath == b.confPath;
      }
    }
  }

  /** The build job's reply: `None` when the build does not exist, else what the build run returns. */
  datatype TaskReply = NoBuild | Ran(run: BuildRun)

  /** `build_sphinxdocs`. */
  function BuildSphinxDocs(builds: map<nat, Build>, id: nat, fs: set<string>, env: BuildEnv): (r: TaskReply)
    ensures r.NoBuild? <==> id !in builds
    ensures r.Ran? ==> r.run == RunSphinxBuild(fs, builds[id], env)
  {
    if id !in builds then NoBuild else Ran(RunSphinxBuild(fs, builds[id], env))
  }
}

=== FILE: git_models.dfy ===
/**
 * The older `git` application's records: a repository that is a mirror by
 * default and tracks its own status, its branches, and the commits synced
 * from it. Field defaults, uniqueness, display strings and the commit order.
 * Its sync-task table has the same columns as the one in the repositories
 * application and is modelled by `RepositoryModels.SyncTask`.
 */
module GitModels {
  import opened Common
  import Tables
  import opened Ordering

  type OrgId = nat
  type RepoId = nat

  datatype Status = Pending | Initializing | Mirroring | Active | Failed | Archived

  function StatusCode(s: Status): string {
    match s
    case Pending => "pending"
    case Initializing => "initializing"
    case Mirroring => "mirroring"
    case Active => "active"
    case Failed => "failed"
    case Archived => "archived"
  }

  function ParseStatus(code: string): (s: Option<Status>)
    ensures s.Some? <==> code in {"pending", "initializing", "mirroring", "active", "failed", "archived"}
  {
    if code == "pending" then Some(Pending)
    else if code == "initializing" then Some(Initializing)
    else if code == "mirroring" then Some(Mirroring)
    else if code == "active" then Some(Active)
    else if code == "failed" then Some(Failed)
    else if code == "archived" then Some(Archived)
    else None
  }

  /** Exactly the six statuses round-trip through their stored spelling. */
  lemma StatusCodeRoundTrip(s: Status, code: string)
    ensures ParseStatus(StatusCode(s)) == Some(s)
    ensures ParseStatus(code) == Some(s) ==> StatusCode(s) == code
  {
  }

  datatype SourceType = GitHub | GitLab | Gitea | Custom

  datatype Repository = Repository(
    name: string,
    description: string,
    organisation: OrgId,
    sourceUrl: string,
    sourceType: SourceType,
    localPath: string,
    status: Status,
    isMirror: bool,
    isBare: bool,
    defaultBranch: string,
    lastSyncedAt: Option<Time>,
    lastCommitHash: string,
    totalCommits: int,
    isPublic: bool,
    owner: Option<nat>,
    errorMessage: string)

  /** A repository created with only its name, organisation, source and path given. */
  function NewRepository(name: string, org: OrgId, sourceUrl: string, localPath: string): (r: Repository)
    ensures r.name == name && r.organisation == org && r.sourceUrl == sourceUrl && r.localPath == localPath
    ensures r.status == Pending && r.isMirror && r.isBare && r.isPublic
    ensures r.defaultBranch == "main" && r.totalCommits == 0 && r.sourceType == GitHub
    ensures r.lastSyncedAt.None? && r.owner.None? && r.lastCommitHash == "" && r.errorMessage == ""
  {
    Repository(name, "", org, sourceUrl, GitHub, localPath, Pending, true, true, "main", None, "", 0, true, None, "")
  }

  function NameKey(r: Repository): (OrgId, string) { (r.organisation, r.name) }
  function PathKey(r: Repository): string { r.localPath }

  /** INSERT under `(organisation, name)` and `local_path` uniqueness. */
  function AddRepository(repos: map<RepoId, Repository>, id: RepoId, r: Repository): (res: Result<map<RepoId, Repository>, Tables.IntegrityError>)
    ensures res.Ok? <==> id !in repos && Tables.KeyFree(repos, NameKey, r) && Tables.KeyFree(repos, PathKey, r)
    ensures res.Ok? ==> res.value == repos[id := r]
    ensures res.Ok? && Tables.UniqueOn(repos, NameKey) && Tables.UniqueOn(repos, PathKey) ==>
      Tables.UniqueOn(res.value, NameKey) && Tables.UniqueOn(res.value, PathKey)
  {
    match Tables.Insert(repos, id, r, NameKey)
    case Err(e) => Err(e)
    case Ok(_) => Tables.Insert(repos, id, r, PathKey)
  }

  /** "<organisation>/<name>". */
  function RepositoryLabel(orgName: string, r: Repository): (s: string)
    ensures StartsWith(s, orgName + "/") && EndsWith(s, r.name)
    ensures |s| == |orgName| + 1 + |r.name|
  {
    orgName + "/" + r.name
  }

  datatype Branch = Branch(repository: RepoId, name: string, commitHash: string, isDefault: bool)

  function NewBranch(repo: RepoId, name: string, commitHash: string): (b: Branch)
    ensures b.repository == repo && b.name == name && b.commitHash == commitHash && !b.isDefault
  {
    Branch(repo, name, commitHash, false)
  }

  function BranchKey(b: Branch): (RepoId, string) { (b.repository, b.name) }

  /** One branch per (repository, name). */
  function AddBranch(branches: map<nat, Branch>, id: nat, b: Branch): (r: Result<map<nat, Branch>, Tables.IntegrityError>)
    ensures r.Ok? <==> id !in branches && Tables.KeyFree(branches, BranchKey, b)
    ensures r.Ok? ==> r.value == branches[id := b]
    ensures r.Ok? && Tables.UniqueOn(branches, BranchKey) ==> Tables.UniqueOn(r.value, BranchKey)
  {
    Tables.Insert(branches, id, b, BranchKey)
  }

  /** "<repository>/<branch>". */
  function BranchLabel(repoName: string, b: Branch): (s: string)
    ensures StartsWith(s, repoName + "/") && EndsWith(s, b.name)
    ensures |s| == |repoName| + 1 + |b.name|
  {
    repoName + "/" + b.name
  }

  datatype Commit = Commit(
    repository: RepoId,
    commitHash: string,
    authorName: string,
    authorEmail: string,
    message: string,
    committedAt: Time)

  function CommitKey(c: Commit): (RepoId, string) { (c.repository, c.commitHash) }

  /** One commit per (repository, hash). */
  function AddCommit(commits: map<nat, Commit>, id: nat, c: Commit): (r: Result<map<nat, Commit>, Tables.IntegrityError>)
    ensures r.Ok? <==> id !in commits && Tables.KeyFree(commits, CommitKey, c)
    ensures r.Ok? ==> r.value == commits[id := c]
    ensures r.Ok? && Tables.UniqueOn(commits, CommitKey) ==> Tables.UniqueOn(r.value, CommitKey)
  {
    Tables.Insert(commits, id, c, CommitKey)
  }

  /** "<repository>/<first eight hash characters>". */
  function CommitLabel(repoName: string, c: Commit): (s: string)
    ensures StartsWith(s, repoName + "/")
    ensures |s| == |repoName| + 1 + (if |c.commitHash| < 8 then |c.commitHash| else 8)
    ensures StartsWith(c.commitHash, s[|repoName| + 1..])
  {
    repoName + "/" + Take(c.commitHash, 8)
  }

  /** The default order `-committed_at`: newer commits first. */
  predicate NewerFirst(a: Commit, b: Commit) {
    a.committedAt >= b.committedAt
  }

  lemma NewerFirstTotalPreorder()
    ensures TotalPreorder(NewerFirst)
  {
  }

  /** A listing of commits in their default order. */
  function OrderCommits(cs: seq<Commit>): (r: seq<Commit>)
    ensures multiset(r) == multiset(cs)
    ensures forall i, j :: 0 <= i < j < |r| ==> r[i].committedAt >= r[j].committedAt
  {
    NewerFirstTotalPreorder();
    SortBy(cs, NewerFirst)
  }

  /** The first commit listed is a newest one. */
  lemma {:induction false} NewestListedFirst(cs: seq<Commit>, c: Commit)
    requires c in cs
    ensures |OrderCommits(cs)| > 0
    ensures OrderCommits(cs)[0].committedAt >= c.committedAt
  {
    var r := OrderCommits(cs);
    assert c in multiset(r);
    var k :| 0 <= k < |r| && r[k] == c;
    if k > 0 {
      assert r[0].committedAt >= r[k].committedAt;
    }
  }

  /** The default order `name` of branches. */
  predicate BranchNameLe(a: Branch, b: Branch) {
    StrLe(a.name, b.name)
  }

  lemma BranchNameLeTotalPreorder()
    ensures TotalPreorder(BranchNameLe)
  {
    forall a, b ensures BranchNameLe(a, b) || BranchNameLe(b, a) {
      StrLeTotal(a.name, b.name);
    }
    forall a, b, c | BranchNameLe(a, b) && BranchNameLe(b, c) ensures BranchNameLe(a, c) {
      StrLeTransitive(a.name, b.name, c.name);
    }
  }

  /** A listing of branches in their default order. */
  function OrderBranches(bs: seq<Branch>): (r: seq<Branch>)
    ensures multiset(r) == multiset(bs)
    ensures forall i, j :: 0 <= i < j < |r| ==> StrLe(r[i].name, r[j].name)
  {
    BranchNameLeTotalPreorder();
    SortBy(bs, BranchNameLe)
  }
}

=== FILE: git_services.dfy ===
/**
 * The older `git` application's repository serializer: on create it derives
 * `local_path` from the organisation and the sanitised name and passes every
 * other validated field through.
 */
module GitServices {
  import opened Common
  import Tables
  import opened Naming
  import opened GitModels

  /** `GitRepositorySerializer.create`: only `local_path` is filled in. */
  function PrepareCreate(data: Repository, base: string): (r: Repository)
    ensures r.localPath == StorageLocalPath(base, data.organisation, data.name)
    ensures r.(localPath := data.localPath) == data
  {
    data.(localPath := StorageLocalPath(base, data.organisation, data.name))
  }

  /** `create` followed by the INSERT. */
  function Create(repos: map<RepoId, Repository>, id: RepoId, data: Repository, base: string): (r: Result<map<RepoId, Repository>, Tables.IntegrityError>)
    ensures r.Ok? <==> AddRepository(repos, id, PrepareCreate(data, base)).Ok?
    ensures r.Ok? ==> r.value == repos[id := PrepareCreate(data, base)]
  {
    AddRepository(repos, id, PrepareCreate(data, base))
  }

  /**
   * Two names of one organisation get the same storage path exactly when they
   * sanitise alike, and then the second create is refused.
   */
  lemma {:induction false} SanitisedNamesShareStorage(repos: map<RepoId, Repository>, base: string,
                                                      id1: RepoId, d1: Repository, id2: RepoId, d2: Repository)
    requires d1.organisation == d2.organisation
    ensures PrepareCreate(d1, base).localPath == PrepareCreate(d2, base).localPath <==> SafeName(d1.name) == SafeName(d2.name)
    ensures Create(repos, id1, d1, base).Ok? && SafeName(d1.name) == SafeName(d2.name) ==>
      Create(Create(repos, id1, d1, base).value, id2, d2, base).Err?
  {
    StoragePathsCollide(base, d1.organisation, d1.name, d2.name);
    if Create(repos, id1, d1, base).Ok? && SafeName(d1.name) == SafeName(d2.name) {
      var t := Create(repos, id1, d1, base).value;
      assert id1 in t && PathKey(t[id1]) == PathKey(PrepareCreate(d2, base));
    }
  }
}

=== FILE: git_tasks.dfy ===
/**
 * The background jobs that put repositories on disk: initialising a bare
 * repository, cloning a mirror, and syncing a mirror, with the dispatcher's
 * retry policy (at most three retries, countdown 60 * 2^retries seconds).
 *
 * Each job is a function from the state it reads (the repository and
 * sync-task tables and the set of existing paths) and the outcomes of the
 * steps it cannot see (directory creation, `git init`, `git clone --mirror`,
 * `git fetch`) to the new state and the job's reply.
 */
module GitTasks {
  import opened Common
  import Paths
  import opened RepositoryModels

  /**
   * The job's reply: one of the two result dictionaries it returns, or the
   * exception the dispatcher sees when it schedules a retry or gives up.
   */
  datatype TaskReply =
    | Succeeded(path: Option<string>)
    | NotFound(error: string)
    | RetryScheduled(countdown: nat, error: string)
    | RetriesExhausted(error: string)

  const MaxRetries: nat := 3

  function Pow2(n: nat): (r: nat)
    ensures r >= 1
  {
    if n == 0 then 1 else 2 * Pow2(n - 1)
  }

  /**
   * `raise self.retry(exc=exc, countdown=60 * 2 ** retries)` with
   * `max_retries=3`: below the limit a retry is scheduled, at the limit the
   * original exception propagates.
   */
  function RetryAfter(retries: nat, error: string): (r: TaskReply)
    ensures r.RetryScheduled? <==> retries < MaxRetries
    ensures r.RetryScheduled? || r.RetriesExhausted?
    ensures r.error == error
    ensures r.RetryScheduled? ==> r.countdown == 60 * Pow2(retries)
  {
    if retries < MaxRetries then RetryScheduled(60 * Pow2(retries), error)
    else RetriesExhausted(error)
  }

  /** Each retry waits twice as long as the one before. */
  lemma RetryCountdownDoubles(retries: nat, error: string)
    requires retries + 1 < MaxRetries
    ensures RetryAfter(retries + 1, error).countdown == 2 * RetryAfter(retries, error).countdown
  {
  }

  /** The state the jobs read and write. */
  datatype World = World(
    repos: map<RepoId, Repository>,
    tasks: map<nat, SyncTask>,
    fs: set<string>)

  /** `repo.delete()`: the sync tasks of the repository go with it. */
  function DeleteRepository(w: World, id: RepoId): (w': World)
    ensures w'.repos == w.repos - {id}
    ensures forall t :: t in w'.tasks <==> t in w.tasks && w.tasks[t].repository != id
    ensures forall t :: t in w'.tasks ==> w'.tasks[t] == w.tasks[t]
    ensures w'.fs == w.fs
  {
    World(w.repos - {id}, map t | t in w.tasks && w.tasks[t].repository != id :: w.tasks[t], w.fs)
  }

  /**
   * `initialize_repository`: create the parent directory, then `git init
   * --bare` at the repository's path. On failure the repository record is
   * deleted and a retry is requested; whatever the failed init left on disk
   * stays there. Success leaves the record as it was.
   */
  function InitializeRepository(w: World, id: RepoId, retries: nat, mkdirs: StepOutcome, init: GitOutcome): (r: (World, TaskReply))
    ensures id !in w.repos ==> r == (w, NotFound("Repository not found"))
    ensures id in w.repos && mkdirs.StepOk? && init.GitDone? ==>
      var lp := w.repos[id].localPath;
      && r.1 == Succeeded(Some(lp))
      && r.0 == w.(fs := w.fs + {Paths.Dirname(lp), lp})
    ensures id in w.repos && (mkdirs.StepFailed? || init.GitFailed?) ==>
      && id !in r.0.repos
      && r.0.repos == w.repos - {id}
      && (forall t :: t in r.0.tasks ==> r.0.tasks[t].repository != id)
      && r.0 == DeleteRepository(w, id).(fs := r.0.fs)
      && r.0.fs == (if mkdirs.StepFailed? then w.fs else w.fs + {Paths.Dirname(w.repos[id].localPath)} + init.leftBehind)
      && r.1 == RetryAfter(retries, if mkdirs.StepFailed? then mkdirs.message else init.message)
    ensures w.fs <= r.0.fs
  {
    if id !in w.repos then (w, NotFound("Repository not found"))
    else
      var lp := w.repos[id].localPath;
      if mkdirs.StepFailed? then
        (DeleteRepository(w, id), RetryAfter(retries, mkdirs.message))
      else
        var w1 := w.(fs := w.fs + {Paths.Dirname(lp)});
        if init.GitFailed? then (DeleteRepository(w1.(fs := w1.fs + init.leftBehind), id), RetryAfter(retries, init.message))
        else (w1.(fs := w1.fs + {lp}), Succeeded(Some(lp)))
  }

  /**
   * A failed initialisation deletes the row before asking for a retry, so
   * the retry the dispatcher runs finds nothing and replies "not found"
   * whatever its own steps would do.
   */
  lemma InitializeRetryFindsNothing(w: World, id: RepoId, retries: nat, mkdirs: StepOutcome, init: GitOutcome,
                                    mkdirs2: StepOutcome, init2: GitOutcome)
    requires id in w.repos && (mkdirs.StepFailed? || init.GitFailed?)
    ensures var first := InitializeRepository(w, id, retries, mkdirs, init);
      && first.1.RetryScheduled? == (retries < MaxRetries)
      && InitializeRepository(first.0, id, retries + 1, mkdirs2, init2) == (first.0, NotFound("Repository not found"))
  {
  }

  /** `initialize_repository` as the dispatcher runs it, every run seeing the same step outcomes. */
  function InitJob(id: RepoId, mkdirs: StepOutcome, init: GitOutcome): (World, nat) -> (World, TaskReply) {
    (w: World, retries: nat) => InitializeRepository(w, id, retries, mkdirs, init)
  }

  /** A failed initialisation below the limit is retried once, and that retry ends the job with "not found". */
  lemma FailedInitializeEndsNotFound(w: World, id: RepoId, retries: nat, mkdirs: StepOutcome, init: GitOutcome)
    requires id in w.repos && (mkdirs.StepFailed? || init.GitFailed?) && retries < MaxRetries
    ensures Dispatch(InitJob(id, mkdirs, init), w, retries)
      == [RetryScheduled(60 * Pow2(retries), if mkdirs.StepFailed? then mkdirs.message else init.message),
          NotFound("Repository not found")]
  {
    InitializeRetryFindsNothing(w, id, retries, mkdirs, init, mkdirs, init);
    var first := InitializeRepository(w, id, retries, mkdirs, init);
    assert Dispatch(InitJob(id, mkdirs, init), first.0, retries + 1) == [NotFound("Repository not found")];
  }

  /** A repository that is not a mirror is not found by the mirror jobs. */
  predicate IsMirror(w: World, id: RepoId) {
    id in w.repos && w.repos[id].mirror.Some?
  }

  /** The failure bookkeeping of the mirror jobs: status, message, one more failure. */
  function RecordFailure(r: Repository, message: string): (r': Repository)
    requires r.mirror.Some?
    ensures r'.mirror.Some? && r'.mirror.value.status == Failed
    ensures r'.mirror.value.errorMessage == message
    ensures r'.mirror.value.consecutiveFailures == r.mirror.value.consecutiveFailures + 1
    ensures r'.mirror.value.lastSyncedAt == r.mirror.value.lastSyncedAt
    ensures r'.mirror.value.(status := r.mirror.value.status, errorMessage := r.mirror.value.errorMessage,
                             consecutiveFailures := r.mirror.value.consecutiveFailures) == r.mirror.value
    ensures r'.(mirror := r.mirror) == r
  {
    r.(mirror := Some(r.mirror.value.(status := Failed, errorMessage := message,
                                      consecutiveFailures := r.mirror.value.consecutiveFailures + 1)))
  }

  /** The success bookkeeping of the mirror jobs. */
  function RecordSuccess(r: Repository, now: Time): (r': Repository)
    requires r.mirror.Some?
    ensures r'.mirror.Some? && r'.mirror.value.status == Active
    ensures r'.mirror.value.errorMessage == "" && r'.mirror.value.consecutiveFailures == 0
    ensures r'.mirror.value.lastSyncedAt == Some(now)
    ensures r'.mirror.value.(status := r.mirror.value.status, lastSyncedAt := r.mirror.value.lastSyncedAt,
                             errorMessage := r.mirror.value.errorMessage,
                             consecutiveFailures := r.mirror.value.consecutiveFailures) == r.mirror.value
    ensures r'.(mirror := r.mirror) == r
  {
    r.(mirror := Some(r.mirror.value.(status := Active, lastSyncedAt := Some(now), errorMessage := "",
                                      consecutiveFailures := 0)))
  }

  /**
   * `clone_mirror_repository`: create the parent directory and clone the
   * source as a bare mirror. On failure the mirror is marked failed and
   * whatever exists at its path is removed, then a retry is requested.
   * `cleanup` is the outcome of that removal; its failure is swallowed and
   * leaves the paths as they were.
   */
  function CloneMirror(w: World, id: RepoId, retries: nat, now: Time, mkdirs: StepOutcome, clone: GitOutcome,
                       cleanup: StepOutcome): (r: (World, TaskReply))
    ensures !IsMirror(w, id) ==> r == (w, NotFound("Mirror not found"))
    ensures IsMirror(w, id) ==> id in r.0.repos && r.0.repos == w.repos[id := r.0.repos[id]]
    ensures IsMirror(w, id) ==> r.0.tasks == w.tasks
    ensures IsMirror(w, id) && mkdirs.StepOk? && clone.GitDone? ==>
      var lp := w.repos[id].localPath;
      && r.0.repos[id] == RecordSuccess(w.repos[id], now)
      && r.0.fs == w.fs + {Paths.Dirname(lp), lp}
      && r.1 == Succeeded(None)
    ensures IsMirror(w, id) && (mkdirs.StepFailed? || clone.GitFailed?) ==>
      var lp := w.repos[id].localPath;
      var message := if mkdirs.StepFailed? then mkdirs.message else clone.message;
      && r.0.repos[id] == RecordFailure(w.repos[id], message)
      && (cleanup.StepOk? ==> forall p :: p in r.0.fs ==> !Paths.Under(p, lp))
      && (forall p :: p in w.fs && !Paths.Under(p, lp) ==> p in r.0.fs)
      && (cleanup.StepFailed? ==>
            r.0.fs == if mkdirs.StepFailed? then w.fs else w.fs + {Paths.Dirname(lp)} + clone.leftBehind)
      && r.1 == RetryAfter(retries, message)
  {
    if !IsMirror(w, id) then (w, NotFound("Mirror not found"))
    else
      var m := w.repos[id];
      var lp := m.localPath;
      var initializing := m.(mirror := Some(m.mirror.value.(status := Initializing)));
      if mkdirs.StepFailed? then
        (w.(repos := w.repos[id := RecordFailure(initializing, mkdirs.message)],
            fs := if cleanup.StepOk? then Paths.RemoveTree(w.fs, lp) else w.fs),
         RetryAfter(retries, mkdirs.message))
      else
        var fs1 := w.fs + {Paths.Dirname(lp)};
        match clone
        case GitDone =>
          (w.(repos := w.repos[id := RecordSuccess(initializing, now)], fs := fs1 + {lp}),
           Succeeded(None))
        case GitFailed(message, leftBehind) =>
          var fs2 := fs1 + leftBehind;
          (w.(repos := w.repos[id := RecordFailure(initializing, message)],
              fs := if cleanup.StepOk? then Paths.RemoveTree(fs2, lp) else fs2),
           RetryAfter(retries, message))
  }

  /**
   * A failed clone followed by a successful retry leaves the mirror active,
   * synced, with no failures counted and its directory present.
   */
  lemma CloneRetryRecovers(w: World, id: RepoId, retries: nat, now: Time, mkdirs: StepOutcome, clone: GitOutcome,
                           cleanup: StepOutcome, later: Time, cleanup2: StepOutcome)
    requires IsMirror(w, id) && (mkdirs.StepFailed? || clone.GitFailed?)
    ensures var first := CloneMirror(w, id, retries, now, mkdirs, clone, cleanup);
      var second := CloneMirror(first.0, id, retries + 1, later, StepOk, GitDone, cleanup2);
      var m := second.0.repos[id].mirror.value;
      && IsMirror(first.0, id)
      && first.0.repos[id].mirror.value.status == Failed
      && m.status == Active && m.consecutiveFailures == 0 && m.errorMessage == "" && m.lastSyncedAt == Some(later)
      && w.repos[id].localPath in second.0.fs
      && second.1 == Succeeded(None)
  {
    var first := CloneMirror(w, id, retries, now, mkdirs, clone, cleanup);
    assert first.0.repos[id].localPath == w.repos[id].localPath;
  }

  /** The message Django's `SyncTask.DoesNotExist` carries. */
  const SyncTaskMissing := "SyncTask matching query does not exist."

  /**
   * `sync_mirror_repository`: fetch all remotes of a mirror already on disk.
   * A sync-task id of 0 stands for "none given" (0 is falsy). The named sync
   * task, when present, is marked running and then completed or failed
   * together with the mirror; a named task that does not exist makes the
   * job fail before anything is touched except the mirror's failure record.
   */
  function SyncMirror(w: World, id: RepoId, syncTaskId: nat, retries: nat, now: Time, fetch: StepOutcome): (r: (World, TaskReply))
    ensures r.0.fs == w.fs
    ensures !IsMirror(w, id) ==> r == (w, NotFound("Mirror not found"))
    ensures IsMirror(w, id) ==> id in r.0.repos && r.0.repos == w.repos[id := r.0.repos[id]]
    ensures IsMirror(w, id) ==> r.0.repos[id].localPath == w.repos[id].localPath
    ensures IsMirror(w, id) ==> r.0.repos[id].mirror.Some?
    ensures r.0.tasks.Keys == w.tasks.Keys
    ensures forall t :: t in w.tasks && t != syncTaskId ==> r.0.tasks[t] == w.tasks[t]
    ensures IsMirror(w, id) && syncTaskId != 0 && syncTaskId !in w.tasks ==>
      && r.0.repos[id] == RecordFailure(w.repos[id], SyncTaskMissing)
      && r.0.tasks == w.tasks
      && r.1 == RetryAfter(retries, SyncTaskMissing)
    ensures IsMirror(w, id) && (syncTaskId == 0 || syncTaskId in w.tasks) ==>
      var lp := w.repos[id].localPath;
      var failure := if lp !in w.fs then Some("Mirror directory not found: " + lp)
                     else if fetch.StepFailed? then Some(fetch.message) else None;
      && (failure.None? ==> r.0.repos[id] == RecordSuccess(w.repos[id], now) && r.1 == Succeeded(None))
      && (failure.Some? ==> r.0.repos[id] == RecordFailure(w.repos[id], failure.value)
                            && r.1 == RetryAfter(retries, failure.value))
      && (syncTaskId != 0 && syncTaskId in w.tasks ==>
            && r.0.tasks[syncTaskId] == w.tasks[syncTaskId].(
                 status := if failure.None? then SyncCompleted else SyncFailed,
                 startedAt := Some(now),
                 completedAt := Some(now),
                 errorMessage := if failure.None? then w.tasks[syncTaskId].errorMessage else failure.value)
            && TimestampsConsistent(r.0.tasks[syncTaskId]))
  {
    if !IsMirror(w, id) then (w, NotFound("Mirror not found"))
    else if syncTaskId != 0 && syncTaskId !in w.tasks then
      (w.(repos := w.repos[id := RecordFailure(w.repos[id], SyncTaskMissing)]),
       RetryAfter(retries, SyncTaskMissing))
    else
      var m := w.repos[id];
      var lp := m.localPath;
      var tasks1 := if syncTaskId != 0 then
                      w.tasks[syncTaskId := w.tasks[syncTaskId].(status := SyncRunning, startedAt := Some(now))]
                    else w.tasks;
      var mirroring := m.(mirror := Some(m.mirror.value.(status := Mirroring)));
      var failure := if lp !in w.fs then Some("Mirror directory not found: " + lp)
                     else if fetch.StepFailed? then Some(fetch.message) else None;
      match failure
      case None =>
        var tasks2 := if syncTaskId != 0 then
                        tasks1[syncTaskId := tasks1[syncTaskId].(status := SyncCompleted, completedAt := Some(now))]
                      else tasks1;
        (w.(repos := w.repos[id := RecordSuccess(mirroring, now)], tasks := tasks2), Succeeded(None))
      case Some(message) =>
        var tasks2 := if syncTaskId != 0 then
                        tasks1[syncTaskId := tasks1[syncTaskId].(status := SyncFailed, errorMessage := message,
                                                                 completedAt := Some(now))]
                      else tasks1;
        (w.(repos := w.repos[id := RecordFailure(mirroring, message)], tasks := tasks2),
         RetryAfter(retries, message))
  }

  /** A run of syncs without a sync task, the last outcome applied last. */
  function SyncRun(w: World, id: RepoId, now: Time, fetches: seq<StepOutcome>): (w': World)
    requires IsMirror(w, id)
    ensures IsMirror(w', id)
    ensures w'.repos[id].localPath == w.repos[id].localPath && w'.fs == w.fs
  {
    if fetches == [] then w
    else
      var before := SyncRun(w, id, now, fetches[..|fetches| - 1]);
      SyncMirror(before, id, 0, 0, now, fetches[|fetches| - 1]).0
  }

  /** The number of failed fetches at the end of the run. */
  function TrailingFailures(fetches: seq<StepOutcome>): (n: nat)
    ensures n <= |fetches|
  {
    if fetches == [] || fetches[|fetches| - 1].StepOk? then 0
    else 1 + TrailingFailures(fetches[..|fetches| - 1])
  }

  /**
   * `consecutive_failures` counts the failed syncs since the last successful
   * one: a success resets it, each failure adds one, and a run without any
   * success adds its length to the count it started from.
   */
  lemma {:induction false} ConsecutiveFailuresCount(w: World, id: RepoId, now: Time, fetches: seq<StepOutcome>)
    requires IsMirror(w, id) && w.repos[id].localPath in w.fs
    ensures var c := SyncRun(w, id, now, fetches).repos[id].mirror.value.consecutiveFailures;
      if TrailingFailures(fetches) == |fetches|
      then c == w.repos[id].mirror.value.consecutiveFailures + |fetches|
      else c == TrailingFailures(fetches)
  {
    if fetches != [] {
      ConsecutiveFailuresCount(w, id, now, fetches[..|fetches| - 1]);
    }
  }

  /**
   * The dispatcher: each reply that schedules a retry is followed by another
   * run of the job, with `request.retries` one higher, on the state the
   * previous run left, until a reply that does not.
   */
  function Dispatch(job: (World, nat) -> (World, TaskReply), w: World, retries: nat): (replies: seq<TaskReply>)
    ensures |replies| >= 1
    ensures forall i | 0 <= i < |replies| - 1 :: replies[i].RetryScheduled?
    decreases MaxRetries - retries
  {
    var run := job(w, retries);
    if run.1.RetryScheduled? && retries < MaxRetries then [run.1] + Dispatch(job, run.0, retries + 1)
    else [run.1]
  }

  /** Replies that back off from retry `retries` on and then let `e` propagate. */
  predicate BacksOff(replies: seq<TaskReply>, retries: nat, e: string) {
    && retries <= MaxRetries
    && |replies| == MaxRetries - retries + 1
    && (forall i | 0 <= i < |replies| - 1 :: replies[i] == RetryScheduled(60 * Pow2(retries + i), e))
    && replies[|replies| - 1] == RetriesExhausted(e)
  }

  /**
   * A job that fails with `e` on every state satisfying `inv`, and keeps
   * `inv`, is retried with countdowns 60 * 2^retries until the limit, after
   * which `e` propagates.
   */
  lemma {:induction false} DispatchBacksOff(job: (World, nat) -> (World, TaskReply), inv: World -> bool, w: World, retries: nat, e: string)
    requires retries <= MaxRetries && inv(w)
    requires forall v, r | inv(v) :: inv(job(v, r).0) && job(v, r).1 == RetryAfter(r, e)
    ensures BacksOff(Dispatch(job, w, retries), retries, e)
    decreases MaxRetries - retries
  {
    if retries < MaxRetries {
      var run := job(w, retries);
      DispatchBacksOff(job, inv, run.0, retries + 1, e);
      BackoffCons(run.1, Dispatch(job, run.0, retries + 1), retries, e);
    }
  }

  /** Why a sync of a mirror on an unchanged disk fails when every fetch fails. */
  function FetchFailure(w: World, id: RepoId, message: string): string
    requires IsMirror(w, id)
  {
    var lp := w.repos[id].localPath;
    if lp !in w.fs then "Mirror directory not found: " + lp else message
  }

  /** A sync without a sync task, as the dispatcher runs it. */
  function SyncJob(id: RepoId, now: Time, fetch: StepOutcome): (World, nat) -> (World, TaskReply) {
    (w: World, retries: nat) => SyncMirror(w, id, 0, retries, now, fetch)
  }

  /** One failed sync: the reply asks for a retry, and the next run sees the same mirror on the same disk. */
  lemma FailedSyncStep(w: World, id: RepoId, retries: nat, now: Time, message: string)
    requires IsMirror(w, id)
    ensures var run := SyncMirror(w, id, 0, retries, now, StepFailed(message));
      && run.1 == RetryAfter(retries, FetchFailure(w, id, message))
      && IsMirror(run.0, id)
      && FetchFailure(run.0, id, message) == FetchFailure(w, id, message)
  {
  }

  /**
   * A mirror whose fetch keeps failing is retried with countdowns
   * 60 * 2^retries until the third retry, after which the error propagates.
   */
  lemma FailingSyncBacksOff(w: World, id: RepoId, retries: nat, now: Time, message: string)
    requires IsMirror(w, id) && retries <= MaxRetries
    ensures BacksOff(Dispatch(SyncJob(id, now, StepFailed(message)), w, retries), retries, FetchFailure(w, id, message))
  {
    var e := FetchFailure(w, id, message);
    var job := SyncJob(id, now, StepFailed(message));
    var inv := (v: World) => IsMirror(v, id) && FetchFailure(v, id, message) == e;
    forall v, r | inv(v) ensures inv(job(v, r).0) && job(v, r).1 == RetryAfter(r, e) {
      FailedSyncStep(v, id, r, now, message);
    }
    DispatchBacksOff(job, inv, w, retries, e);
  }

  /** Prepending the reply of retry `retries` to the replies from the next retry on. */
  lemma BackoffCons(first: TaskReply, rest: seq<TaskReply>, retries: nat, e: string)
    requires retries < MaxRetries && first == RetryAfter(retries, e)
    requires BacksOff(rest, retries + 1, e)
    ensures BacksOff([first] + rest, retries, e)
  {
    var replies := [first] + rest;
    forall i | 0 <= i < |replies| - 1 ensures replies[i] == RetryScheduled(60 * Pow2(retries + i), e) {
      if i > 0 {
        assert replies[i] == rest[i - 1];
      }
    }
  }

  /** From the first run: waits of 60, 120 and 240 seconds, then the error propagates. */
  lemma FailingSyncFromFirstRun(w: World, id: RepoId, now: Time, message: string)
    requires IsMirror(w, id)
    ensures var e := FetchFailure(w, id, message);
      Dispatch(SyncJob(id, now, StepFailed(message)), w, 0)
        == [RetryScheduled(60, e), RetryScheduled(120, e), RetryScheduled(240, e), RetriesExhausted(e)]
  {
    FailingSyncBacksOff(w, id, 0, now, message);
    BacksOffFromFirstRun(Dispatch(SyncJob(id, now, StepFailed(message)), w, 0), FetchFailure(w, id, message));
  }

  /** Backing off from the first run is three waits of 60, 120 and 240 seconds. */
  lemma BacksOffFromFirstRun(replies: seq<TaskReply>, e: string)
    requires BacksOff(replies, 0, e)
    ensures replies == [RetryScheduled(60, e), RetryScheduled(120, e), RetryScheduled(240, e), RetriesExhausted(e)]
  {
    assert Pow2(1) == 2 && Pow2(2) == 4;
    assert replies[0] == RetryScheduled(60 * Pow2(0), e);
    assert replies[1] == RetryScheduled(60 * Pow2(1), e);
    assert replies[2] == RetryScheduled(60 * Pow2(2), e);
  }
}

=== FILE: jsx_builder.dfy ===
/**
 * The output side of the documentation builder: the three callbacks the
 * renderer invokes (`createPage`, `createAsset`, `finalize`) as transformers of
 * the documentation store. Each callback does nothing unless it is handed a
 * truthy `docId`, and raises when that document does not exist.
 */
module JsxBuilder {
  import opened Common
  import opened DocumentModels

  /** One entry of a page's `section_list`; absent keys are `None`. */
  datatype SectionEntry = SectionEntry(
    hash: Option<string>,
    body: Option<string>,
    title: Option<string>,
    id: Option<string>,
    source: Option<string>,
    startline: Option<int>,
    endline: Option<int>)

  /** The page context the renderer hands to `createPage`. */
  datatype PageContext = PageContext(
    currentPageName: Option<string>,
    pagename: Option<string>,
    title: Option<string>,
    context: Option<Json>,
    sectionList: Option<seq<SectionEntry>>)

  datatype AssetData = AssetData(path: Option<string>, hash: Option<string>)

  datatype FinalizeData = FinalizeData(lastBuildAt: Option<Time>, globalContext: Option<Json>)

  /** `kwds.get("docId")` is truthy: present and non-zero. */
  predicate Truthy(docId: Option<nat>) {
    docId.Some? && docId.value != 0
  }

  const DocumentMissing := "Document matching query does not exist."

  // ------------------------------------------------------------------------
  // Sections

  /** Sections without a hash or a body are skipped. */
  predicate Usable(e: SectionEntry) {
    e.hash.GetOr("") != "" && e.body.GetOr("") != ""
  }

  /** `value or 0`: a missing, null or zero line number is stored as 0. */
  function Line(v: Option<int>): (n: int)
    ensures n == v.GetOr(0)
  {
    if v.Some? && v.value != 0 then v.value else 0
  }

  /** The section row an entry is stored as; it refers to the content block of its own hash. */
  function SectionRow(pk: PageKey, e: SectionEntry): (s: Section)
    ensures s.page == pk && s.hash == e.hash.GetOr("") && s.contentBlock == s.hash
    ensures s.startLine == e.startline.GetOr(0) && s.endLine == e.endline.GetOr(0)
  {
    Section(pk, e.title.GetOr(""), e.id.GetOr(""), e.hash.GetOr(""), e.source.GetOr(""),
            Line(e.startline), Line(e.endline), e.hash.GetOr(""))
  }

  /** The hashes of the usable entries. */
  function UsableHashes(secs: seq<SectionEntry>): set<string> {
    set e | e in secs && Usable(e) :: e.hash.value
  }

  lemma UsableHashesSnoc(secs: seq<SectionEntry>)
    requires secs != []
    ensures var n := |secs| - 1;
      UsableHashes(secs) == UsableHashes(secs[..n]) + (if Usable(secs[n]) then {secs[n].hash.value} else {})
  {
    var n := |secs| - 1;
    assert secs == secs[..n] + [secs[n]];
    assert forall e :: e in secs <==> e in secs[..n] || e == secs[n];
  }

  /** One iteration of the section loop: get-or-create the block, then upsert the section. */
  function AddSection(st: Store, pk: PageKey, e: SectionEntry): (r: Store)
    ensures r.documents == st.documents && r.pages == st.pages && r.assets == st.assets
    ensures !Usable(e) ==> r == st
    ensures Usable(e) ==> r.sections == st.sections[(pk, e.hash.value) := SectionRow(pk, e)]
    ensures Usable(e) ==> e.hash.value in r.blocks
    ensures Usable(e) ==> r.blocks.Keys == st.blocks.Keys + {e.hash.value}
    ensures forall h | h in st.blocks :: r.blocks[h] == st.blocks[h]
    ensures Usable(e) && e.hash.value !in st.blocks ==> r.blocks[e.hash.value] == e.body.value
    ensures Valid(st) && pk in st.pages ==> Valid(r)
  {
    if !Usable(e) then st
    else
      var h := e.hash.value;
      var blocks := if h in st.blocks then st.blocks else st.blocks[h := e.body.value];
      st.(blocks := blocks, sections := st.sections[(pk, h) := SectionRow(pk, e)])
  }

  /**
   * The section loop over `section_list`, in order. Blocks are only ever
   * added; sections are added or overwritten for this page only.
   */
  function AddSections(st: Store, pk: PageKey, secs: seq<SectionEntry>): (r: Store)
    decreases |secs|
    ensures r.documents == st.documents && r.pages == st.pages && r.assets == st.assets
    ensures r.blocks.Keys == st.blocks.Keys + UsableHashes(secs)
    ensures forall h | h in st.blocks :: r.blocks[h] == st.blocks[h]
    ensures forall k :: k in r.sections <==> k in st.sections || (k.0 == pk && k.1 in UsableHashes(secs))
    ensures forall k | k in st.sections && !(k.0 == pk && k.1 in UsableHashes(secs)) :: r.sections[k] == st.sections[k]
    ensures forall k | k in r.sections && k.0 == pk && k.1 in UsableHashes(secs) :: r.sections[k].contentBlock == k.1
  {
    if secs == [] then st
    else
      var n := |secs| - 1;
      UsableHashesSnoc(secs);
      AddSection(AddSections(st, pk, secs[..n]), pk, secs[n])
  }

  /** The section loop keeps the store valid once the page exists. */
  lemma {:induction false} AddSectionsKeepsValid(st: Store, pk: PageKey, secs: seq<SectionEntry>)
    ensures Valid(st) && pk in st.pages ==> Valid(AddSections(st, pk, secs))
  {
    if secs != [] {
      var n := |secs| - 1;
      AddSectionsKeepsValid(st, pk, secs[..n]);
    }
  }

  /** Whether `e` is a usable entry for hash `h`. */
  predicate EntryFor(e: SectionEntry, h: string) {
    Usable(e) && e.hash.value == h
  }

  /** The index of the last usable entry for `h`. */
  function LastEntryFor(secs: seq<SectionEntry>, h: string): (k: nat)
    requires h in UsableHashes(secs)
    ensures k < |secs| && EntryFor(secs[k], h)
    ensures forall j :: k < j < |secs| ==> !EntryFor(secs[j], h)
  {
    var n := |secs| - 1;
    UsableHashesSnoc(secs);
    if EntryFor(secs[n], h) then n
    else
      var k := LastEntryFor(secs[..n], h);
      assert forall j :: k < j < n ==> secs[..n][j] == secs[j];
      k
  }

  /** A section's fields come from the last usable entry with its hash. */
  lemma {:induction false} SectionLastWins(st: Store, pk: PageKey, secs: seq<SectionEntry>, h: string, k: nat)
    requires k < |secs| && EntryFor(secs[k], h)
    requires forall j :: k < j < |secs| ==> !EntryFor(secs[j], h)
    ensures (pk, h) in AddSections(st, pk, secs).sections
    ensures AddSections(st, pk, secs).sections[(pk, h)] == SectionRow(pk, secs[k])
    decreases |secs|, 1
  {
    var n := |secs| - 1;
    if k < n {
      SectionLastWinsEarlier(st, pk, secs, h, k);
    } else {
      assert k == n && secs[n].hash.value == h;
      assert AddSections(st, pk, secs) == AddSection(AddSections(st, pk, secs[..n]), pk, secs[n]);
      AddSectionStores(AddSections(st, pk, secs[..n]), pk, secs[n]);
    }
  }

  /** The step of `SectionLastWins` where the entry is not the last one. */
  lemma {:induction false} SectionLastWinsEarlier(st: Store, pk: PageKey, secs: seq<SectionEntry>, h: string, k: nat)
    requires k < |secs| - 1 && EntryFor(secs[k], h)
    requires forall j :: k < j < |secs| ==> !EntryFor(secs[j], h)
    ensures (pk, h) in AddSections(st, pk, secs).sections
    ensures AddSections(st, pk, secs).sections[(pk, h)] == SectionRow(pk, secs[k])
    decreases |secs|, 0
  {
    var n := |secs| - 1;
    var init := secs[..n];
    AddSectionsSnoc(st, pk, secs);
    LastEntryInPrefix(secs, h, k);
    SectionLastWins(st, pk, init, h, k);
    AddSectionKeepsOthers(AddSections(st, pk, init), pk, secs[n], h);
  }

  /** The loop over a non-empty list is the loop over its prefix followed by one more step. */
  lemma AddSectionsSnoc(st: Store, pk: PageKey, secs: seq<SectionEntry>)
    requires secs != []
    ensures AddSections(st, pk, secs) == AddSection(AddSections(st, pk, secs[..|secs| - 1]), pk, secs[|secs| - 1])
  {
  }

  /** An entry that is last for `h` but not last overall is also last for `h` in the prefix. */
  lemma LastEntryInPrefix(secs: seq<SectionEntry>, h: string, k: nat)
    requires k < |secs| - 1 && EntryFor(secs[k], h)
    requires forall j :: k < j < |secs| ==> !EntryFor(secs[j], h)
    ensures var init := secs[..|secs| - 1];
      && init[k] == secs[k]
      && (forall j :: k < j < |init| ==> !EntryFor(init[j], h))
      && !EntryFor(secs[|secs| - 1], h)
  {
    var init := secs[..|secs| - 1];
    forall j | k < j < |init| ensures !EntryFor(init[j], h) {
      assert init[j] == secs[j];
    }
  }

  lemma AddSectionStores(st: Store, pk: PageKey, e: SectionEntry)
    requires Usable(e)
    ensures (pk, e.hash.value) in AddSection(st, pk, e).sections
    ensures AddSection(st, pk, e).sections[(pk, e.hash.value)] == SectionRow(pk, e)
  {
  }

  lemma AddSectionKeepsOthers(st: Store, pk: PageKey, e: SectionEntry, h: string)
    requires (pk, h) in st.sections && !EntryFor(e, h)
    ensures (pk, h) in AddSection(st, pk, e).sections
    ensures AddSection(st, pk, e).sections[(pk, h)] == st.sections[(pk, h)]
  {
  }

  /** A new block keeps the body of the first usable entry with its hash. */
  lemma {:induction false} BlockKeepsFirstBody(st: Store, pk: PageKey, secs: seq<SectionEntry>, h: string, k: nat)
    requires h !in st.blocks
    requires k < |secs| && EntryFor(secs[k], h)
    requires forall j :: 0 <= j < k ==> !EntryFor(secs[j], h)
    ensures h in AddSections(st, pk, secs).blocks
    ensures AddSections(st, pk, secs).blocks[h] == secs[k].body.value
  {
    var n := |secs| - 1;
    var init := secs[..n];
    var prev := AddSections(st, pk, init);
    assert AddSections(st, pk, secs) == AddSection(prev, pk, secs[n]);
    forall j | 0 <= j < k && j < n ensures !EntryFor(init[j], h) {
      assert init[j] == secs[j];
    }
    if k < n {
      assert init[k] == secs[k];
      BlockKeepsFirstBody(st, pk, init, h, k);
    } else {
      NoEntryNoHash(init, h);
      assert h !in prev.blocks;
    }
  }

  /** A hash no usable entry carries is not among the usable hashes. */
  lemma NoEntryNoHash(secs: seq<SectionEntry>, h: string)
    requires forall j :: 0 <= j < |secs| ==> !EntryFor(secs[j], h)
    ensures h !in UsableHashes(secs)
  {
    forall e | e in secs && Usable(e) ensures e.hash.value != h {
      var j :| 0 <= j < |secs| && secs[j] == e;
    }
  }

  /** Running the section loop a second time changes nothing. */
  lemma {:induction false} AddSectionsIdempotent(st: Store, pk: PageKey, secs: seq<SectionEntry>)
    ensures AddSections(AddSections(st, pk, secs), pk, secs) == AddSections(st, pk, secs)
  {
    SecondPassKeepsBlocks(st, pk, secs);
    SecondPassKeepsSections(st, pk, secs);
  }

  lemma SecondPassKeepsBlocks(st: Store, pk: PageKey, secs: seq<SectionEntry>)
    ensures AddSections(AddSections(st, pk, secs), pk, secs).blocks == AddSections(st, pk, secs).blocks
  {
    var s1 := AddSections(st, pk, secs);
    var s2 := AddSections(s1, pk, secs);
    assert s2.blocks.Keys == s1.blocks.Keys;
  }

  lemma SecondPassKeepsSections(st: Store, pk: PageKey, secs: seq<SectionEntry>)
    ensures AddSections(AddSections(st, pk, secs), pk, secs).sections == AddSections(st, pk, secs).sections
  {
    var m1 := AddSections(st, pk, secs).sections;
    var m2 := AddSections(AddSections(st, pk, secs), pk, secs).sections;
    SecondPassSameSectionKeys(st, pk, secs);
    forall k | k in m1 ensures m2[k] == m1[k] {
      SecondPassKeepsSection(st, pk, secs, k);
    }
    MapsAgree(m2, m1);
  }

  lemma SecondPassSameSectionKeys(st: Store, pk: PageKey, secs: seq<SectionEntry>)
    ensures AddSections(AddSections(st, pk, secs), pk, secs).sections.Keys == AddSections(st, pk, secs).sections.Keys
  {
  }

  lemma MapsAgree<K, V>(m1: map<K, V>, m2: map<K, V>)
    requires m1.Keys == m2.Keys
    requires forall k | k in m2 :: m1[k] == m2[k]
    ensures m1 == m2
  {
  }

  lemma SecondPassKeepsSection(st: Store, pk: PageKey, secs: seq<SectionEntry>, k: SectionKey)
    requires k in AddSections(st, pk, secs).sections
    ensures AddSections(AddSections(st, pk, secs), pk, secs).sections[k] == AddSections(st, pk, secs).sections[k]
  {
    if k.0 == pk && k.1 in UsableHashes(secs) {
      var i := LastEntryFor(secs, k.1);
      SectionLastWins(st, pk, secs, k.1, i);
      SectionLastWins(AddSections(st, pk, secs), pk, secs, k.1, i);
    }
  }

  // ------------------------------------------------------------------------
  // The callbacks

  /** The page name: `current_page_name` when non-empty, otherwise `pagename`. */
  function PageName(ctx: PageContext): (name: string)
    ensures ctx.currentPageName.GetOr("") != "" ==> name == ctx.currentPageName.value
    ensures ctx.currentPageName.GetOr("") == "" ==> name == ctx.pagename.GetOr("")
    ensures name == "" <==> ctx.currentPageName.GetOr("") == "" && ctx.pagename.GetOr("") == ""
  {
    if ctx.currentPageName.GetOr("") != "" then ctx.currentPageName.value else ctx.pagename.GetOr("")
  }

  /** `update_or_create` of the page: title and context are overwritten, defaulting to "" and {}. */
  function UpsertPage(st: Store, doc: DocId, name: string, ctx: PageContext): (r: Store)
    ensures r == st.(pages := r.pages)
    ensures r.pages == st.pages[(doc, name) := Page(doc, name, ctx.title.GetOr(""), ctx.context.GetOr(EmptyObject))]
  {
    st.(pages := st.pages[(doc, name) := Page(doc, name, ctx.title.GetOr(""), ctx.context.GetOr(EmptyObject))])
  }

  /** `createPage`: upsert the page, then run the section loop for it. */
  function CreatePage(st: Store, ctx: PageContext, docId: Option<nat>): (r: Result<Store, string>)
    ensures !Truthy(docId) ==> r == Ok(st)
    ensures Truthy(docId) && docId.value !in st.documents ==> r == Err(DocumentMissing)
    ensures Truthy(docId) && docId.value in st.documents ==> r.Ok?
    ensures Truthy(docId) && PageName(ctx) == "" ==> r.Ok? ==> r.value == st
    ensures r.Ok? && Valid(st) ==> Valid(r.value)
    ensures r.Ok? ==> r.value.documents == st.documents && r.value.assets == st.assets
    ensures r.Ok? ==> forall h | h in st.blocks :: h in r.value.blocks && r.value.blocks[h] == st.blocks[h]
    ensures r.Ok? && Truthy(docId) && PageName(ctx) != "" ==>
      var key := (docId.value, PageName(ctx));
      && r.value.pages == st.pages[key := Page(docId.value, PageName(ctx), ctx.title.GetOr(""), ctx.context.GetOr(EmptyObject))]
      && (forall k | k in st.sections && k.0 != key :: k in r.value.sections && r.value.sections[k] == st.sections[k])
      && (forall k | k in r.value.sections && k.0 != key :: k in st.sections)
  ensures r.Ok? && Truthy(docId) && PageName(ctx) != "" ==>
    var key := (docId.value, PageName(ctx));
    var usable := UsableHashes(ctx.sectionList.GetOr([]));
      && r.value.blocks.Keys == st.blocks.Keys + usable
      && (forall h :: (key, h) in r.value.sections <==> (key, h) in st.sections || h in usable)
      && (forall h | (key, h) in st.sections && h !in usable :: r.value.sections[(key, h)] == st.sections[(key, h)])
      && (forall h | h in usable :: r.value.sections[(key, h)].contentBlock == h)
  {
    if !Truthy(docId) then Ok(st)
    else if docId.value !in st.documents then Err(DocumentMissing)
    else
      var name := PageName(ctx);
      if name == "" then Ok(st)
      else
        var key := (docId.value, name);
        var st' := UpsertPage(st, docId.value, name, ctx);
        AddSectionsKeepsValid(st', key, ctx.sectionList.GetOr([]));
        Ok(AddSections(st', key, ctx.sectionList.GetOr([])))
  }

  /** The same `createPage` call twice leaves the store as one call does. */
  lemma CreatePageIdempotent(st: Store, ctx: PageContext, docId: Option<nat>)
    requires CreatePage(st, ctx, docId).Ok?
    ensures CreatePage(CreatePage(st, ctx, docId).value, ctx, docId) == CreatePage(st, ctx, docId)
  {
    if Truthy(docId) && PageName(ctx) != "" {
      var name := PageName(ctx);
      var key := (docId.value, name);
      var secs := ctx.sectionList.GetOr([]);
      var s0 := UpsertPage(st, docId.value, name, ctx);
      var s1 := AddSections(s0, key, secs);
      assert UpsertPage(s1, docId.value, name, ctx) == s1;
      AddSectionsIdempotent(s0, key, secs);
    }
  }

  /**
   * Two pages whose sections share a hash get two section rows pointing at the
   * one content block, whose body is the one stored first.
   */
  lemma SharedBlockAcrossPages(st: Store, doc: nat, name1: string, e1: SectionEntry, name2: string, e2: SectionEntry)
    requires doc != 0 && doc in st.documents
    requires name1 != "" && name2 != "" && name1 != name2
    requires Usable(e1) && Usable(e2) && e1.hash == e2.hash
    requires e1.hash.value !in st.blocks
    ensures var ctx1 := PageContext(Some(name1), None, None, None, Some([e1]));
      var ctx2 := PageContext(Some(name2), None, None, None, Some([e2]));
      var h := e1.hash.value;
      var s1 := CreatePage(st, ctx1, Some(doc)).value;
      var s2 := CreatePage(s1, ctx2, Some(doc)).value;
      && ((doc, name1), h) in s2.sections && ((doc, name2), h) in s2.sections
      && s2.sections[((doc, name1), h)].contentBlock == h
      && s2.sections[((doc, name2), h)].contentBlock == h
      && s2.blocks[h] == e1.body.value
  {
    var h := e1.hash.value;
    var ctx1 := PageContext(Some(name1), None, None, None, Some([e1]));
    var ctx2 := PageContext(Some(name2), None, None, None, Some([e2]));
    var u1 := UpsertPage(st, doc, name1, ctx1);
    var s1 := AddSection(u1, (doc, name1), e1);
    CreatePageStores(st, ctx1, doc);
    AddSectionsSingle(u1, (doc, name1), e1);
    assert s1.blocks[h] == e1.body.value;
    assert s1.sections[((doc, name1), h)] == SectionRow((doc, name1), e1);
    var u2 := UpsertPage(s1, doc, name2, ctx2);
    var s2 := AddSection(u2, (doc, name2), e2);
    CreatePageStores(s1, ctx2, doc);
    AddSectionsSingle(u2, (doc, name2), e2);
    assert ((doc, name1), h) != ((doc, name2), h);
    assert s2.sections[((doc, name1), h)] == SectionRow((doc, name1), e1);
  }

  /** A `createPage` call that stores a page: the upsert followed by the section loop. */
  lemma CreatePageStores(st: Store, ctx: PageContext, doc: nat)
    requires doc != 0 && doc in st.documents && PageName(ctx) != ""
    ensures CreatePage(st, ctx, Some(doc))
         == Ok(AddSections(UpsertPage(st, doc, PageName(ctx), ctx), (doc, PageName(ctx)), ctx.sectionList.GetOr([])))
  {
  }

  lemma AddSectionsSingle(st: Store, pk: PageKey, e: SectionEntry)
    ensures AddSections(st, pk, [e]) == AddSection(st, pk, e)
  {
    assert [e][..0] == [];
  }

  /** `createAsset`: upsert the asset by (document, path), overwriting its hash. */
  function CreateAsset(st: Store, a: AssetData, docId: Option<nat>): (r: Result<Store, string>)
    ensures !Truthy(docId) ==> r == Ok(st)
    ensures Truthy(docId) && docId.value !in st.documents ==> r == Err(DocumentMissing)
    ensures Truthy(docId) && docId.value in st.documents ==>
      var key := (docId.value, a.path.GetOr(""));
      && r.Ok?
      && r.value == st.(assets := r.value.assets)
      && key in r.value.assets && r.value.assets[key].hash == a.hash.GetOr("")
      && (forall k | k in st.assets && k != key :: k in r.value.assets && r.value.assets[k] == st.assets[k])
      && r.value.assets.Keys == st.assets.Keys + {key}
    ensures r.Ok? && Valid(st) ==> Valid(r.value)
  {
    if !Truthy(docId) then Ok(st)
    else if docId.value !in st.documents then Err(DocumentMissing)
    else
      var path := a.path.GetOr("");
      Ok(st.(assets := st.assets[(docId.value, path) := StaticAsset(docId.value, path, a.hash.GetOr(""))]))
  }

  lemma CreateAssetIdempotent(st: Store, a: AssetData, docId: Option<nat>)
    requires CreateAsset(st, a, docId).Ok?
    ensures CreateAsset(CreateAsset(st, a, docId).value, a, docId) == CreateAsset(st, a, docId)
  {
    if Truthy(docId) {
      var s1 := CreateAsset(st, a, docId).value;
      var key := (docId.value, a.path.GetOr(""));
      assert s1.assets[key := StaticAsset(docId.value, a.path.GetOr(""), a.hash.GetOr(""))] == s1.assets;
    }
  }

  /**
   * `finalize`: store the global context (default {}) on the document. The
   * `last_build_at` value handed in is overwritten on save, because the
   * column is stamped automatically, so the document records `now`.
   */
  function Finalize(st: Store, f: FinalizeData, docId: Option<nat>, now: Time): (r: Result<Store, string>)
    ensures !Truthy(docId) ==> r == Ok(st)
    ensures Truthy(docId) && docId.value !in st.documents ==> r == Err(DocumentMissing)
    ensures Truthy(docId) && docId.value in st.documents ==>
      var d := docId.value;
      && r.Ok?
      && r.value == st.(documents := r.value.documents)
      && r.value.documents.Keys == st.documents.Keys
      && r.value.documents[d].globalContext == f.globalContext.GetOr(EmptyObject)
      && r.value.documents[d].lastBuildAt == now
      && r.value.documents[d].(lastBuildAt := st.documents[d].lastBuildAt, globalContext := st.documents[d].globalContext) == st.documents[d]
      && (forall k | k in st.documents && k != d :: r.value.documents[k] == st.documents[k])
    ensures r.Ok? && Valid(st) ==> Valid(r.value)
  {
    if !Truthy(docId) then Ok(st)
    else if docId.value !in st.documents then Err(DocumentMissing)
    else
      var doc := st.documents[docId.value];
      var doc' := doc.(lastBuildAt := now, globalContext := f.globalContext.GetOr(EmptyObject));
      Ok(st.(documents := st.documents[docId.value := doc']))
  }

  /** The timestamp handed to `finalize` never reaches the store. */
  lemma FinalizeIgnoresGivenTimestamp(st: Store, f: FinalizeData, t: Time, docId: Option<nat>, now: Time)
    ensures Finalize(st, f.(lastBuildAt := Some(t)), docId, now) == Finalize(st, f.(lastBuildAt := None), docId, now)
  {
  }
}

=== FILE: middleware.dfy ===
/**
 * The request filter that repairs a `null` Origin header: browsers send
 * `Origin: null` from some same-origin contexts, and the filter replaces it
 * with the site's own origin only when the browser also reports the request
 * as same-origin. Requests from sandboxed frames (cross-site) keep `null`.
 */
module Middleware {
  import opened Common

  /** The request's header environment. */
  type Meta = map<string, string>

  const OriginKey := "HTTP_ORIGIN"
  const FetchSiteKey := "HTTP_SEC_FETCH_SITE"

  /** The exception `get_host()` raises for a host outside `ALLOWED_HOSTS`. */
  const DisallowedHost := "DisallowedHost"

  /** Whether the filter rewrites the Origin of this request. */
  predicate Trusted(meta: Meta) {
    OriginKey in meta && meta[OriginKey] == "null" && FetchSiteKey in meta && meta[FetchSiteKey] == "same-origin"
  }

  /**
   * The header environment the downstream handler sees. `host` is what
   * `request.get_host()` returns, or `None` when it raises `DisallowedHost`
   * (a Host header outside `ALLOWED_HOSTS`); it is consulted only for a
   * request the filter rewrites, so only such a request can fail.
   */
  function RewriteOrigin(meta: Meta, scheme: string, host: Option<string>): (r: Result<Meta, string>)
    ensures r.Err? <==> Trusted(meta) && host.None?
    ensures r.Err? ==> r.error == DisallowedHost
    ensures r.Ok? ==> r.value.Keys == meta.Keys
    ensures r.Ok? ==> forall k | k in meta && k != OriginKey :: r.value[k] == meta[k]
    ensures r.Ok? && Trusted(meta) ==> r.value[OriginKey] == scheme + "://" + host.value
    ensures !Trusted(meta) ==> r == Ok(meta)
    ensures OriginKey in meta && meta[OriginKey] != "null" ==> r.Ok? && r.value[OriginKey] == meta[OriginKey]
  {
    if !Trusted(meta) then Ok(meta)
    else if host.None? then Err(DisallowedHost)
    else Ok(meta[OriginKey := scheme + "://" + host.value])
  }

  /** Running the filter again on what it let through changes nothing: a rewritten Origin is no longer `null`. */
  lemma RewriteOriginIdempotent(meta: Meta, scheme: string, host: Option<string>)
    requires RewriteOrigin(meta, scheme, host).Ok?
    ensures RewriteOrigin(RewriteOrigin(meta, scheme, host).value, scheme, host) == RewriteOrigin(meta, scheme, host)
  {
    if Trusted(meta) {
      var m := RewriteOrigin(meta, scheme, host).value;
      var origin := scheme + "://" + host.value;
      assert origin[|scheme|] == ':';
      assert ':' !in "null";
      assert m[OriginKey] != "null";
    }
  }

  /**
   * `AllowNullOriginMiddleware.__call__`: rewrite, then hand the request on
   * and return its response; a `DisallowedHost` escapes before the
   * downstream handler runs.
   */
  function AllowNullOrigin<R>(meta: Meta, scheme: string, host: Option<string>, downstream: Meta -> R): (r: Result<(Meta, R), string>)
    ensures r.Err? <==> RewriteOrigin(meta, scheme, host).Err?
    ensures r.Err? ==> r.error == DisallowedHost
    ensures r.Ok? ==> r.value.0 == RewriteOrigin(meta, scheme, host).value && r.value.1 == downstream(r.value.0)
    ensures !Trusted(meta) ==> r == Ok((meta, downstream(meta)))
  {
    match RewriteOrigin(meta, scheme, host)
    case Err(e) => Err(e)
    case Ok(m) => Ok((m, downstream(m)))
  }
}

=== FILE: naming.dfy ===
/**
 * Repository names on disk. A repository's directory name is its display name
 * with every character dropped that is not alphanumeric, `-` or `_`; the
 * directory sits below the storage root, inside a directory named after the
 * organisation's id.
 */
module Naming {
  import opened Common
  import Paths

  /** The characters a directory name keeps (alphanumeric read as ASCII). */
  predicate SafeChar(c: char) {
    IsAsciiAlnum(c) || c == '-' || c == '_'
  }

  /** `"".join(c for c in name if c.isalnum() or c in ('-', '_'))`. */
  function SafeName(name: string): (r: string)
    ensures |r| <= |name|
    ensures forall k :: 0 <= k < |r| ==> SafeChar(r[k])
    ensures '/' !in r
  {
    if name == [] then []
    else (if SafeChar(name[0]) then [name[0]] else []) + SafeName(name[1..])
  }

  /** Sanitising works character by character: it distributes over concatenation. */
  lemma {:induction false} SafeNameAppend(a: string, b: string)
    ensures SafeName(a + b) == SafeName(a) + SafeName(b)
  {
    if a == [] {
      assert a + b == b;
    } else {
      assert (a + b)[0] == a[0];
      assert (a + b)[1..] == a[1..] + b;
      SafeNameAppend(a[1..], b);
    }
  }

  /** A name is left as it is exactly when all its characters are safe. */
  lemma {:induction false} SafeNameFixpoint(name: string)
    ensures SafeName(name) == name <==> forall k :: 0 <= k < |name| ==> SafeChar(name[k])
  {
    if name != [] {
      SafeNameFixpoint(name[1..]);
      if !SafeChar(name[0]) {
        assert |SafeName(name)| < |name|;
      }
    }
  }

  /** Sanitising twice is sanitising once. */
  lemma SafeNameIdempotent(name: string)
    ensures SafeName(SafeName(name)) == SafeName(name)
  {
    SafeNameFixpoint(SafeName(name));
  }

  /** Each safe character is kept as often as it occurs; every other character is gone. */
  lemma {:induction false} SafeNameCounts(name: string, c: char)
    ensures multiset(SafeName(name))[c] == if SafeChar(c) then multiset(name)[c] else 0
  {
    if name != [] {
      SafeNameCounts(name[1..], c);
      var head := if SafeChar(name[0]) then [name[0]] else [];
      assert SafeName(name) == head + SafeName(name[1..]);
      assert multiset(SafeName(name)) == multiset(head) + multiset(SafeName(name[1..]));
      assert name == [name[0]] + name[1..];
      assert multiset(name) == multiset{name[0]} + multiset(name[1..]);
    }
  }

  /** The organisation's directory below the storage root. */
  function OrgDirectory(base: string, org: nat): (d: string)
    ensures EndsWith(d, NatToString(org))
  {
    Paths.Join(base, NatToString(org))
  }

  /** `os.path.join(base_dir, str(organisation.id), safe_name)`. */
  function StorageLocalPath(base: string, org: nat, name: string): (p: string)
    ensures StartsWith(p, OrgDirectory(base, org) + "/")
    ensures EndsWith(p, SafeName(name))
  {
    var d := OrgDirectory(base, org);
    assert d != "" && d[|d| - 1] != '/';
    d + "/" + SafeName(name)
  }

  /** Within an organisation, two names share a directory exactly when they sanitise alike. */
  lemma StoragePathsCollide(base: string, org: nat, a: string, b: string)
    ensures StorageLocalPath(base, org, a) == StorageLocalPath(base, org, b) <==> SafeName(a) == SafeName(b)
  {
    var d := OrgDirectory(base, org) + "/";
    if StorageLocalPath(base, org, a) == StorageLocalPath(base, org, b) {
      assert SafeName(a) == StorageLocalPath(base, org, a)[|d|..];
      assert SafeName(b) == StorageLocalPath(base, org, b)[|d|..];
    }
  }

  /** A directory name without `/` is recovered from what follows it. */
  lemma SlashSeparated(d1: string, x: string, d2: string, y: string)
    requires '/' !in d1 && '/' !in d2
    requires d1 + "/" + x == d2 + "/" + y
    ensures d1 == d2
  {
    var t := d1 + "/" + x;
    assert t[..|d1|] == d1 && t[|d1|] == '/';
    IndexOfUnique(t, '/', |d1|);
    assert (d2 + "/" + y)[..|d2|] == d2 && (d2 + "/" + y)[|d2|] == '/';
    IndexOfUnique(t, '/', |d2|);
    assert d1 == t[..|d1|] && d2 == t[..|d2|];
  }

  lemma DigitsHaveNoSlash(d: string)
    requires forall k :: 0 <= k < |d| ==> '0' <= d[k] <= '9'
    ensures '/' !in d
  {
  }

  lemma StoragePathShape(base: string, o: nat, name: string)
    ensures '/' !in NatToString(o)
    ensures StorageLocalPath(base, o, name) == Paths.JoinPrefix(base) + (NatToString(o) + "/" + SafeName(name))
  {
    var d := NatToString(o);
    DigitsHaveNoSlash(d);
    Paths.JoinRelative(base, d);
    var pre := Paths.JoinPrefix(base);
    assert (pre + d) + "/" + SafeName(name) == pre + (d + "/" + SafeName(name));
  }

  /** Repositories of different organisations never share a directory. */
  lemma StoragePathsSeparateOrganisations(base: string, o1: nat, a: string, o2: nat, b: string)
    requires o1 != o2
    ensures StorageLocalPath(base, o1, a) != StorageLocalPath(base, o2, b)
  {
    StoragePathShape(base, o1, a);
    StoragePathShape(base, o2, b);
    var pre := Paths.JoinPrefix(base);
    var t1 := NatToString(o1) + "/" + SafeName(a);
    var t2 := NatToString(o2) + "/" + SafeName(b);
    if pre + t1 == pre + t2 {
      assert t1 == (pre + t1)[|pre|..] && t2 == (pre + t2)[|pre|..];
      SlashSeparated(NatToString(o1), SafeName(a), NatToString(o2), SafeName(b));
      NatToStringInjective(o1, o2);
    }
  }

  /** The path the creation service uses: directly below the root, with no organisation directory. */
  function FlatLocalPath(base: string, name: string): (p: string)
    ensures EndsWith(p, SafeName(name))
    ensures !Paths.IsAbsolute(SafeName(name)) ==> StartsWith(p, base)
  {
    Paths.Join(base, SafeName(name))
  }

  /** Without the organisation directory, equal names collide across organisations. */
  lemma FlatPathsCollide(base: string, a: string, b: string)
    ensures FlatLocalPath(base, a) == FlatLocalPath(base, b) <==> SafeName(a) == SafeName(b)
  {
    assert !Paths.IsAbsolute(SafeName(a)) && !Paths.IsAbsolute(SafeName(b));
    Paths.JoinInjective(base, SafeName(a), SafeName(b));
  }
}

=== FILE: ordering.dfy ===
/**
 * Orders and sorting. Python compares `str` values lexicographically by code
 * point; `sorted(xs, key=...)` is modelled as an insertion sort over an
 * arbitrary total preorder, proved to return a sorted permutation of its input.
 */
module Ordering {

  /** Python's `a <= b` on `str`. */
  predicate StrLe(a: string, b: string)
    decreases |a|
  {
    |a| == 0 || (|b| > 0 && (a[0] < b[0] || (a[0] == b[0] && StrLe(a[1..], b[1..]))))
  }

  lemma {:induction false} StrLeTotal(a: string, b: string)
    ensures StrLe(a, b) || StrLe(b, a)
    decreases |a|
  {
    if |a| > 0 && |b| > 0 && a[0] == b[0] {
      StrLeTotal(a[1..], b[1..]);
    }
  }

  lemma {:induction false} StrLeTransitive(a: string, b: string, c: string)
    requires StrLe(a, b) && StrLe(b, c)
    ensures StrLe(a, c)
    decreases |a|
  {
    if |a| > 0 && a[0] == b[0] && b[0] == c[0] {
      StrLeTransitive(a[1..], b[1..], c[1..]);
    }
  }

  lemma {:induction false} StrLeAntisymmetric(a: string, b: string)
    requires StrLe(a, b) && StrLe(b, a)
    ensures a == b
    decreases |a|
  {
    if |a| > 0 {
      StrLeAntisymmetric(a[1..], b[1..]);
      assert a == [a[0]] + a[1..];
      assert b == [b[0]] + b[1..];
    }
  }

  ghost predicate TotalPreorder<T(!new)>(le: (T, T) -> bool) {
    && (forall a, b :: le(a, b) || le(b, a))
    && (forall a, b, c :: le(a, b) && le(b, c) ==> le(a, c))
  }

  predicate Sorted<T>(s: seq<T>, le: (T, T) -> bool) {
    forall i, j :: 0 <= i < j < |s| ==> le(s[i], s[j])
  }

  /** Places `x` before the first element it is not greater than. */
  function InsertSorted<T(!new)>(x: T, s: seq<T>, le: (T, T) -> bool): (r: seq<T>)
    requires TotalPreorder(le)
    requires Sorted(s, le)
    ensures multiset(r) == multiset(s) + multiset{x}
    ensures Sorted(r, le)
  {
    if s == [] then [x]
    else if le(x, s[0]) then [x] + s
    else
      var tail := InsertSorted(x, s[1..], le);
      assert s == [s[0]] + s[1..];
      BelowAllOfInsert(s[0], x, s[1..], tail, le);
      SortedCons(s[0], tail, le);
      [s[0]] + tail
  }

  /** A lower bound of a sorted sequence can be put in front of it. */
  lemma SortedCons<T>(y: T, s: seq<T>, le: (T, T) -> bool)
    requires Sorted(s, le)
    requires forall k :: 0 <= k < |s| ==> le(y, s[k])
    ensures Sorted([y] + s, le)
  {
    var r := [y] + s;
    forall i, j | 0 <= i < j < |r| ensures le(r[i], r[j]) {
      assert r[j] == s[j - 1];
      if i > 0 {
        assert r[i] == s[i - 1];
      }
    }
  }

  /** A lower bound of `x` and of every element of `s` bounds every element of a permutation of both. */
  lemma BelowAllOfInsert<T>(y: T, x: T, s: seq<T>, tail: seq<T>, le: (T, T) -> bool)
    requires multiset(tail) == multiset(s) + multiset{x}
    requires le(y, x)
    requires forall k :: 0 <= k < |s| ==> le(y, s[k])
    ensures forall k :: 0 <= k < |tail| ==> le(y, tail[k])
  {
    forall k | 0 <= k < |tail|
      ensures le(y, tail[k])
    {
      assert tail[k] in multiset(tail);
      if tail[k] != x {
        assert tail[k] in multiset(s);
        var j :| 0 <= j < |s| && s[j] == tail[k];
      }
    }
  }

  /**
   * Python's `sorted` with a key, as an insertion sort: the result is a
   * permutation of the input ordered by `le`. The relative order of elements
   * equal under `le` is not stated.
   */
  function SortBy<T(!new)>(s: seq<T>, le: (T, T) -> bool): (r: seq<T>)
    requires TotalPreorder(le)
    ensures multiset(r) == multiset(s)
    ensures Sorted(r, le)
  {
    if s == [] then []
    else
      assert s == [s[0]] + s[1..];
      InsertSorted(s[0], SortBy(s[1..], le), le)
  }
}

=== FILE: paths.dfy ===
/**
 * POSIX path arithmetic (`os.path.join`, `os.path.dirname`) and an abstract
 * file system: the set of paths that currently exist. `shutil.rmtree` removes a
 * path together with everything below it.
 */
module Paths {
  import opened Common

  predicate IsAbsolute(p: string) {
    |p| > 0 && p[0] == '/'
  }

  /**
   * POSIX `os.path.join(a, b)`: an absolute `b` replaces `a`; otherwise one `/`
   * is inserted unless `a` is empty or already ends with one.
   */
  function Join(a: string, b: string): (r: string)
    ensures IsAbsolute(b) ==> r == b
    ensures !IsAbsolute(b) ==> StartsWith(r, a) && EndsWith(r, b)
    ensures !IsAbsolute(b) ==> |a| + |b| <= |r| <= |a| + |b| + 1
  {
    if IsAbsolute(b) then b
    else if a == "" || a[|a| - 1] == '/' then a + b
    else a + "/" + b
  }

  /** With the directory fixed, joining a relative name is injective. */
  lemma JoinInjective(a: string, x: string, y: string)
    requires !IsAbsolute(x) && !IsAbsolute(y)
    ensures Join(a, x) == Join(a, y) <==> x == y
  {
    var pre := if a == "" || a[|a| - 1] == '/' then a else a + "/";
    assert Join(a, x) == pre + x && Join(a, y) == pre + y;
    if Join(a, x) == Join(a, y) {
      assert x == (pre + x)[|pre|..];
      assert y == (pre + y)[|pre|..];
    }
  }

  /** The prefix `os.path.join` puts in front of a relative name. */
  function JoinPrefix(a: string): string {
    if a == "" || a[|a| - 1] == '/' then a else a + "/"
  }

  /** Joining a relative name puts the join prefix in front of it. */
  lemma JoinRelative(a: string, x: string)
    requires !IsAbsolute(x)
    ensures Join(a, x) == JoinPrefix(a) + x
  {
  }

  /** Joining `dir/name` onto a directory is joining `dir`, then `name`. */
  lemma JoinNested(a: string, dir: string, name: string)
    requires dir != "" && !IsAbsolute(dir) && dir[|dir| - 1] != '/' && !IsAbsolute(name)
    ensures Join(a, dir + "/" + name) == Join(Join(a, dir), name)
  {
    var pre := JoinPrefix(a);
    assert (dir + "/" + name)[0] == dir[0];
    JoinRelative(a, dir + "/" + name);
    JoinRelative(a, dir);
    var parent := pre + dir;
    assert parent[|parent| - 1] == dir[|dir| - 1];
    JoinRelative(parent, name);
    assert JoinPrefix(parent) == parent + "/";
    assert pre + (dir + "/" + name) == (pre + dir) + "/" + name;
  }

  /** `p.rfind('/') + 1`: the length of the head that `dirname` starts from. */
  function HeadLength(p: string): (n: nat)
    ensures n <= |p|
    ensures n > 0 ==> p[n - 1] == '/'
    ensures forall k :: n <= k < |p| ==> p[k] != '/'
  {
    if p == "" then 0
    else if p[|p| - 1] == '/' then |p|
    else HeadLength(p[..|p| - 1])
  }

  predicate AllSlashes(s: string) {
    forall k :: 0 <= k < |s| ==> s[k] == '/'
  }

  /** Python's `s.rstrip('/')`. */
  function StripTrailingSlashes(s: string): (r: string)
    ensures |r| <= |s| && r == s[..|r|]
    ensures r == [] || r[|r| - 1] != '/'
  {
    if |s| > 0 && s[|s| - 1] == '/' then StripTrailingSlashes(s[..|s| - 1]) else s
  }

  /**
   * POSIX `os.path.dirname(p)`: the text before the last `/`, with trailing
   * slashes removed unless it consists of slashes only.
   */
  function Dirname(p: string): (r: string)
    ensures StartsWith(p, r)
  {
    var head := p[..HeadLength(p)];
    if head != "" && !AllSlashes(head) then StripTrailingSlashes(head) else head
  }

  /** `dirname` undoes `join` of a plain file name onto a directory. */
  lemma DirnameOfJoin(a: string, name: string)
    requires a != "" && a[|a| - 1] != '/'
    requires '/' !in name && !IsAbsolute(name)
    ensures Dirname(Join(a, name)) == a
  {
    var p := Join(a, name);
    assert p == a + "/" + name;
    assert p[|a|] == '/';
    assert HeadLength(p) == |a| + 1;
    var head := p[..|a| + 1];
    assert head == a + "/";
    assert !AllSlashes(head) by {
      assert head[|a| - 1] == a[|a| - 1];
    }
    assert StripTrailingSlashes(head) == StripTrailingSlashes(a) by {
      assert head[..|head| - 1] == a;
    }
  }

  /** `p` is `root` itself or lies somewhere below it. */
  predicate Under(p: string, root: string) {
    p == root || StartsWith(p, root + "/")
  }

  /** `shutil.rmtree(root)` over the set of existing paths. */
  function RemoveTree(fs: set<string>, root: string): (r: set<string>)
    ensures r <= fs
    ensures forall p :: p in r ==> !Under(p, root)
    ensures forall p :: p in fs && !Under(p, root) ==> p in r
  {
    set p | p in fs && !Under(p, root)
  }
}

=== FILE: repo_handlers.dfy ===
/**
 * Browsing a repository: directory listings, file contents, refs and commit
 * history, and the worktree commands a handler issues.
 *
 * The Git object store is replaced by an abstract tree (each item is a blob,
 * a tree of items, or a submodule's gitlink) for the commit a reference names, a sequence of heads
 * and tags, and the commit history in the order Git walks it. Resolving a
 * reference to its commit is left to the caller.
 */
module RepoHandlers {
  import opened Common
  import opened Ordering
  import Paths

  datatype Item =
    | BlobItem(name: string, mode: int, sha: string, size: nat, text: string)
    | TreeItem(name: string, mode: int, sha: string, children: seq<Item>)
      /** A gitlink: the commit of a submodule, neither a blob nor a tree. */
    | SubmoduleItem(name: string, mode: int, sha: string)

  /** `tree[name]`: the first child with that name. */
  function Find(children: seq<Item>, name: string): (r: Option<Item>)
    ensures r.Some? ==> r.value in children && r.value.name == name
    ensures r.None? <==> forall k :: 0 <= k < |children| ==> children[k].name != name
  {
    if children == [] then None
    else if children[0].name == name then Some(children[0])
    else Find(children[1..], name)
  }

  /** Sibling names are distinct, non-empty and free of `/`, as in any Git tree. */
  predicate UniqueNames(children: seq<Item>) {
    && (forall k :: 0 <= k < |children| ==> children[k].name != "" && '/' !in children[k].name)
    && (forall j, k :: 0 <= j < k < |children| ==> children[j].name != children[k].name)
  }

  predicate WellFormed(it: Item) {
    it.TreeItem? ==> UniqueNames(it.children) && forall c | c in it.children :: WellFormed(c)
  }

  lemma {:induction false} FindUnique(children: seq<Item>, c: Item)
    requires UniqueNames(children) && c in children
    ensures Find(children, c.name) == Some(c)
  {
    if children[0] != c {
      assert children[0].name != c.name by {
        var k :| 0 <= k < |children| && children[k] == c;
        assert k > 0;
      }
      assert UniqueNames(children[1..]);
      FindUnique(children[1..], c);
    }
  }

  /**
   * `tree / "a/b/c"`: walk the path components from `children`; a missing
   * component, or a blob before the last one, is a lookup failure.
   */
  function Resolve(children: seq<Item>, comps: seq<string>): (r: Option<Item>)
    requires |comps| >= 1
    decreases |comps|
  {
    match Find(children, comps[0])
    case None => None
    case Some(it) =>
      if |comps| == 1 then Some(it)
      else if it.TreeItem? then Resolve(it.children, comps[1..])
      else None
  }

  lemma {:induction false} ResolveAppend(children: seq<Item>, comps: seq<string>, name: string)
    requires |comps| >= 1
    requires Resolve(children, comps).Some? && Resolve(children, comps).value.TreeItem?
    ensures Resolve(children, comps + [name]) == Find(Resolve(children, comps).value.children, name)
    decreases |comps|
  {
    assert (comps + [name])[0] == comps[0];
    if |comps| > 1 {
      assert (comps + [name])[1..] == comps[1..] + [name];
      ResolveAppend(Find(children, comps[0]).value.children, comps[1..], name);
    }
  }

  /** The item at `path` below the commit's root tree. */
  function Lookup(root: Item, path: string): Option<Item>
    requires root.TreeItem?
  {
    Resolve(root.children, Split(path, '/'))
  }

  datatype EntryKind = EntryTree | EntryBlob

  datatype FileEntry = FileEntry(
    name: string,
    path: string,
    kind: EntryKind,
    size: Option<nat>,
    mode: int,
    sha: string)

  /** The path of a listed child: `"<path>/<name>"`, or just the name at the root. */
  function ChildPath(path: string, name: string): string {
    if path != "" then path + "/" + name else name
  }

  function ToEntry(path: string, it: Item): (e: FileEntry)
    ensures e.name == it.name && e.sha == it.sha && e.mode == it.mode
    ensures e.path == ChildPath(path, it.name)
    ensures e.kind.EntryTree? <==> it.TreeItem?
    ensures e.size == (if it.BlobItem? then Some(it.size) else None)
  {
    FileEntry(it.name, ChildPath(path, it.name), if it.TreeItem? then EntryTree else EntryBlob,
              if it.BlobItem? then Some(it.size) else None, it.mode, it.sha)
  }

  /** The sort key `(type == 'blob', name)`: trees first, then by name. */
  predicate EntryLe(a: FileEntry, b: FileEntry) {
    (a.kind.EntryTree? && b.kind.EntryBlob?) || (a.kind == b.kind && StrLe(a.name, b.name))
  }

  lemma EntryLeTotalPreorder()
    ensures TotalPreorder(EntryLe)
  {
    forall a, b ensures EntryLe(a, b) || EntryLe(b, a) {
      StrLeTotal(a.name, b.name);
    }
    forall a, b, c | EntryLe(a, b) && EntryLe(b, c) ensures EntryLe(a, c) {
      if a.kind == b.kind && b.kind == c.kind {
        StrLeTransitive(a.name, b.name, c.name);
      }
    }
  }

  datatype ContentError =
    | PathNotFound(path: string)
    | NotADirectory(path: string)
    | NotAFile(path: string)
    | NotABlob(path: string)

  /** In a listing sorted by `EntryLe`, every tree comes before every blob. */
  lemma TreesFirst(s: seq<FileEntry>)
    requires Sorted(s, EntryLe)
    ensures forall i, j :: 0 <= i < j < |s| && s[j].kind.EntryTree? ==> s[i].kind.EntryTree?
  {
  }

  /** The entries of a tree's children at `path`, sorted trees first and by name. */
  function ListChildren(path: string, children: seq<Item>): (r: seq<FileEntry>)
    ensures multiset(r) == multiset(MapSeq((it: Item) => ToEntry(path, it), children))
    ensures |r| == |children|
    ensures Sorted(r, EntryLe)
    ensures forall e | e in r :: e.path == ChildPath(path, e.name) && (e.size.Some? ==> e.kind.EntryBlob?)
  {
    EntryLeTotalPreorder();
    var entries := MapSeq((it: Item) => ToEntry(path, it), children);
    var sorted := SortBy(entries, EntryLe);
    assert |sorted| == |entries| by {
      assert |multiset(sorted)| == |multiset(entries)|;
    }
    forall e | e in sorted
      ensures e.path == ChildPath(path, e.name) && (e.size.Some? ==> e.kind.EntryBlob?)
    {
      assert e in multiset(entries);
      var k :| 0 <= k < |entries| && entries[k] == e;
    }
    sorted
  }

  /** `list_directory`: the children of the tree at `path`, trees first, each group by name. */
  function ListDirectory(root: Item, path: string): (r: Result<seq<FileEntry>, ContentError>)
    requires root.TreeItem?
    ensures var target := if path != "" then Lookup(root, path) else Some(root);
      && (target.None? <==> r == Err(PathNotFound(path)))
      && (target.Some? && !target.value.TreeItem? <==> r == Err(NotADirectory(path)))
      && (target.Some? && target.value.TreeItem? ==>
            && r.Ok?
            && multiset(r.value) == multiset(MapSeq((it: Item) => ToEntry(path, it), target.value.children))
            && |r.value| == |target.value.children|)
    ensures r.Ok? ==> Sorted(r.value, EntryLe)
    ensures r.Ok? ==> forall i, j :: 0 <= i < j < |r.value| && r.value[j].kind.EntryTree? ==> r.value[i].kind.EntryTree?
    ensures r.Ok? ==> forall e | e in r.value ::
      e.path == ChildPath(path, e.name) && (e.size.Some? ==> e.kind.EntryBlob?)
  {
    var target := if path != "" then Lookup(root, path) else Some(root);
    match target
    case None => Err(PathNotFound(path))
    case Some(it) =>
      if it.TreeItem? then
        var listed := ListChildren(path, it.children);
        TreesFirst(listed);
        Ok(listed)
      else Err(NotADirectory(path))
  }

  /**
   * Every listed path leads back to the listed item: looking it up finds an
   * item with the entry's name, kind and object id. A blob entry with no
   * size is exactly a submodule.
   */
  lemma {:induction false} ListedPathsResolve(root: Item, path: string, e: FileEntry)
    requires root.TreeItem? && WellFormed(root)
    requires ListDirectory(root, path).Ok? && e in ListDirectory(root, path).value
    ensures Lookup(root, e.path).Some?
    ensures Lookup(root, e.path).value.sha == e.sha
    ensures Lookup(root, e.path).value.TreeItem? <==> e.kind.EntryTree?
    ensures Lookup(root, e.path).value.BlobItem? <==> e.size.Some?
    ensures Lookup(root, e.path).value.SubmoduleItem? <==> e.kind.EntryBlob? && e.size.None?
  {
    var target := if path != "" then Lookup(root, path) else Some(root);
    var t := target.value;
    var entries := MapSeq((it: Item) => ToEntry(path, it), t.children);
    assert e in multiset(entries);
    var k :| 0 <= k < |entries| && entries[k] == e;
    var c := t.children[k];
    assert WellFormed(t) by {
      if path != "" {
        ResolveWellFormed(root.children, Split(path, '/'));
      }
    }
    FindUnique(t.children, c);
    if path == "" {
      assert '/' !in e.path;
      assert Split(e.path, '/') == [c.name];
    } else {
      SplitAppend(path, '/', c.name);
      assert e.path == path + ['/'] + c.name;
      ResolveAppend(root.children, Split(path, '/'), c.name);
    }
  }

  lemma {:induction false} ResolveWellFormed(children: seq<Item>, comps: seq<string>)
    requires |comps| >= 1
    requires forall c | c in children :: WellFormed(c)
    requires Resolve(children, comps).Some?
    ensures WellFormed(Resolve(children, comps).value)
    decreases |comps|
  {
    var it := Find(children, comps[0]).value;
    if |comps| > 1 {
      ResolveWellFormed(it.children, comps[1..]);
    }
  }

  /** `get_file_content`: the text of the blob at `path`. */
  function GetFileContent(root: Item, path: string): (r: Result<string, ContentError>)
    requires root.TreeItem?
    ensures Lookup(root, path).None? <==> r == Err(PathNotFound(path))
    ensures Lookup(root, path).Some? && !Lookup(root, path).value.BlobItem? <==> r == Err(NotAFile(path))
    ensures r.Ok? <==> Lookup(root, path).Some? && Lookup(root, path).value.BlobItem?
    ensures r.Ok? ==> r.value == Lookup(root, path).value.text
  {
    match Lookup(root, path)
    case None => Err(PathNotFound(path))
    case Some(it) => if it.BlobItem? then Ok(it.text) else Err(NotAFile(path))
  }

  /** `get_file_path`: the same content, with every failure turned into `None`. */
  function GetFilePath(root: Item, path: string): (r: Option<string>)
    requires root.TreeItem?
    ensures r.Some? <==> Lookup(root, path).Some? && Lookup(root, path).value.BlobItem?
    ensures r.Some? ==> GetFileContent(root, path) == Ok(r.value)
  {
    match GetFileContent(root, path)
    case Ok(text) => Some(text)
    case Err(_) => None
  }

  /** `get_blob`: the blob at `path`. */
  function GetBlob(root: Item, path: string): (r: Result<Item, ContentError>)
    requires root.TreeItem?
    ensures Lookup(root, path).None? <==> r == Err(PathNotFound(path))
    ensures r.Ok? <==> Lookup(root, path).Some? && Lookup(root, path).value.BlobItem?
    ensures r.Ok? ==> r.value == Lookup(root, path).value
    ensures r.Err? && Lookup(root, path).Some? ==> r == Err(NotABlob(path))
  {
    match Lookup(root, path)
    case None => Err(PathNotFound(path))
    case Some(it) => if it.BlobItem? then Ok(it) else Err(NotABlob(path))
  }

  /** `get_file_size`: the blob's size in bytes. */
  function GetFileSize(root: Item, path: string): (r: Result<nat, ContentError>)
    requires root.TreeItem?
    ensures r.Ok? <==> GetBlob(root, path).Ok?
    ensures r.Ok? ==> r.value == GetBlob(root, path).value.size
    ensures r.Ok? ==> GetFileContent(root, path).Ok?
  {
    match GetBlob(root, path)
    case Ok(b) => Ok(b.size)
    case Err(e) => Err(e)
  }

  /** `get_tree`: whatever item is at `path` (no kind check), or the root for "". */
  function GetTree(root: Item, path: string): (r: Result<Item, ContentError>)
    requires root.TreeItem?
    ensures path == "" ==> r == Ok(root)
    ensures path != "" ==> (r.Ok? <==> Lookup(root, path).Some?)
    ensures path != "" && r.Ok? ==> r.value == Lookup(root, path).value
  {
    if path == "" then Ok(root)
    else match Lookup(root, path)
      case None => Err(PathNotFound(path))
      case Some(it) => Ok(it)
  }

  // ------------------------------------------------------------------------
  // Refs

  datatype RefKind = BranchRef | TagRef

  datatype RefInfo = RefInfo(name: string, kind: RefKind, commitSha: string, message: Option<string>)

  datatype Head = Head(name: string, commitSha: string)

  /** A tag names its target object; an annotated tag also carries a tag message. */
  datatype Tag = Tag(name: string, targetSha: string, annotation: Option<string>)

  function BranchInfo(h: Head): (r: RefInfo)
    ensures r.name == h.name && r.kind == BranchRef && r.commitSha == h.commitSha && r.message.None?
  {
    RefInfo(h.name, BranchRef, h.commitSha, None)
  }

  function TagInfo(t: Tag): (r: RefInfo)
    ensures r.name == t.name && r.kind == TagRef && r.commitSha == t.targetSha
    ensures r.message == t.annotation
  {
    RefInfo(t.name, TagRef, t.targetSha, t.annotation)
  }

  /** `sorted(refs, key=lambda r: r.name)`. */
  predicate RefLe(a: RefInfo, b: RefInfo) {
    StrLe(a.name, b.name)
  }

  lemma RefLeTotalPreorder()
    ensures TotalPreorder(RefLe)
  {
    forall a, b ensures RefLe(a, b) || RefLe(b, a) {
      StrLeTotal(a.name, b.name);
    }
    forall a, b, c | RefLe(a, b) && RefLe(b, c) ensures RefLe(a, c) {
      StrLeTransitive(a.name, b.name, c.name);
    }
  }

  /** `list_branches`: one entry per head, ordered by name. */
  function ListBranches(heads: seq<Head>): (r: seq<RefInfo>)
    ensures multiset(r) == multiset(MapSeq(BranchInfo, heads))
    ensures |r| == |heads|
    ensures Sorted(r, RefLe)
    ensures forall e | e in r :: e.kind == BranchRef && e.message.None?
  {
    RefLeTotalPreorder();
    var infos := MapSeq(BranchInfo, heads);
    var sorted := SortBy(infos, RefLe);
    assert |sorted| == |infos| by {
      assert |multiset(sorted)| == |multiset(infos)|;
    }
    assert forall e | e in sorted :: e.kind == BranchRef && e.message.None? by {
      forall e | e in sorted ensures e.kind == BranchRef && e.message.None? {
        assert e in multiset(infos);
      }
    }
    sorted
  }

  /** `list_tags`: one entry per tag, ordered by name, with annotated tags' messages. */
  function ListTags(tags: seq<Tag>): (r: seq<RefInfo>)
    ensures multiset(r) == multiset(MapSeq(TagInfo, tags))
    ensures |r| == |tags|
    ensures Sorted(r, RefLe)
    ensures forall e | e in r :: e.kind == TagRef
  {
    RefLeTotalPreorder();
    var infos := MapSeq(TagInfo, tags);
    var sorted := SortBy(infos, RefLe);
    assert |sorted| == |infos| by {
      assert |multiset(sorted)| == |multiset(infos)|;
    }
    assert forall e | e in sorted :: e.kind == TagRef by {
      forall e | e in sorted ensures e.kind == TagRef {
        assert e in multiset(infos);
      }
    }
    sorted
  }

  /** `get_branch_info`: the first head with the name, or an error. */
  function GetBranchInfo(heads: seq<Head>, name: string): (r: Result<RefInfo, string>)
    ensures r.Err? <==> forall k :: 0 <= k < |heads| ==> heads[k].name != name
    ensures r.Ok? ==> r.value.name == name && r.value.kind == BranchRef
    ensures r.Ok? ==> exists k :: 0 <= k < |heads| && r.value == BranchInfo(heads[k])
  {
    if heads == [] then Err("Branch '" + name + "' not found")
    else if heads[0].name == name then Ok(BranchInfo(heads[0]))
    else
      var r := GetBranchInfo(heads[1..], name);
      assert r.Ok? ==> exists k :: 0 <= k < |heads| && r.value == BranchInfo(heads[k]) by {
        if r.Ok? {
          var k :| 0 <= k < |heads[1..]| && r.value == BranchInfo(heads[1..][k]);
          assert heads[1..][k] == heads[k + 1];
        }
      }
      r
  }

  /** `get_tag_info`: the first tag with the name, or an error. */
  function GetTagInfo(tags: seq<Tag>, name: string): (r: Result<RefInfo, string>)
    ensures r.Err? <==> forall k :: 0 <= k < |tags| ==> tags[k].name != name
    ensures r.Ok? ==> r.value.name == name && r.value.kind == TagRef
    ensures r.Ok? ==> exists k :: 0 <= k < |tags| && r.value == TagInfo(tags[k])
  {
    if tags == [] then Err("Tag '" + name + "' not found")
    else if tags[0].name == name then Ok(TagInfo(tags[0]))
    else
      var r := GetTagInfo(tags[1..], name);
      assert r.Ok? ==> exists k :: 0 <= k < |tags| && r.value == TagInfo(tags[k]) by {
        if r.Ok? {
          var k :| 0 <= k < |tags[1..]| && r.value == TagInfo(tags[1..][k]);
          assert tags[1..][k] == tags[k + 1];
        }
      }
      r
  }

  // ------------------------------------------------------------------------
  // Commits

  datatype Commit = Commit(
    sha: string,
    authorName: string,
    authorEmail: string,
    committerName: string,
    committerEmail: string,
    message: Option<string>,
    committedDate: int,
    authoredDate: int,
    parents: seq<string>)

  datatype CommitInfo = CommitInfo(
    sha: string,
    authorName: string,
    authorEmail: string,
    committerName: string,
    committerEmail: string,
    message: string,
    summary: string,
    committedDate: int,
    authoredDate: int,
    parents: seq<string>)

  /** `message.split('\n')[0]`: the first line. */
  function Summary(message: string): (s: string)
    ensures '\n' !in s
    ensures StartsWith(message, s)
    ensures |s| < |message| ==> message[|s|] == '\n'
  {
    if '\n' in message then message[..IndexOf(message, '\n')] else message
  }

  /** The three properties above pin the summary down: it is the only such prefix. */
  lemma SummaryUnique(message: string, s: string)
    requires '\n' !in s && StartsWith(message, s)
    requires |s| < |message| ==> message[|s|] == '\n'
    ensures s == Summary(message)
  {
    var t := Summary(message);
    assert s == message[..|s|] && t == message[..|t|];
  }

  /** `_commit_to_info`: a missing message reads as "". */
  function CommitToInfo(c: Commit): (i: CommitInfo)
    ensures i.sha == c.sha && i.parents == c.parents
    ensures i.authorName == c.authorName && i.authorEmail == c.authorEmail
    ensures i.committerName == c.committerName && i.committerEmail == c.committerEmail
    ensures i.committedDate == c.committedDate && i.authoredDate == c.authoredDate
    ensures i.message == c.message.GetOr("")
    ensures i.summary == Summary(i.message)
    ensures i.message == "" ==> i.summary == ""
  {
    var m := c.message.GetOr("");
    CommitInfo(c.sha, c.authorName, c.authorEmail, c.committerName, c.committerEmail,
               m, Summary(m), c.committedDate, c.authoredDate, c.parents)
  }

  /** The first index a page keeps: `skip`, clipped into the history. */
  function PageStart(n: nat, skip: int): (lo: nat)
    ensures lo <= n
  {
    if skip <= 0 then 0 else if skip <= n then skip else n
  }

  /** One past the last index a page keeps: `skip + limit`, clipped into `[lo, n]`. */
  function PageEnd(n: nat, limit: int, skip: int): (hi: nat)
    ensures PageStart(n, skip) <= hi <= n
  {
    var lo := PageStart(n, skip);
    if skip + limit <= lo then lo else if skip + limit <= n then skip + limit else n
  }

  /** The history entries with indices in `[skip, skip + limit)`, in history order. */
  function Page(history: seq<Commit>, limit: int, skip: int): (r: seq<CommitInfo>)
    ensures |r| == PageEnd(|history|, limit, skip) - PageStart(|history|, skip)
    ensures forall i :: 0 <= i < |history| && skip <= i < skip + limit ==>
      0 <= i - PageStart(|history|, skip) < |r| && r[i - PageStart(|history|, skip)] == CommitToInfo(history[i])
    ensures limit >= 0 ==> |r| <= limit
  {
    var lo := PageStart(|history|, skip);
    var hi := PageEnd(|history|, limit, skip);
    MapSeq(CommitToInfo, history[lo..hi])
  }

  /** Two consecutive pages of one size make up the page of twice that size. */
  lemma PagesConcatenate(history: seq<Commit>, limit: nat, skip: nat)
    ensures Page(history, limit, skip) + Page(history, limit, skip + limit) == Page(history, 2 * limit, skip)
  {
    var n := |history|;
    var lo := PageStart(n, skip);
    var mid := PageEnd(n, limit, skip);
    var hi := PageEnd(n, 2 * limit, skip);
    assert PageStart(n, skip + limit) == mid && PageEnd(n, limit, skip + limit) == hi;
    assert history[lo..hi] == history[lo..mid] + history[mid..hi];
    MapSeqAppend(CommitToInfo, history[lo..mid], history[mid..hi]);
  }

  /**
   * `get_commits`: walk the history, skip the first `skip` entries and stop
   * once `skip + limit` have been seen.
   */
  method GetCommits(history: seq<Commit>, limit: int, skip: int) returns (r: seq<CommitInfo>)
    ensures r == Page(history, limit, skip)
  {
    r := [];
    var i := 0;
    ghost var lo := PageStart(|history|, skip);
    ghost var hi := PageEnd(|history|, limit, skip);
    while i < |history|
      invariant 0 <= i <= |history|
      invariant i <= hi
      invariant |r| == (if i <= lo then 0 else i - lo)
      invariant forall j :: 0 <= j < |r| ==> r[j] == CommitToInfo(history[lo + j])
    {
      if i < skip {
        i := i + 1;
        continue;
      }
      if i >= skip + limit {
        break;
      }
      r := r + [CommitToInfo(history[i])];
      i := i + 1;
    }
    assert |r| == hi - lo;
  }

  // ------------------------------------------------------------------------
  // Worktrees

  /** A handler bound to a repository on disk, bare or not. */
  datatype RepositoryHandler = RepositoryHandler(repoPath: string, isBare: bool)

  /** What a handler call did: the paths now present, the git commands issued, and its result. */
  datatype Effect<T> = Effect(fs: set<string>, commands: seq<seq<string>>, result: Result<T, string>)

  function WorktreeAddArgs(path: string, reference: string): (args: seq<string>)
    ensures |args| == 4 && args[..2] == ["worktree", "add"] && args[2] == path && args[3] == reference
  {
    ["worktree", "add", path, reference]
  }

  /** `['worktree', 'remove', path]`, with `--force` appended exactly when forced. */
  function RemoveWorktreeArgs(path: string, force: bool): (args: seq<string>)
    ensures |args| >= 3 && args[..3] == ["worktree", "remove", path]
    ensures force <==> |args| == 4
    ensures |args| == 3 || args[3] == "--force"
  {
    if force then ["worktree", "remove", path, "--force"] else ["worktree", "remove", path]
  }

  /**
   * `create_workdir`: the target directory is created first in every case.
   * A bare repository gets a worktree checked out at `path`, and the result is
   * that worktree; a non-bare repository is returned as it is. `open` is the
   * outcome of opening the repository, `add` that of `git worktree add`.
   */
  function CreateWorkdir(h: RepositoryHandler, fs: set<string>, path: string, reference: string,
                         open: StepOutcome, add: StepOutcome): (e: Effect<string>)
    ensures e.fs == fs + {path}
    ensures !h.isBare ==> e.commands == [] && (e.result.Ok? <==> open.StepOk?)
    ensures !h.isBare && e.result.Ok? ==> e.result.value == h.repoPath
    ensures h.isBare ==> e.commands == (if open.StepOk? then [WorktreeAddArgs(path, reference)] else [])
    ensures h.isBare ==> (e.result.Ok? <==> open.StepOk? && add.StepOk?)
    ensures h.isBare && e.result.Ok? ==> e.result.value == path
  {
    var fs' := fs + {path};
    if !h.isBare then
      Effect(fs', [], if open.StepOk? then Ok(h.repoPath) else Err(open.message))
    else if open.StepFailed? then
      Effect(fs', [], Err("Invalid git repository at " + h.repoPath + ": " + open.message))
    else if add.StepFailed? then
      Effect(fs', [WorktreeAddArgs(path, reference)], Err("Failed to create worktree: " + add.message))
    else
      Effect(fs', [WorktreeAddArgs(path, reference)], Ok(path))
  }

  /**
   * `delete_workdir` as evidently intended: `git worktree remove <path>`
   * (with `--force` when forced) run by the repository's git, which deletes
   * the worktree's directory when it succeeds; a git failure is reported as
   * "Failed to delete worktree". The handler as written does not get this
   * far: see `DeleteWorkdirAsWritten`.
   */
  function DeleteWorkdir(h: RepositoryHandler, fs: set<string>, path: string, force: bool,
                         open: StepOutcome, remove: StepOutcome): (e: Effect<bool>)
    ensures e.commands == (if open.StepOk? then [RemoveWorktreeArgs(path, force)] else [])
    ensures e.result.Ok? <==> open.StepOk? && remove.StepOk?
    ensures e.result.Ok? ==> e.result.value && e.fs == Paths.RemoveTree(fs, path)
    ensures e.result.Err? ==> e.fs == fs
  {
    if open.StepFailed? then
      Effect(fs, [], Err("Invalid git repository at " + h.repoPath + ": " + open.message))
    else if remove.StepFailed? then
      Effect(fs, [RemoveWorktreeArgs(path, force)], Err("Failed to delete worktree: " + remove.message))
    else
      Effect(Paths.RemoveTree(fs, path), [RemoveWorktreeArgs(path, force)], Ok(true))
  }

  /** An exception that leaves `delete_workdir` as written. */
  datatype Raised =
    | ValueError(message: string)
      /** `Git.execute` could not start the first element of `argv` as a program. */
    | GitCommandNotFound(argv: seq<string>)

  /**
   * `delete_workdir` as written: the argument list goes to `Git.execute`,
   * which runs its first element as the program. `worktree` is not a
   * program, so the call raises `GitCommandNotFound`; that is not a
   * `GitCommandError`, so it passes the `except` clause unwrapped, and no
   * path is removed. An unopenable repository still raises `ValueError`.
   */
  function DeleteWorkdirAsWritten(h: RepositoryHandler, fs: set<string>, path: string, force: bool,
                                  open: StepOutcome): (r: (set<string>, Result<bool, Raised>))
    ensures r.0 == fs && r.1.Err?
    ensures r.1.error.ValueError? <==> open.StepFailed?
    ensures r.1.error.GitCommandNotFound? ==>
      r.1.error.argv == RemoveWorktreeArgs(path, force) && r.1.error.argv[0] == "worktree"
  {
    if open.StepFailed? then
      (fs, Err(ValueError("Invalid git repository at " + h.repoPath + ": " + open.message)))
    else
      (fs, Err(GitCommandNotFound(RemoveWorktreeArgs(path, force))))
  }

  /**
   * As written, creating a worktree for a bare repository and deleting it
   * again leaves the worktree in place and raises something other than the
   * documented `ValueError`, for every path and either `force`; the
   * intended removal gives the paths back.
   */
  lemma DeleteAsWrittenKeepsWorktree(h: RepositoryHandler, fs: set<string>, path: string, reference: string,
                                     force: bool)
    requires h.isBare && forall p | p in fs :: !Paths.Under(p, path)
    ensures var created := CreateWorkdir(h, fs, path, reference, StepOk, StepOk);
      var deleted := DeleteWorkdirAsWritten(h, created.fs, path, force, StepOk);
      && created.result == Ok(path)
      && path in deleted.0 && deleted.0 != fs
      && deleted.1 == Err(GitCommandNotFound(RemoveWorktreeArgs(path, force)))
      && DeleteWorkdir(h, created.fs, path, force, StepOk, StepOk).fs == fs
  {
    var created := CreateWorkdir(h, fs, path, reference, StepOk, StepOk);
    assert path in created.fs && path !in fs;
  }

  /**
   * Creating a worktree for a bare repository and deleting it again leaves
   * the paths as they were, when nothing existed at the target before.
   */
  lemma WorkdirRoundTrip(h: RepositoryHandler, fs: set<string>, path: string, reference: string, force: bool,
                         remove: StepOutcome)
    requires h.isBare && forall p | p in fs :: !Paths.Under(p, path)
    requires CreateWorkdir(h, fs, path, reference, StepOk, StepOk).result.Ok?
    ensures var created := CreateWorkdir(h, fs, path, reference, StepOk, StepOk);
      var deleted := DeleteWorkdir(h, created.fs, path, force, StepOk, remove);
      && created.commands == [WorktreeAddArgs(path, reference)]
      && deleted.commands == [RemoveWorktreeArgs(path, force)]
      && (remove.StepOk? <==> deleted.fs == fs)
  {
    var created := CreateWorkdir(h, fs, path, reference, StepOk, StepOk);
    assert path in created.fs && path !in fs;
  }
}

=== FILE: repositories_models.dfy ===
/**
 * Repository records: a plain bare repository, optionally extended with mirror
 * metadata (the mirror table shares the repository's primary key), and the
 * sync-task audit records. Field defaults, uniqueness, the clone URL and the
 * display strings.
 */
module RepositoryModels {
  import opened Common
  import Tables

  type RepoId = nat
  type OrgId = nat

  /**
   * Mirror status (a plain repository has none). A mirror declares pending, initializing, active, failed
   * and paused; the sync task also writes `mirroring`, which Django stores
   * without checking the declared choices, so it is a value like the others.
   */
  datatype Status = Pending | Initializing | Mirroring | Active | Failed | Paused

  /** Whether the status is one of the mirror's declared choices. */
  predicate DeclaredMirrorStatus(s: Status) {
    !s.Mirroring?
  }

  datatype SourceType = GitHub | GitLab | Gitea | Bitbucket | Custom

  /** The columns the mirror table adds to a repository. */
  datatype MirrorInfo = MirrorInfo(
    sourceUrl: string,
    sourceType: SourceType,
    status: Status,
    lastSyncedAt: Option<Time>,
    syncInterval: int,
    autoSync: bool,
    errorMessage: string,
    consecutiveFailures: int)

  datatype Repository = Repository(
    name: string,
    description: string,
    organisation: OrgId,
    localPath: string,
    isBare: bool,
    isPublic: bool,
    owner: Option<nat>,
    mirror: Option<MirrorInfo>)

  /** A plain repository created with only its name, organisation and path given. */
  function NewRepository(name: string, org: OrgId, localPath: string): (r: Repository)
    ensures r.name == name && r.organisation == org && r.localPath == localPath
    ensures r.isBare && r.isPublic && r.owner.None? && r.mirror.None?
  {
    Repository(name, "", org, localPath, true, true, None, None)
  }

  /** A mirror created with only its name, organisation, path and source URL given. */
  function NewMirror(name: string, org: OrgId, localPath: string, sourceUrl: string): (r: Repository)
    ensures r.name == name && r.organisation == org && r.localPath == localPath
    ensures r.isBare && r.isPublic
    ensures r.mirror.Some? && r.mirror.value.sourceUrl == sourceUrl && r.mirror.value.status == Pending
    ensures r.mirror.value.sourceType == GitHub && r.mirror.value.syncInterval == 3600
    ensures r.mirror.value.autoSync && r.mirror.value.consecutiveFailures == 0
    ensures r.mirror.value.lastSyncedAt.None? && r.mirror.value.errorMessage == ""
  {
    Repository(name, "", org, localPath, true, true, None,
      Some(MirrorInfo(sourceUrl, GitHub, Pending, None, 3600, true, "", 0)))
  }

  function NameKey(r: Repository): (OrgId, string) { (r.organisation, r.name) }
  function PathKey(r: Repository): string { r.localPath }

  /** The table's constraints: `(organisation, name)` and `local_path` are each unique. */
  ghost predicate ValidRepositories(repos: map<RepoId, Repository>) {
    Tables.UniqueOn(repos, NameKey) && Tables.UniqueOn(repos, PathKey)
  }

  /** INSERT of a repository row under both constraints. */
  function AddRepository(repos: map<RepoId, Repository>, id: RepoId, r: Repository): (res: Result<map<RepoId, Repository>, Tables.IntegrityError>)
    ensures res.Ok? <==> id !in repos && Tables.KeyFree(repos, NameKey, r) && Tables.KeyFree(repos, PathKey, r)
    ensures res.Ok? ==> res.value == repos[id := r]
    ensures res.Ok? && ValidRepositories(repos) ==> ValidRepositories(res.value)
  {
    match Tables.Insert(repos, id, r, NameKey)
    case Err(e) => Err(e)
    case Ok(_) => Tables.Insert(repos, id, r, PathKey)
  }

  /** A second repository at an occupied `local_path` is refused, whatever its name. */
  lemma {:induction false} SharedPathRefused(repos: map<RepoId, Repository>, id: RepoId, r: Repository, id2: RepoId, r2: Repository)
    requires AddRepository(repos, id, r).Ok?
    requires r2.localPath == r.localPath
    ensures AddRepository(AddRepository(repos, id, r).value, id2, r2).Err?
  {
    var t := AddRepository(repos, id, r).value;
    assert id in t && PathKey(t[id]) == PathKey(r2);
  }

  /** `GitRepository.__str__`: "<organisation>/<name>". */
  function RepositoryLabel(orgName: string, r: Repository): (s: string)
    ensures StartsWith(s, orgName + "/") && EndsWith(s, r.name)
    ensures |s| == |orgName| + 1 + |r.name|
  {
    orgName + "/" + r.name
  }

  /** `GitMirrorRepository.__str__`: the repository label followed by " (mirror)". */
  function MirrorLabel(orgName: string, r: Repository): (s: string)
    ensures s == RepositoryLabel(orgName, r) + " (mirror)"
    ensures StartsWith(s, orgName + "/")
  {
    orgName + "/" + r.name + " (mirror)"
  }

  /** `git_url`: "https://<domain>/git/<organisation>/<name>.git". */
  function GitUrl(domain: string, orgName: string, r: Repository): (url: string)
    ensures StartsWith(url, "https://" + domain + "/git/")
    ensures EndsWith(url, RepositoryLabel(orgName, r) + ".git")
    ensures url == "https://" + domain + "/git/" + RepositoryLabel(orgName, r) + ".git"
  {
    "https://" + domain + "/git/" + orgName + "/" + r.name + ".git"
  }

  datatype SyncStatus = SyncPending | SyncRunning | SyncCompleted | SyncFailed

  datatype SyncTask = SyncTask(
    repository: RepoId,
    status: SyncStatus,
    startedAt: Option<Time>,
    completedAt: Option<Time>,
    errorMessage: string,
    commitsSynced: int,
    taskId: string)

  /**
   * The timestamps agree with the status: a pending task has neither, a
   * running one has only its start, a finished one has its completion.
   */
  predicate TimestampsConsistent(t: SyncTask) {
    match t.status
    case SyncPending => t.startedAt.None? && t.completedAt.None?
    case SyncRunning => t.startedAt.Some? && t.completedAt.None?
    case SyncCompleted => t.completedAt.Some?
    case SyncFailed => t.completedAt.Some?
  }

  /** A sync task created with only its repository and dispatcher handle given. */
  function NewSyncTask(repo: RepoId, taskId: string): (t: SyncTask)
    ensures t.repository == repo && t.taskId == taskId
    ensures t.status == SyncPending && t.commitsSynced == 0 && t.errorMessage == ""
    ensures TimestampsConsistent(t)
  {
    SyncTask(repo, SyncPending, None, None, "", 0, taskId)
  }

  function TaskIdKey(t: SyncTask): string { t.taskId }

  /** INSERT of a sync task: the dispatcher handle is unique. */
  function AddSyncTask(tasks: map<nat, SyncTask>, id: nat, t: SyncTask): (r: Result<map<nat, SyncTask>, Tables.IntegrityError>)
    ensures r.Ok? <==> id !in tasks && Tables.KeyFree(tasks, TaskIdKey, t)
    ensures r.Ok? ==> r.value == tasks[id := t]
    ensures r.Ok? && Tables.UniqueOn(tasks, TaskIdKey) ==> Tables.UniqueOn(r.value, TaskIdKey)
  {
    Tables.Insert(tasks, id, t, TaskIdKey)
  }
}

=== FILE: repositories_services.dfy ===
/**
 * Creating repositories: the serializer's create, which derives the storage
 * path from the organisation and the sanitised name, and the creation
 * service's `Init`, which initialises a bare repository on disk first and
 * saves the record afterwards.
 */
module RepositoryServices {
  import opened Common
  import Tables
  import opened Naming
  import opened RepositoryModels

  /**
   * The serializer's `create`: `local_path` is read-only for the client and is
   * derived here; every other validated field is stored as given.
   */
  function PrepareCreate(data: Repository, base: string): (r: Repository)
    ensures r.localPath == StorageLocalPath(base, data.organisation, data.name)
    ensures r.(localPath := data.localPath) == data
  {
    data.(localPath := StorageLocalPath(base, data.organisation, data.name))
  }

  /** `serializer.create` followed by the INSERT. */
  function Create(repos: map<RepoId, Repository>, id: RepoId, data: Repository, base: string): (r: Result<map<RepoId, Repository>, Tables.IntegrityError>)
    ensures r.Ok? <==> AddRepository(repos, id, PrepareCreate(data, base)).Ok?
    ensures r.Ok? ==> r.value == repos[id := PrepareCreate(data, base)]
    ensures r.Ok? && ValidRepositories(repos) ==> ValidRepositories(r.value)
  {
    AddRepository(repos, id, PrepareCreate(data, base))
  }

  /**
   * Two names of one organisation that sanitise alike ("my repo" and "myrepo")
   * map to one directory, so the second create is refused.
   */
  lemma {:induction false} SanitisedNameClash(repos: map<RepoId, Repository>, base: string, id1: RepoId, d1: Repository, id2: RepoId, d2: Repository)
    requires Create(repos, id1, d1, base).Ok?
    requires d1.organisation == d2.organisation && SafeName(d1.name) == SafeName(d2.name)
    ensures Create(Create(repos, id1, d1, base).value, id2, d2, base).Err?
  {
    StoragePathsCollide(base, d1.organisation, d1.name, d2.name);
    SharedPathRefused(repos, id1, PrepareCreate(d1, base), id2, PrepareCreate(d2, base));
  }

  /** The `Init` request. */
  datatype InitRequest = InitRequest(name: string, organisationId: OrgId, description: string)

  datatype InitError =
    | OrganisationNotFound
    | GitInitFailed(message: string)
    | UnexpectedKeyword(field: string)
    | Integrity(cause: Tables.IntegrityError)

  /** The tables and paths after `Init`, and its reply: the new id and path, or an error. */
  datatype InitResult = InitResult(
    repos: map<RepoId, Repository>,
    fs: set<string>,
    reply: Result<(RepoId, string), InitError>)

  /** The record `Init` means to save: the unsanitised name, bare, at the derived path. */
  function InitRecord(req: InitRequest, localPath: string): (r: Repository)
    ensures r.name == req.name && r.organisation == req.organisationId
    ensures r.description == req.description && r.localPath == localPath
    ensures r.isBare && r.isPublic && r.mirror.None?
  {
    Repository(req.name, req.description, req.organisationId, localPath, true, true, None, None)
  }

  /**
   * `Init` as written: after the organisation lookup and `git init --bare`,
   * the record is constructed with `status='active'`. The plain repository
   * table has no such column, and Django's model constructor refuses unknown
   * keyword arguments, so no record is ever saved. A failed `git init`
   * keeps whatever `Repo.init` made before git ran.
   */
  function InitAsWritten(repos: map<RepoId, Repository>, orgs: set<OrgId>, fs: set<string>,
                         id: RepoId, base: string, req: InitRequest, init: GitOutcome): (r: InitResult)
    ensures r.repos == repos && r.reply.Err?
    ensures req.organisationId !in orgs ==> r.reply == Err(OrganisationNotFound) && r.fs == fs
    ensures req.organisationId in orgs && init.GitFailed? ==>
      r.reply == Err(GitInitFailed(init.message)) && r.fs == fs + init.leftBehind
    ensures req.organisationId in orgs && init.GitDone? ==>
      r.reply == Err(UnexpectedKeyword("status")) && r.fs == fs + {FlatLocalPath(base, req.name)}
  {
    if req.organisationId !in orgs then InitResult(repos, fs, Err(OrganisationNotFound))
    else
      var lp := FlatLocalPath(base, req.name);
      if init.GitFailed? then InitResult(repos, fs + init.leftBehind, Err(GitInitFailed(init.message)))
      else InitResult(repos, fs + {lp}, Err(UnexpectedKeyword("status")))
  }

  /** As written, every successful `git init` leaves a bare repository on disk with no record. */
  lemma InitAsWrittenOrphansRepository(repos: map<RepoId, Repository>, orgs: set<OrgId>, fs: set<string>,
                                       id: RepoId, base: string, req: InitRequest)
    requires req.organisationId in orgs
    ensures var r := InitAsWritten(repos, orgs, fs, id, base, req, GitDone);
      && FlatLocalPath(base, req.name) in r.fs
      && r.repos == repos
      && r.reply.Err?
  {
  }

  /**
   * `Init` as intended: the organisation must exist; the bare repository is
   * initialised at `join(base, safe_name)` (no organisation directory) before
   * the record is saved, so a refused INSERT still leaves it on disk, and a
   * failed `git init` leaves whatever it made.
   */
  function Init(repos: map<RepoId, Repository>, orgs: set<OrgId>, fs: set<string>,
                id: RepoId, base: string, req: InitRequest, init: GitOutcome): (r: InitResult)
    ensures req.organisationId !in orgs ==> r == InitResult(repos, fs, Err(OrganisationNotFound))
    ensures req.organisationId in orgs && init.GitFailed? ==>
      r == InitResult(repos, fs + init.leftBehind, Err(GitInitFailed(init.message)))
    ensures req.organisationId in orgs && init.GitDone? ==>
      var lp := FlatLocalPath(base, req.name);
      var save := AddRepository(repos, id, InitRecord(req, lp));
      && r.fs == fs + {lp}
      && (r.reply.Ok? <==> save.Ok?)
      && (save.Ok? ==> r.repos == repos[id := InitRecord(req, lp)] && r.reply.value == (id, lp))
      && (save.Err? ==> r.repos == repos && r.reply == Err(Integrity(save.error)))
  {
    if req.organisationId !in orgs then InitResult(repos, fs, Err(OrganisationNotFound))
    else
      var lp := FlatLocalPath(base, req.name);
      if init.GitFailed? then InitResult(repos, fs + init.leftBehind, Err(GitInitFailed(init.message)))
      else
        match AddRepository(repos, id, InitRecord(req, lp))
        case Ok(repos') => InitResult(repos', fs + {lp}, Ok((id, lp)))
        case Err(e) => InitResult(repos, fs + {lp}, Err(Integrity(e)))
  }

  /** A successful `Init` saves the record with the name exactly as requested. */
  lemma InitSavesRecord(repos: map<RepoId, Repository>, orgs: set<OrgId>, fs: set<string>,
                        id: RepoId, base: string, req: InitRequest)
    requires req.organisationId in orgs
    requires Init(repos, orgs, fs, id, base, req, GitDone).reply.Ok?
    ensures var r := Init(repos, orgs, fs, id, base, req, GitDone);
      && id in r.repos && r.repos[id].name == req.name && r.repos[id].isBare
      && r.repos[id].localPath == FlatLocalPath(base, req.name)
      && r.repos[id].localPath in r.fs
  {
  }

  /**
   * Because `Init` leaves the organisation out of the path, the same name in
   * a second organisation is refused by the `local_path` constraint.
   */
  lemma {:induction false} InitCollidesAcrossOrganisations(repos: map<RepoId, Repository>, orgs: set<OrgId>, fs: set<string>,
                                          base: string, id1: RepoId, req1: InitRequest, id2: RepoId, req2: InitRequest)
    requires req1.organisationId in orgs && req2.organisationId in orgs
    requires Init(repos, orgs, fs, id1, base, req1, GitDone).reply.Ok?
    requires SafeName(req1.name) == SafeName(req2.name)
    ensures var r1 := Init(repos, orgs, fs, id1, base, req1, GitDone);
      Init(r1.repos, orgs, r1.fs, id2, base, req2, GitDone).reply.Err?
  {
    var lp := FlatLocalPath(base, req1.name);
    FlatPathsCollide(base, req1.name, req2.name);
    SharedPathRefused(repos, id1, InitRecord(req1, lp), id2, InitRecord(req2, lp));
  }
}

=== FILE: tables.dfy ===
/**
 * Database tables as maps from primary key to row, with the `unique` and
 * `unique_together` constraints the storage layer enforces: an INSERT whose
 * key is already taken fails with an integrity error and changes nothing.
 */
module Tables {
  import opened Common

  /** The table satisfies the uniqueness constraint `key`. */
  ghost predicate UniqueOn<I, R, K>(t: map<I, R>, key: R -> K) {
    forall i, j :: i in t && j in t && i != j ==> key(t[i]) != key(t[j])
  }

  /** No row of the table already has the key of `row`. */
  predicate KeyFree<I, R, K(==)>(t: map<I, R>, key: R -> K, row: R) {
    forall i | i in t :: key(t[i]) != key(row)
  }

  datatype IntegrityError = DuplicatePrimaryKey | DuplicateUniqueKey

  lemma InsertKeepsUnique<I, R, K>(t: map<I, R>, id: I, row: R, key: R -> K)
    requires id !in t
    requires forall i | i in t :: key(t[i]) != key(row)
    ensures UniqueOn(t, key) ==> UniqueOn(t[id := row], key)
  {
  }

  /** INSERT under one uniqueness constraint besides the primary key. */
  function Insert<I, R, K(==)>(t: map<I, R>, id: I, row: R, key: R -> K): (r: Result<map<I, R>, IntegrityError>)
    ensures r.Ok? <==> id !in t && KeyFree(t, key, row)
    ensures r.Ok? ==> r.value == t[id := row]
    ensures r.Ok? && UniqueOn(t, key) ==> UniqueOn(r.value, key)
  {
    if id in t then Err(DuplicatePrimaryKey)
    else if !KeyFree(t, key, row) then Err(DuplicateUniqueKey)
    else
      InsertKeepsUnique(t, id, row, key);
      Ok(t[id := row])
  }

  /** After a successful insert, a second row with the same key is refused. */
  lemma {:induction false} SecondInsertRefused<I, R, K>(t: map<I, R>, id: I, row: R, id2: I, row2: R, key: R -> K)
    requires Insert(t, id, row, key).Ok?
    requires key(row2) == key(row)
    ensures Insert(Insert(t, id, row, key).value, id2, row2, key).Err?
  {
    var t' := Insert(t, id, row, key).value;
    assert id in t' && key(t'[id]) == key(row2);
  }
}
